=== FILE: README.md ===
# pycrastinate, modelled in Dafny

pycrastinate is a memoisation library for Python pipelines built from *stages*.

- **Stage results.** A stage is a function whose results are cached on disk.
  - The key is a *stage hash*. It combines the hash of the function's normalised source with the hashes of its arguments.
  - A stage parameter may default to `Result(other_stage, ...)`, which is a *data dependency*. Calling the stage first computes or loads that other stage's result.
  - A stage parameter may also default to `Use(func)`, which is a *function dependency*. That function's source, and recursively the sources of its own function dependencies, enter the hash.
  - A stage result is stored under `stage_results/<two hex digits>/<rest of the hex digits>` of the stage hash. It is stored together with the timing and a record of how every argument can be restored.
- **Hooks.** A hook is a function whose parameters all default to `Subscription(stage, when=...)` or `Use(func)`.
  - For every subscription, the hook registers a callback on the subscribed stage.
  - After every computation, a stage notifies its callbacks. The callback decides from the hook's persisted state whether the subscription's condition holds: `different_from_last` or `different_from_all`.
  - If the condition holds, the callback gathers the last results of the other subscriptions and calls the hook.
  - A change of the hook's code, or of its function dependencies, invalidates what the hook has already run on.

## How the model is built

The model follows the library's own modules.

**Modules and what they model**

| Module | Models |
|---|---|
| `Core` | The data model, including the mutable `Stage` and `Hook` objects |
| `Arguments` | `args.py` |
| `ArgAggregation` | `utils/arg_aggregation.py` |
| `Hashing` | `utils/hashing.py` |
| `Functions` | `utils/functions.py` |
| `FunctionDependencies` | `dependencies/function_dependency.py` |
| `ResultDependencies` | `dependencies/result_dependency.py` |
| `StagePersistence` | `stages/persistence.py` |
| `HookPersistence` | `hooks/persistence.py` |
| `Execution` | `stages/execution.py` |
| `Hooks` | `hooks/hook.py` |
| `Stages` | `stages/stage.py`, together with `prepare_execution` |

`prepare_execution`, `ResultDependency.resolve` and `Stage.compute_or_load_result` call each other recursively, so they share the module `Stages`.

**How the model is written**

- **Imperative code.** Code that works by updating variables or objects is written as methods with loops and invariants. Each such method is proved against a function that specifies it:
  - `ArgAggregation.AggregateArgs` against `Aggregate`;
  - `Hooks.ParseDependencies` against `ParsePrefix`;
  - `Hashing.StripWhitespacePrefixes` against `PrefixAsWritten`.
- **Mutable objects.** Objects whose fields the library updates are classes:
  - `Core.Stage`, whose `hookCallbacks` grow;
  - `Core.Hook`;
  - `HookPersistence.HookState`.

  A stage's `stage_func` and a hook's `hook_func` are set by the constructors, and the library never reassigns them, so they are constant fields here; see `Core.Stage` under Left out.
- **The world.** The file system, the clock and the user's function bodies are the object `Storage.Runtime`:
  - the stage result files and the hook state files are maps from path to the stored object;
  - the clock is a field that advances by the duration of every call;
  - calling a user function is the function `run`.
- **Ghost logs.** Three logs let contracts count what happened: the functions executed, the hook calls, and the notifications.
- **Hashing and parsing.** pickle, SHA-256, `ast.parse`/`ast.unparse` and UTF-8 encoding are library code. They are the fields of `Hashing.Primitives`, passed to every operation that hashes; the model does not interpret them.
- **Acyclic stage graphs.** The library assumes the stage dependency graph is acyclic and does not check it. The model states this as `Core.Closed`: every stage carries a ghost `rank`, and every stage a stage reaches has a smaller rank. This is what makes the mutual recursion terminate. Its part about the stage functions alone, `Core.Ranked`, does not read the stages' callbacks, so it survives hook registration unchanged.

Behaviour the model keeps exactly as the code has it:

- **A missing stored result.** Loading a reference that was never stored fails with an error (`MissingRecord`). In the code, `load_from_reference` reads an attribute of `None`.
- **Name-length limit of zero.** `get_full_func_name` with `max_length=0` keeps the whole name, because `name[-0:]` is the whole string.
- **Hook creation order.**
  - `Hook.__init__` registers its callbacks before it hashes the hook's function dependencies.
  - If hashing then fails, the callbacks stay registered on the stages.
  - A parameter that is not a subscription or a function dependency raises before anything is registered.

Two places where the code is evidently wrong are modelled as intended, and the code as written is kept beside them. They are the whitespace stripping in `hashing.py` and the result references in `prepare_execution`; see Findings.

## Model

| member | source | states |
|---|---|---|
| Arguments.MergeArgs | pycrastinate/args.py:22-32 | Without an override the defaults come back unchanged. Otherwise the override's positionals fill the first slots and the defaults' positionals fill the rest (the length is the larger of the two). The named values are the union, with the override winning every conflict. |
| Functions.FullFuncName | pycrastinate/utils/functions.py:10-14 | The result is always a suffix of `module.qualname`. With no limit it is the whole name. With a positive limit it is at most that long, and a name within the limit is kept whole. |
| Functions.LongNameKeepsSuffix | pycrastinate/utils/functions.py:12-13 | A name longer than a positive limit keeps exactly its last `limit` characters. |
| Functions.ZeroLimitKeepsWholeName | pycrastinate/utils/functions.py:12-13 | A limit of zero keeps the whole (never empty) name, because Python's `[-0:]` is the whole string. |
| Functions.ArgDefaultValues | pycrastinate/utils/functions.py:17-24 | Every entry comes from a parameter with that name that declares that default. |
| Functions.ArgDefaultValuesExact | pycrastinate/utils/functions.py:17-24 | With distinct parameter names, a name appears exactly when its parameter declares a default, and it maps to that default. |
| ArgAggregation.AggregateArgs | pycrastinate/utils/arg_aggregation.py:34-102 | The loop with its running position equals the fold `Aggregate` over the parameters. It raises on the first parameter given an illegal value. |
| ArgAggregation.ErrorPersists | pycrastinate/utils/arg_aggregation.py:58-80 | Once a parameter is rejected, the whole aggregation fails with that parameter's error. |
| ArgAggregation.StepShape | pycrastinate/utils/arg_aggregation.py:82-100 | One loop iteration records exactly the placement `Placed` prescribes, under the parameter's name: a supplied literal is kept, supplied `Args` go with a `Result` default, and an unset parameter is classified by its default. |
| ArgAggregation.StepPlacesParam | pycrastinate/utils/arg_aggregation.py:82-100 | After one iteration for a new name, that name's entries in the four maps are exactly `Placed`. |
| ArgAggregation.StepAddsOnlyParam | pycrastinate/utils/arg_aggregation.py:82-100 | One iteration adds no name other than the parameter's own. |
| ArgAggregation.StepKeepsOthers | pycrastinate/utils/arg_aggregation.py:82-100 | One iteration leaves every other name's entries unchanged. |
| ArgAggregation.AggregatePrefixPlaces | pycrastinate/utils/arg_aggregation.py:44-100 | With distinct names, after the first `n` parameters every one of them is placed as `Placed` says, and no other name appears. |
| ArgAggregation.AggregatePlaces | pycrastinate/utils/arg_aggregation.py:34-102 | A successful aggregation places every parameter as `Placed` says and holds no other names. |
| ArgAggregation.AggregateOkIff | pycrastinate/utils/arg_aggregation.py:58-80 | Aggregation succeeds if and only if no parameter is rejected for what it was supplied. |
| ArgAggregation.AggregateWithoutArgsSucceeds | pycrastinate/utils/arg_aggregation.py:46-56 | Aggregating without call arguments never raises. |
| ArgAggregation.DataDependencyArgsHaveDependency | pycrastinate/utils/arg_aggregation.py:72-95 | Every parameter that received `Args` also has its `Result` default recorded as a data dependency. |
| ArgAggregation.FuncDependenciesFromDefaults | pycrastinate/utils/arg_aggregation.py:88-97 | Every function dependency found is the `Use` default of the parameter with that name. |
| ArgAggregation.DataDependenciesFromDefaults | pycrastinate/utils/arg_aggregation.py:88-95 | Every data dependency found is the `Result` default of the parameter with that name. |
| ArgAggregation.AggregateDependsOnlyOnSupplied | pycrastinate/utils/arg_aggregation.py:45-56 | Two calls that supply the same value for every parameter aggregate alike. |
| ArgAggregation.PositionalOrNamedAgree | pycrastinate/utils/arg_aggregation.py:46-53 | Passing a value as the next positional or by its parameter's name gives the same aggregation. |
| ArgAggregation.GreetWithoutArgs | tests/test_arg_aggregation.py:9-16 | For `greet(greeting, age=25, name="Janine")` without arguments, only the two defaults appear. |
| ArgAggregation.GreetOverrideName | tests/test_arg_aggregation.py:19-26 | A positional `"Hi"` and a named `"Donald"` replace the parameter and the default they target. |
| ArgAggregation.RepeatedGreetingsAgree | tests/test_arg_aggregation.py:49-66 | Passing a value equal to the default, or passing nothing, gives equal aggregations. |
| Hashing.ValueHashIdentifiesEncoding | pycrastinate/utils/hashing.py:18-21 | `compute_value_hash` (`ValueHash`): two values hash alike exactly when they serialise alike, unless SHA-256 collides on the two serialisations. |
| Hashing.SplitLines | pycrastinate/utils/hashing.py:30 | Splitting on newlines gives at least one piece, and no piece contains a newline. |
| Hashing.SplitJoin | pycrastinate/utils/hashing.py:30-42 | Joining newline-free lines and splitting the result gives the lines back. |
| Hashing.JoinSplit | pycrastinate/utils/hashing.py:30-42 | Splitting a text and joining the pieces gives the text back. |
| Hashing.StripWhitespacePrefixes | pycrastinate/utils/hashing.py:24-42 | The nested loops compute the prefix `PrefixAsWritten`, and every line loses that many leading characters. |
| Hashing.PrefixOfFirstLine | pycrastinate/utils/hashing.py:31-39 | The stripped prefix never grows and is always a prefix of the first line, for both inner ranges. |
| Hashing.StripKeepsLines | pycrastinate/utils/hashing.py:41-42 | Stripping keeps the number of lines, and the stripped text splits back into exactly the stripped lines. |
| Hashing.StripLines | pycrastinate/utils/hashing.py:41 | Line `i` of the result is line `i` with the prefix's length cut off, or empty when the line is shorter. |
| Hashing.StripRemovesOnlyWhitespace | pycrastinate/utils/hashing.py:31-41 | With the corrected inner range, every character cut from a line is whitespace and equals the common prefix at that position. Every line is exactly what was cut followed by what is kept. |
| Hashing.AsWrittenStripLosesCode | pycrastinate/utils/hashing.py:33 | With the range as written, the lines `"  def f():"` and `" x"` get the prefix `"  "`, and the second line loses its `x`. The corrected scan settles on `" "` and keeps it. |
| Hashing.CodeHash | pycrastinate/utils/hashing.py:48-70 | Succeeds exactly when the stripped source parses to a single function definition. A syntax error or any other shape raises `InvalidFunctionSource`. |
| Hashing.CodeHashIgnoresName | pycrastinate/utils/hashing.py:57-66 | Two functions that differ only in the defined name have the same code hash. |
| FunctionDependencies.FuncDeps | pycrastinate/dependencies/function_dependency.py:59-63 | Every function dependency found in a signature is the `Use` default of the parameter with that name. |
| FunctionDependencies.HasNoDataDependencies | pycrastinate/dependencies/function_dependency.py:28-47 | A function that declares a data dependency itself never passes the check. |
| FunctionDependencies.HasNoDataDependenciesIff | pycrastinate/dependencies/function_dependency.py:28-47 | The recursive check holds if and only if no function anywhere in the dependency tree declares a data dependency. |
| FunctionDependencies.NestedHashes | pycrastinate/dependencies/function_dependency.py:59-63 | The nested hashes are keyed by exactly the function's own function-dependency parameters. |
| FunctionDependencies.RecursiveHash | pycrastinate/dependencies/function_dependency.py:49-66 | A failure is always the code-hash failure `InvalidFunctionSource`. |
| FunctionDependencies.RecursiveHashOkIff | pycrastinate/dependencies/function_dependency.py:49-66 | The recursive hash succeeds if and only if every function reachable in the dependency tree, along any path of `Use` defaults, has a code hash. |
| FunctionDependencies.StageHashedThroughStageFunc | pycrastinate/dependencies/function_dependency.py:55-56 | A stage used as a function dependency is hashed as its `stage_func`. |
| FunctionDependencies.RecursiveHashIgnoresDataDefaults | pycrastinate/dependencies/function_dependency.py:49-66 | Two functions with the same source and the same function dependencies hash alike, whatever their literal and `Result` defaults. |
| FunctionDependencies.FuncDepsIgnoreResultDefaults | pycrastinate/dependencies/function_dependency.py:59-63 | Replacing one `Result` default by another leaves the function dependencies unchanged. |
| FunctionDependencies.Collect | pycrastinate/utils/hashing.py:76-80 | All the hashes come back under the same names exactly when every one succeeded. Otherwise the failure comes back. |
| FunctionDependencies.FunctionDependencyHashes | pycrastinate/utils/hashing.py:73-80 | Succeeds exactly when every dependency's recursive hash succeeds. It then maps each dependency name to that recursive hash. A failure is the failure of some dependency's recursive hash. |
| ResultDependencies.CheckCachable | pycrastinate/dependencies/result_dependency.py:35-46 | No error exactly when no function dependency of the stage function has data dependencies. An error is `NonCachableFunctionDependency` and names the first such parameter in parameter order. |
| ResultDependencies.NewResultDependency | pycrastinate/dependencies/result_dependency.py:17-27 | Construction succeeds exactly for a cachable stage, and keeps the stage, the arguments and the metadata flag as given. |
| ResultDependencies.ResultWithDefaults | pycrastinate/dependencies/result_dependency.py:61-70 | `Result(stage)` has empty arguments and no metadata, and it fails exactly for a stage that is not cachable. |
| StagePersistence.Hex | pycrastinate/stages/persistence.py:30 | The hex encoding has two lower-case hex digits per byte. |
| StagePersistence.HexInjective | pycrastinate/stages/persistence.py:30 | Different bytes give different hex encodings. |
| StagePersistence.StageResultPath | pycrastinate/stages/persistence.py:29-40 | The path is `dir/stage_results/<2 digits>/<rest>`, and the last two components spell out the hash's hex encoding. |
| StagePersistence.DistinctHashesDistinctPaths | pycrastinate/stages/persistence.py:29-40 | Different hashes are never stored under the same path. |
| StagePersistence.SaveStageResult | pycrastinate/stages/persistence.py:8-14 | Writes the record at the hash's path and leaves every other file unchanged. |
| StagePersistence.LoadStageResult | pycrastinate/stages/persistence.py:17-21 | Gives the record at the hash's path, or `None` when there is no such file. |
| StagePersistence.SaveThenLoad | pycrastinate/stages/persistence.py:8-21 | Loading after saving under the same directory and hash gives back the saved record. |
| StagePersistence.SaveKeepsOtherHashes | pycrastinate/stages/persistence.py:8-21 | Saving one hash changes nothing that loads for any other hash. |
| StagePersistence.NeverSavedLoadsNone | pycrastinate/stages/persistence.py:8-21 | In a cache that started empty, a hash that was never saved loads as `None`. |
| HookPersistence.Invalidated | pycrastinate/hooks/persistence.py:43-45 | Invalidation forgets the executed references and keeps the lookup reference. |
| HookPersistence.InvalidatedAll | pycrastinate/hooks/persistence.py:42-45 | Every argument state is invalidated, and no argument is added or dropped. |
| HookPersistence.Recorded | pycrastinate/hooks/persistence.py:49-57 | The lookup reference and the last executed reference become the hash, and the hash joins the executed references. |
| HookPersistence.HookCodeHash | pycrastinate/hooks/persistence.py:36-37 | Succeeds exactly when the hook's code hash does. It is then the value hash of (code hash, dependency hashes). |
| HookPersistence.AfterCodeUpdate | pycrastinate/hooks/persistence.py:30-47 | The new hash is stored. Argument states are invalidated exactly when a hash was stored before and it differs. |
| HookPersistence.ConsistencyPreserved | pycrastinate/hooks/persistence.py:30-57 | Code updates and recording keep every last executed reference among the executed references. |
| HookPersistence.HookState.constructor | pycrastinate/hooks/persistence.py:25-28 | A new state has no code hash and no argument states. |
| HookPersistence.HookState.UpdateCodeHash | pycrastinate/hooks/persistence.py:30-47 | Raises, changing nothing, exactly when the code hash fails. Otherwise it reports whether the combined hash differs from the stored one, and the new state is `AfterCodeUpdate` of the old one. |
| HookPersistence.HookState.RecordTriggered | pycrastinate/hooks/persistence.py:49-57 | The argument's state, created when missing, becomes `Recorded`, and no other argument changes. |
| HookPersistence.HookStatePath | pycrastinate/hooks/persistence.py:64-66 | The path is `dir/hook_states/<name>`, and the name is at most 255 characters. |
| HookPersistence.LoadedRecord | pycrastinate/hooks/persistence.py:69-76 | Gives the stored record, or a fresh state when no file exists. |
| HookPersistence.LoadHookState | pycrastinate/hooks/persistence.py:69-76 | Gives a new state object holding `LoadedRecord`. |
| HookPersistence.SaveHookState | pycrastinate/hooks/persistence.py:79-85 | Loading after saving gives back the saved record, and every other file is unchanged. |
| HookPersistence.FreshStateUpdateStoresHash | tests/hooks/test_hook_state.py:5-14 | The first update of a fresh state stores the hash and has nothing to invalidate. |
| HookPersistence.RepeatedUpdateIsIdle | tests/hooks/test_hook_state.py:41-60 | After an update the stored hash is the new one, so a second update with the same hash reports no change (by `UpdateCodeHash`'s contract) and changes nothing. |
| HookPersistence.CodeChangeKeepsLookups | tests/hooks/test_hook_state.py:16-39 | A code change clears the executed references and keeps every lookup reference. |
| Execution.DependencyArg | pycrastinate/stages/execution.py:48-51 | A data-dependency argument carries the whole invocation exactly when metadata was asked for, and it always carries the invocation's result. |
| Execution.CallArgs | pycrastinate/stages/execution.py:58-62 | Data-dependency results override function dependencies, which override literals of the same name. No other name appears. |
| Execution.LiteralHashes | pycrastinate/stages/execution.py:64-68 | Every literal argument is hashed by its value. |
| Execution.ExecutionDataOf | pycrastinate/stages/execution.py:73-79 | The corrected `ExecutionData`: every literal has a call value, and the result references are the dependencies' stage hashes. |
| Execution.ExecutionDataAsWritten | pycrastinate/stages/execution.py:78 | As written, the result references equal the dependencies' value hashes. |
| Execution.ArgHashes | pycrastinate/stages/execution.py:87-91 | Function-dependency hashes override data-dependency hashes, which override literal hashes. No other name appears. |
| Execution.StageHashIdentifiesCall | pycrastinate/stages/execution.py:87-93 | The stage hash (`StageHash`) is equal for two calls exactly when their code hashes and their argument-hash maps are equal, unless serialisation or SHA-256 collides on the two. Argument values and result references do not enter it. The maps are compared as maps; see "## Left out". |
| Execution.PersistedArgs | pycrastinate/stages/execution.py:108-125 | Literals are recorded by value, data dependencies by reference and function dependencies by recursive hash, with the later kinds winning. |
| Execution.ExecToResult | pycrastinate/stages/execution.py:139-154 | Runs the function once. The invocation holds its result, its arguments, the start time and the duration, and the clock advances by the duration. |
| Execution.ExecOrLoad | pycrastinate/stages/execution.py:82-136 | Raises, changing nothing, exactly when the code hash fails. Otherwise the returned hash is `StageHash` of the code hash and the prepared data, and the invocation's arguments are the prepared call arguments. A stored record is reused without running. Otherwise the function runs once on the prepared arguments, that run is the last execution logged, and its record is saved (`ExecutedOrLoaded`). Either way the returned result is stored under the returned stage hash, and no stored record changes. |
| Execution.LoadResultValue | pycrastinate/stages/stage.py:89-97 | Gives the stored result, or `MissingRecord` when nothing is stored. |
| Execution.RestoredArg | pycrastinate/stages/execution.py:169-198 | A literal is restored as its value. A function reference becomes the declared `Use` function. A result reference is loaded from the store of the declared `Result` stage. A missing or mismatched default raises. |
| Execution.LoadFromReference | pycrastinate/stages/execution.py:157-208 | Without metadata gives the stored result. With metadata gives the stored invocation with every argument restored. It succeeds exactly when the record exists and, with metadata, every argument restores (`Loadable`). A missing record raises `MissingRecord`; otherwise an error is the error of some argument that fails to restore (`LoadRaises`). |
| Execution.LoadResult | pycrastinate/stages/stage.py:89-97 | Loads from the stage's own cache directory. The result has metadata exactly when asked for. It succeeds exactly when `Loadable` holds, and an error is one `LoadRaises` allows. |
| Execution.LoadRaisesNotLoadable | pycrastinate/stages/execution.py:157-208 | A load that raises is not loadable, and what it raises is a missing record or a missing or mismatched default. |
| Execution.StageHashReferenceRestores | pycrastinate/stages/execution.py:174-185 | A reference recorded under the producer's stage hash restores the producer's result. |
| Execution.ValueHashReferenceMissesRecord | pycrastinate/stages/execution.py:78 | With the reference as written (the value hash of the result), restoring fails with `MissingRecord` although the producer's result is stored. |
| Hooks.CondDifferentFromLast | pycrastinate/hooks/hook.py:31-40 | Never holds without a result hash. With no state for the argument, it holds for every result. Otherwise it holds exactly when the result differs from the last one the hook ran on. |
| Hooks.CondDifferentFromAll | pycrastinate/hooks/hook.py:42-51 | Never holds without a result hash. With no state for the argument, it holds for every result. Otherwise it holds exactly when the hook never ran on the result. |
| Hooks.Triggers | pycrastinate/hooks/hook.py:53-58 | Dispatches on the subscription's `when` to the matching condition. A first result for an argument always fires. |
| Hooks.NoHashNeverTriggers | pycrastinate/hooks/hook.py:31-51 | Neither condition holds without a result hash. |
| Hooks.RecordedResultDoesNotTrigger | pycrastinate/hooks/hook.py:31-51 | Right after a result is recorded, neither condition holds again for that result. |
| Hooks.RecordingKeepsOtherArguments | pycrastinate/hooks/hook.py:31-51 | Recording for one argument does not change the conditions of the others. |
| Hooks.CodeChangeTriggersAgain | pycrastinate/hooks/hook.py:31-51 | After a code change, every condition holds for every result. |
| Hooks.FromAllImpliesFromLast | pycrastinate/hooks/hook.py:31-51 | In a consistent state, a result new to all runs is also new to the last run. |
| Hooks.Firings | pycrastinate/hooks/hook.py:147-160 | Gives one firing decision per result in the sequence. |
| Hooks.DifferentFromLastSequence | tests/hooks/test_hooks.py:159-175 | With `different_from_last`, the results `a, a, b` fire on the first and the third. |
| Hooks.DifferentFromAllSequence | tests/hooks/test_hooks.py:177-212 | With `different_from_all`, the results `a, b, a, c` fire on all but the repeated `a`. |
| Hooks.ParseDependencies | pycrastinate/hooks/hook.py:83-108 | The loop equals the fold `ParsePrefix`: it sorts subscriptions from function dependencies and raises on the first bad parameter. |
| Hooks.ParseOkIff | pycrastinate/hooks/hook.py:87-108 | Parsing succeeds if and only if every parameter defaults to a subscription or a function dependency. |
| Hooks.ParseSorts | pycrastinate/hooks/hook.py:87-108 | After a successful parse, the subscriptions are exactly the parameters with a subscription default, and the function dependencies exactly those with a `Use` default, each under its parameter's name. |
| Hooks.ParseErrorPersists | pycrastinate/hooks/hook.py:87-108 | The first bad parameter decides the error. |
| Hooks.Registrations | pycrastinate/hooks/hook.py:115-118 | Every callback registered on a stage belongs to the hook. |
| Hooks.RegistrationsWellFormed | pycrastinate/hooks/hook.py:115-118 | Every registered callback names one of the hook's subscriptions. |
| Hooks.RegisterCallbacks | pycrastinate/hooks/hook.py:115-118 | Every stage's callbacks grow by exactly one callback per subscription to it, in parameter order, and the stage graph stays closed. |
| Hooks.NewHook | pycrastinate/hooks/hook.py:62-75 | A bad parameter raises and registers nothing. Otherwise the callbacks are registered and the dependency hashes are stored. A failing hash raises after registration. |
| Hooks.GetMissingResultReferences | pycrastinate/hooks/hook.py:194-208 | Gives `None` exactly when a required subscription has no lookup reference. Otherwise gives every subscription's reference. |
| Hooks.LoadMissingResults | pycrastinate/hooks/hook.py:211-230 | Every referenced result is loaded with its metadata, and an unreferenced optional subscription gets an empty slot. A `None` outcome means a required one is unreferenced. When every referenced result loads, the outcome is not an error. An error is the load error of some referenced subscription. |
| Hooks.GatherOtherResults | pycrastinate/hooks/hook.py:165-183 | Gives `None` exactly when a required subscription lacks a reference. The other subscriptions' results come back exactly when no required one lacks a reference and every referenced one loads (`OthersLoadable`), and it raises exactly when none lacks a reference and some referenced one does not load. Each slot holds what is stored under the subscription's reference. An error is the load error of one of them. |
| Hooks.GetMissingSubscriptionData | pycrastinate/hooks/hook.py:147-187 | The triggering result is always recorded. The data comes back exactly when the condition holds in the state before recording, no required other subscription lacks a reference, and every referenced result loads (`Ready` and `OthersLoadable`). It raises exactly when the hook is ready and some referenced result does not load, and the error is the load error of another subscription. Every subscription then gets a slot: the triggering one holds the triggering result, and the others what is stored under their references. |
| Hooks.ConvertMetadata | pycrastinate/hooks/hook.py:233-244 | A subscription with metadata receives the invocation, any other only its result, and an empty slot becomes `None`. |
| Hooks.UpdateHookState | pycrastinate/hooks/hook.py:126-137 | The state is loaded, updated, recorded and saved. The subscription data comes back exactly when the hook fires (`HookFires`). It raises exactly when the hook fails (`HookFails`: the code hash fails, or the hook is ready and a referenced result does not load), with an error `HookRaises` allows. Nothing is saved on an error. |
| Hooks.ExecuteHook | pycrastinate/hooks/hook.py:120-145 | The state file becomes the updated and recorded state. The hook is called exactly when it fires (`HookFires`): its code hashes, its condition holds in the stored state, no required other subscription lacks a reference and every referenced result loads. The call's arguments are the triggering result in its slot and, in every other slot, the result stored under the recorded reference (`HookCallData`). It raises exactly when the hook fails (`HookFails`), with an error `HookRaises` allows, and the error leaves the state files and the call log unchanged. |
| Hooks.HookRaisesMayRaise | pycrastinate/hooks/hook.py:120-187 | Whatever the stored state, a hook notification raises only the hook's code-hash failure, or a load error when the hook has another subscription. |
| Stages.Notifications | pycrastinate/stages/stage.py:71-87 | Gives one notification per callback, in registration order, each with the hash and the result. |
| Stages.ResolveDataDependencies | pycrastinate/stages/execution.py:43-56 | Every data dependency is resolved. Its value is restorable from its reference and is hashed by its result. Its reference is the stage hash of a call of the dependency's stage on its declared arguments merged with the passed ones, as `HashedCall` computes it against the final store (`AllHashed`). An error is one that calling some dependency's stage, on its merged arguments, may raise (`MayRaise`). Every function run meanwhile belongs to a stage ranked below the bound. |
| Stages.PreparedOf | pycrastinate/stages/execution.py:58-79 | The data assembled from resolved dependencies satisfies `Prepared`: each data-dependency argument is its resolved result, restorable from its reference and hashed by its result; a function dependency not shadowed by a data dependency is passed as the function; a literal shadowed by neither is passed as its value, and every literal is hashed by value. Its hashes satisfy `HashesPrepared`: every reference is the stage hash of the dependency's call on its merged arguments (`DependencyHashed`). |
| Stages.PrepareExecution | pycrastinate/stages/execution.py:37-79 | The result satisfies `Prepared`, so every call argument is fixed: resolved results, functions and literal values, with data dependencies overriding function dependencies overriding literals. Each result reference is the stage hash the dependency's stage gets on its merged arguments, computed recursively down the ranks (`HashesPrepared`). Its function hashes are `FunctionDependencyHashes`, and the store only grows. An error comes from a data dependency or from the function-dependency hashes (`DependenciesMayRaise`). Every function run meanwhile belongs to a stage ranked below the bound. |
| Stages.Resolve | pycrastinate/dependencies/result_dependency.py:48-58 | The dependency's stage is computed on the given (merged) arguments as `ComputedAs` says: they aggregate, the execution data was prepared from them, the returned hash is the `StageHash` of the stage's code hash and the hashes prepared from them, with every nested reference pinned the same way (`HashedCall`), and the result is the stored one or a run of the stage function on the prepared arguments. The result is stored under the returned hash. An error is one `MayRaise` allows for that stage. Only that stage and stages below it run. |
| Stages.ComputeOrLoad | pycrastinate/stages/stage.py:54-69 | An aggregation error raises with nothing changed. On success the call is `ComputedAs`: the arguments aggregate, the data prepared from them satisfies `Prepared` against the store as it was after the dependencies resolved, the function dependencies are hashed by `FunctionDependencyHashes`, the returned hash is `StageHash` of the code hash and that data, and every result reference in it is itself the stage hash of the dependency's call on its merged arguments (`HashedCall`), and the result is the record stored under it or a run of the stage function on the prepared arguments, logged last. A result stored before the call is the one returned, and on a hit every function run during the call belongs to a stage ranked below this one. The result is stored under its hash. The stage's callbacks are notified last, each once, in order. An error is one `MayRaise` allows: aggregation, a dependency, a code hash or a hook. |
| Stages.ExecuteAndNotify | pycrastinate/stages/stage.py:61-69 | Once the arguments are aggregated: the call is `ComputedAs`, the result is stored under its hash, and a result stored before the call is the one returned; on a hit every function run belongs to a stage ranked below this one. The stage's callbacks are notified last, each once, in order. An error is one `MayRaise` allows. |
| Stages.NotifyHooks | pycrastinate/stages/stage.py:68-69 | Returns the computed hash and invocation unchanged unless a hook raised. Without an error the stage's callbacks are the last notified, each once, in order; an error is one `MayRaise` allows. |
| Stages.PrepareAndExecute | pycrastinate/stages/stage.py:61-67 | The call of the stage on the aggregated arguments is `ComputedAs`: the prepared data satisfies `Prepared`, its function hashes are `FunctionDependencyHashes`, the returned hash is `HashedCall`'s stage hash of the call, and the invocation is the stage function's run or load on that data. The result is stored under its hash, and a result stored before the call is reused: every function run then belongs to a stage ranked below this one. An error comes from preparing the execution or from the code hash. |
| Stages.HashedCallDetermined | pycrastinate/stages/execution.py:37-93 | Against a given store, the hashes prepared for a call and its stage hash are unique: they depend only on the stage and the arguments. |
| Stages.HashedCallExtends | pycrastinate/stages/execution.py:43-56 | A call hashed against a store keeps its stage hash in any store that extends it. |
| Stages.ExecutionFailureMayRaise | pycrastinate/stages/stage.py:60-67 | A failure of the preparation or of the code hash is a failure the stage call may raise. |
| Stages.HookFailureMayRaise | pycrastinate/stages/stage.py:68 | A failure raised by one of the stage's hooks is a failure the stage call may raise. |
| Stages.CallCallback | pycrastinate/hooks/hook.py:115-145 | One registered callback, `_execute_hook` with its argument name bound: the notification is logged. It raises exactly when the hook fails (`HookFails`), with an error `HookRaises` allows, and leaves the hook state files unchanged. Otherwise the state file becomes the updated and recorded state, and the hook is called exactly when it fires (`HookFires`), once, with the arguments `HookCallData` describes. |
| Stages.RunHooks | pycrastinate/stages/stage.py:71-87 | Without an error, every callback is notified once, in registration order. A hook error stops the loop at the callback it names: the callbacks up to it were notified, and the error is one `HookRaises` allows for that callback. Each callback calls its hook at most once. |
| Stages.CallStage | pycrastinate/stages/stage.py:40-46 | The returned value is the result of the invocation `compute_or_load_result` computed (`ComputedAs`), and it loads from the stage's store under the computed stage hash. An aggregation error changes nothing. An error is one `MayRaise` allows. Only this stage and stages below it run. |
| Stages.AggregationBounded | pycrastinate/stages/stage.py:60-61 | Every dependency a stage's aggregation finds is a stage of strictly smaller rank. |
| Core.Stage.constructor | pycrastinate/stages/stage.py:19-30 | A new stage keeps its function and cache directory and has no callbacks. |
| Core.Stage.CacheDir | pycrastinate/stages/stage.py:32-38 | Gives the stage's own directory when one was given, else the global one. |
| Core.Stage.RegisterHook | pycrastinate/stages/stage.py:48-52 | Appends the callback at the end. |
| Core.Hook.CacheDir | pycrastinate/hooks/hook.py:77-79 | Gives the hook's own directory when one was given, else the global one. |

## Left out

**Primitives passed in as parameters**
- The meaning of pickle, SHA-256, `ast.parse`/`ast.unparse`, UTF-8 encoding and `inspect.getsource`. They are the uninterpreted fields of `Hashing.Primitives`, and each `Func` carries its source text.
- The bodies of user functions. The model only calls them through `Runtime.run`.
- The wall clock. Each call's duration is given by the parameter `durationOf`.

**Not modelled**
- The order in which Python iterates over dictionaries in `prepare_execution`, `load_from_reference` and `_load_missing_results`. Iteration is over an unspecified order of keys, and the contracts hold for every order. Where several keys fail, the members below therefore name some failing key, not the first.
- Concurrency, logging (`pycrastinate/logging.py`) and the configuration file (`pycrastinate/config.py`).
- The `stage` and `hook` decorators, which only call the constructors.
- `pycrastinate/utils/encoding.py` and `pycrastinate/utils/persistence.py` (pickling to files). Each is a map update or a map lookup here.
- The commented-out memoisation of recursive hashes in `function_dependency.py`.
- Core.Stage: replacing `stage_func` on a live stage object, as the tests `tests/dependencies/test_func_dependencies.py` do, is not modelled. A changed function is modelled as a different `Func` in a new stage graph; `Execution.StageHashIdentifiesCall` shows that a different code hash gives a different stage hash.
- Core.Hook: replacing `hook_func` on a live hook object, as `tests/hooks/test_hooks.py` does, is not modelled in the same way. A changed hook function is a different `Func` in a new hook, whose code hash `HookPersistence.HookCodeHash` computes afresh.
- Cyclic stage graphs. The library would recurse forever on one, and `Core.Closed` excludes them.
- Exceptions thrown by user code, and I/O errors. Only the errors the library raises itself are modelled.

**Weaker contracts**
- Hashing.CodeHash: hashes the source stripped by the corrected whitespace scan (`StripCommonWhitespace`), not by the loop range as written; see Findings, row 1.
- Stages.PrepareExecution: records each result reference as the producer's stage hash (`ExecutionDataOf`), not as the value hash the code records; see Findings, row 2.
- Execution.LoadFromReference: when several arguments fail to restore, the error is that of some failing argument, not of the first in the record's order.
- Hooks.LoadMissingResults: when several referenced results fail to load, the error is that of some failing subscription, not of the first in dictionary order.
- Stages.ResolveDataDependencies: when several data dependencies fail, the error is that of some failing dependency, not of the first in dictionary order. Each reference is pinned to the dependency's merged arguments by `AllHashed`, and the record stored under it holds the argument's value. That the record came from a run of the dependency's stage function, rather than from an earlier run cached under the same hash, is stated per dependency by `Stages.Resolve`, whose `ComputedAs` names the execution log of the moment, which later dependencies extend.
- Execution.StageHashIdentifiesCall: pickle serialises a dictionary in insertion order, and `exec_or_load` builds the argument hashes as `{**non_dep, **data_dep, **func_dep}`, so the serialised bytes also depend on the order in which names were inserted. The model keeps the argument hashes as an unordered map, so two calls with equal maps but different insertion orders hash alike here, while the library may give them different stage hashes. The same holds for the function-dependency hashes inside `HookPersistence.HookCodeHash` and `FunctionDependencies.RecursiveHash`.
- Stages.ComputeOrLoad: a hook's failure is described by `HookMayRaise`, which holds for any stored hook state: the hook's code hash fails, or it is a load error and the hook has another subscription. The exact condition for one notification is stated by `Stages.CallCallback` and `Hooks.ExecuteHook`. "Only stages ranked below ran" compares functions by value, so a lower stage sharing this stage's function is not told apart.
- Stages.ExecuteAndNotify: the same caveats as `Stages.ComputeOrLoad`.
- Stages.PrepareAndExecute: the same cache-hit caveat as `Stages.ComputeOrLoad`.
- Stages.Resolve: failures are described by `MayRaise`, with hooks as in `Stages.ComputeOrLoad`.
- Stages.CallStage: failures are described by `MayRaise`, with hooks as in `Stages.ComputeOrLoad`.
- Stages.RunHooks: bounds the hook calls by one per notified callback and names the callback that raised, but does not say which callbacks called their hook or with what arguments. Those are stated per call by `Hooks.ExecuteHook` and `Stages.CallCallback`.

## Findings

Neither finding was executed. For each, the model keeps the as-written member beside the corrected one, and the rest of the model uses the corrected one.

| source | as written | input that shows it | evidently intended | confidence | as-written member | corrected member |
|---|---|---|---|---|---|---|
| pycrastinate/utils/hashing.py:33 | The inner loop uses `range(1, min(len(prefix), len(line)))`, so the prefix length equal to the shorter length is never compared. A line indented one less than the current prefix loses its first non-blank character. | lines `"  def f():"`, `" x"`: the prefix stays `"  "` and the second line becomes `""` | `range(1, min(...) + 1)`: strip only common whitespace | not executed | Hashing.AsWrittenStripLosesCode | Hashing.StripRemovesOnlyWhitespace |
| pycrastinate/stages/execution.py:78 | `result_reference_hashes=data_dependency_hashes` records each data dependency by the value hash of its result, which is not the key its stored record lives under. | The producer's record is stored under stage hash `h`, and the value hash of its result differs from `h`. Loading the consumer with metadata then fails with a missing record. | `result_reference_hashes=result_reference_hashes`: the producer's stage hash | not executed | Execution.ValueHashReferenceMissesRecord | Execution.StageHashReferenceRestores |

=== FILE: arg_aggregation.dfy ===
/**
 * Classifying a function's parameters, given the arguments of one call, into
 * literal arguments, data dependencies (with the `Args` passed for them) and
 * function dependencies, and rejecting dependency markers passed as values.
 */
module ArgAggregation {
  import opened Wrappers
  import opened Core

  /** `ArgsAggregationResult`; equality of two results compares all four maps. */
  datatype AggregationResult = AggregationResult(
    nonDependencyArgs: map<string, Value>,
    dataDependencies: map<string, ResultDependency>,
    dataDependencyArgs: map<string, Args>,
    funcDependencies: map<string, FunctionDependency>)

  const EmptyAggregation := AggregationResult(map[], map[], map[], map[])

  /** The names of the first `n` parameters. */
  ghost function NamesUpTo(params: seq<Param>, n: nat): set<string>
    requires n <= |params|
  {
    if n == 0 then {} else NamesUpTo(params, n - 1) + {params[n - 1].name}
  }

  /** With distinct names, a parameter's name is not among those of the parameters before it. */
  lemma {:induction false} NameNotBefore(params: seq<Param>, k: nat, n: nat)
    requires DistinctNames(params) && n <= k < |params|
    ensures params[k].name !in NamesUpTo(params, n)
  {
    if n > 0 {
      NameNotBefore(params, k, n - 1);
    }
  }

  /** Every name that appears as a key in one of the four maps. */
  ghost function Keys(r: AggregationResult): set<string> {
    r.nonDependencyArgs.Keys + r.dataDependencies.Keys + r.dataDependencyArgs.Keys + r.funcDependencies.Keys
  }

  /**
   * The value a call supplies for the parameter at position `pos` named `name`:
   * a positional value takes precedence over a named one.
   */
  function Supplied(args: Option<Args>, pos: nat, name: string): Option<Value> {
    if args.Some? && pos < |args.value.positional| then Some(args.value.positional[pos])
    else if args.Some? && name in args.value.named then Some(args.value.named[name])
    else None
  }

  /** The error raised for parameter `p` when `supplied` is passed for it, if any. */
  function Rejection(p: Param, supplied: Option<Value>): Option<Error> {
    match supplied
    case None => None
    case Some(v) =>
      match v
      case UseRes(_) => Some(ResultDependencyPassedAsValue(p.name))
      case UseFn(_) => Some(FunctionDependencyPassedAsValue(p.name))
      case Bundle(_) =>
        if p.default.Some? && p.default.value.UseRes? then None else Some(ArgsForNonDataDependency(p.name))
      case _ => None
  }

  /** Records parameter `p` given what was supplied for it (the loop body of `aggregate_args`). */
  function Step(acc: AggregationResult, p: Param, supplied: Option<Value>): AggregationResult {
    var recorded :=
      match supplied
      case None => acc
      case Some(v) =>
        if v.Bundle? then acc.(dataDependencyArgs := acc.dataDependencyArgs[p.name := v.args])
        else acc.(nonDependencyArgs := acc.nonDependencyArgs[p.name := v]);
    if p.default.Some? && (supplied.None? || supplied.value.Bundle?) then
      match p.default.value
      case UseRes(rd) => recorded.(dataDependencies := recorded.dataDependencies[p.name := rd])
      case UseFn(fd) => recorded.(funcDependencies := recorded.funcDependencies[p.name := fd])
      case d => recorded.(nonDependencyArgs := recorded.nonDependencyArgs[p.name := d])
    else
      recorded
  }

  /** The state of the aggregation after the first `n` parameters. */
  function AggregatePrefix(params: seq<Param>, args: Option<Args>, n: nat): Result<AggregationResult, Error>
    requires n <= |params|
  {
    if n == 0 then Ok(EmptyAggregation)
    else
      match AggregatePrefix(params, args, n - 1)
      case Err(e) => Err(e)
      case Ok(acc) =>
        var s := Supplied(args, n - 1, params[n - 1].name);
        match Rejection(params[n - 1], s)
        case Some(e) => Err(e)
        case None => Ok(Step(acc, params[n - 1], s))
  }

  function Aggregate(params: seq<Param>, args: Option<Args>): Result<AggregationResult, Error> {
    AggregatePrefix(params, args, |params|)
  }

  /**
   * `aggregate_args`: one pass over the parameters with a running position
   * counter, filling the four maps and raising on the first illegal value.
   */
  method AggregateArgs(func: Func, args: Option<Args>) returns (r: Result<AggregationResult, Error>)
    ensures r == Aggregate(func.params, args)
  {
    var params := func.params;
    var nonDependencyArgs: map<string, Value> := map[];
    var dataDependencies: map<string, ResultDependency> := map[];
    var dataDependencyArgs: map<string, Args> := map[];
    var funcDependencies: map<string, FunctionDependency> := map[];
    var argPos := -1;
    var i := 0;
    while i < |params|
      invariant 0 <= i <= |params| && argPos == i - 1
      invariant AggregatePrefix(params, args, i)
        == Ok(AggregationResult(nonDependencyArgs, dataDependencies, dataDependencyArgs, funcDependencies))
    {
      var p := params[i];
      argPos := argPos + 1;
      var argValue: Value;
      var argSet: bool;
      if args.Some? && argPos < |args.value.positional| {
        argValue, argSet := args.value.positional[argPos], true;
      } else if args.Some? && p.name in args.value.named {
        argValue, argSet := args.value.named[p.name], true;
      } else {
        argValue, argSet := Plain(NoneDatum), false;
      }

      if argSet && argValue.UseRes? {
        ErrorPersists(params, args, i + 1);
        return Err(ResultDependencyPassedAsValue(p.name));
      } else if argSet && argValue.UseFn? {
        ErrorPersists(params, args, i + 1);
        return Err(FunctionDependencyPassedAsValue(p.name));
      } else if argSet && argValue.Bundle? && (p.default.None? || !p.default.value.UseRes?) {
        ErrorPersists(params, args, i + 1);
        return Err(ArgsForNonDataDependency(p.name));
      }

      if argSet {
        if argValue.Bundle? {
          dataDependencyArgs := dataDependencyArgs[p.name := argValue.args];
        } else {
          nonDependencyArgs := nonDependencyArgs[p.name := argValue];
        }
      }

      if p.default.Some? && (!argSet || argValue.Bundle?) {
        match p.default.value {
          case UseRes(rd) => dataDependencies := dataDependencies[p.name := rd];
          case UseFn(fd) => funcDependencies := funcDependencies[p.name := fd];
          case _ => nonDependencyArgs := nonDependencyArgs[p.name := p.default.value];
        }
      }
      i := i + 1;
    }
    r := Ok(AggregationResult(nonDependencyArgs, dataDependencies, dataDependencyArgs, funcDependencies));
  }

  /** Once a parameter is rejected, the whole aggregation fails with that error. */
  lemma {:induction false} ErrorPersists(params: seq<Param>, args: Option<Args>, n: nat)
    requires n <= |params| && AggregatePrefix(params, args, n).Err?
    ensures Aggregate(params, args) == AggregatePrefix(params, args, n)
    decreases |params| - n
  {
    if n < |params| {
      assert AggregatePrefix(params, args, n + 1) == AggregatePrefix(params, args, n);
      ErrorPersists(params, args, n + 1);
    }
  }

  // ---------------------------------------------------------------------------
  // An independent, per-parameter statement of the classification rules.

  /** Where one parameter ends up: its entry in each of the four maps, if any. */
  datatype Placement = Placement(
    nonDependency: Option<Value>,
    dataDependency: Option<ResultDependency>,
    dataDependencyArgs: Option<Args>,
    funcDependency: Option<FunctionDependency>)

  function Get<V>(m: map<string, V>, k: string): Option<V> {
    if k in m then Some(m[k]) else None
  }

  function Lookup(r: AggregationResult, name: string): Placement {
    Placement(Get(r.nonDependencyArgs, name), Get(r.dataDependencies, name),
              Get(r.dataDependencyArgs, name), Get(r.funcDependencies, name))
  }

  /**
   * The rules: a supplied literal is kept and the default ignored; a supplied
   * `Args` goes to the data-dependency arguments (and the `Result` default to the
   * data dependencies); an unset parameter is classified by its default's kind;
   * an unset parameter without default appears nowhere.
   */
  function Placed(p: Param, supplied: Option<Value>): Placement {
    var given := supplied.Some?;
    var bundle := given && supplied.value.Bundle?;
    var useDefault := p.default.Some? && (!given || bundle);
    Placement(
      if given && !bundle then supplied
      else if !given && p.default.Some? && !p.default.value.UseRes? && !p.default.value.UseFn? then p.default
      else None,
      if useDefault && p.default.value.UseRes? then Some(p.default.value.result) else None,
      if bundle then Some(supplied.value.args) else None,
      if useDefault && p.default.value.UseFn? then Some(p.default.value.dependency) else None)
  }

  /** `m` with `k` mapped to the placed value, or `m` itself when nothing is placed. */
  function Put<V>(m: map<string, V>, k: string, o: Option<V>): (r: map<string, V>)
    ensures o.Some? ==> r == m[k := o.value]
    ensures o.None? ==> r == m
  {
    if o.Some? then m[k := o.value] else m
  }

  /** The aggregation `acc` with a placement recorded under `name`. */
  function Placing(acc: AggregationResult, name: string, pl: Placement): AggregationResult {
    AggregationResult(Put(acc.nonDependencyArgs, name, pl.nonDependency), Put(acc.dataDependencies, name, pl.dataDependency),
                      Put(acc.dataDependencyArgs, name, pl.dataDependencyArgs), Put(acc.funcDependencies, name, pl.funcDependency))
  }

  /** The loop body of `aggregate_args` records exactly what `Placed` says, under the parameter's name. */
  lemma StepShape(acc: AggregationResult, p: Param, s: Option<Value>)
    requires Rejection(p, s).None?
    ensures Step(acc, p, s) == Placing(acc, p.name, Placed(p, s))
  {
    if s.Some? {
      SuppliedStepShape(acc, p, s);
    } else {
      DefaultStepShape(acc, p);
    }
  }

  lemma SuppliedStepShape(acc: AggregationResult, p: Param, s: Option<Value>)
    requires s.Some? && Rejection(p, s).None?
    ensures Step(acc, p, s) == Placing(acc, p.name, Placed(p, s))
  {
    if s.value.Bundle? {
      assert Step(acc, p, s) == acc.(dataDependencyArgs := acc.dataDependencyArgs[p.name := s.value.args],
                                     dataDependencies := acc.dataDependencies[p.name := p.default.value.result]);
    } else {
      assert Step(acc, p, s) == acc.(nonDependencyArgs := acc.nonDependencyArgs[p.name := s.value]);
    }
  }

  lemma DefaultStepShape(acc: AggregationResult, p: Param)
    ensures Step(acc, p, None) == Placing(acc, p.name, Placed(p, None))
  {
    var r := Step(acc, p, None);
    var pl := Placed(p, None);
    if p.default.None? {
      assert pl == Placement(None, None, None, None);
      assert r == acc;
    } else if p.default.value.UseRes? {
      assert pl == Placement(None, Some(p.default.value.result), None, None);
      assert r == acc.(dataDependencies := acc.dataDependencies[p.name := p.default.value.result]);
    } else if p.default.value.UseFn? {
      assert pl == Placement(None, None, None, Some(p.default.value.dependency));
      assert r == acc.(funcDependencies := acc.funcDependencies[p.name := p.default.value.dependency]);
    } else {
      assert pl == Placement(p.default, None, None, None);
      assert r == acc.(nonDependencyArgs := acc.nonDependencyArgs[p.name := p.default.value]);
    }
  }

  lemma StepPlacesParam(acc: AggregationResult, p: Param, s: Option<Value>)
    requires p.name !in Keys(acc) && Rejection(p, s).None?
    ensures Lookup(Step(acc, p, s), p.name) == Placed(p, s)
  {
    StepShape(acc, p, s);
  }

  lemma StepAddsOnlyParam(acc: AggregationResult, p: Param, s: Option<Value>)
    requires p.name !in Keys(acc) && Rejection(p, s).None?
    ensures Keys(Step(acc, p, s)) <= Keys(acc) + {p.name}
  {
    StepShape(acc, p, s);
  }

  lemma StepKeepsOthers(acc: AggregationResult, p: Param, s: Option<Value>)
    requires p.name !in Keys(acc) && Rejection(p, s).None?
    ensures forall m :: m != p.name ==> Lookup(Step(acc, p, s), m) == Lookup(acc, m)
  {
    StepShape(acc, p, s);
  }

  /**
   * With distinct parameter names, a successful aggregation places every
   * parameter exactly as `Placed` says, and holds no other names.
   */
  lemma {:induction false} AggregatePrefixPlaces(params: seq<Param>, args: Option<Args>, n: nat)
    requires DistinctNames(params) && n <= |params|
    requires AggregatePrefix(params, args, n).Ok?
    ensures Keys(AggregatePrefix(params, args, n).value) <= NamesUpTo(params, n)
    ensures forall i :: 0 <= i < n ==>
      Lookup(AggregatePrefix(params, args, n).value, params[i].name) == Placed(params[i], Supplied(args, i, params[i].name))
  {
    if n > 0 {
      AggregatePrefixPlaces(params, args, n - 1);
      var acc := AggregatePrefix(params, args, n - 1).value;
      var p := params[n - 1];
      var s := Supplied(args, n - 1, p.name);
      var r := AggregatePrefix(params, args, n).value;
      assert r == Step(acc, p, s);
      NameNotBefore(params, n - 1, n - 1);
      StepPlacesParam(acc, p, s);
      StepAddsOnlyParam(acc, p, s);
      StepKeepsOthers(acc, p, s);
      forall i | 0 <= i < n - 1
        ensures Lookup(r, params[i].name) == Placed(params[i], Supplied(args, i, params[i].name))
      {
        assert params[i].name != p.name;
      }
    }
  }

  lemma AggregatePlaces(params: seq<Param>, args: Option<Args>)
    requires DistinctNames(params) && Aggregate(params, args).Ok?
    ensures Keys(Aggregate(params, args).value) <= NamesUpTo(params, |params|)
    ensures forall i :: 0 <= i < |params| ==>
      Lookup(Aggregate(params, args).value, params[i].name) == Placed(params[i], Supplied(args, i, params[i].name))
  {
    AggregatePrefixPlaces(params, args, |params|);
  }

  /** Aggregation succeeds exactly when no parameter is given an illegal value. */
  lemma {:induction false} AggregateOkIff(params: seq<Param>, args: Option<Args>, n: nat)
    requires n <= |params|
    ensures AggregatePrefix(params, args, n).Ok? <==>
      forall i :: 0 <= i < n ==> Rejection(params[i], Supplied(args, i, params[i].name)).None?
  {
    if n > 0 {
      AggregateOkIff(params, args, n - 1);
    }
  }

  /** A call that supplies no arguments never fails. */
  lemma AggregateWithoutArgsSucceeds(params: seq<Param>)
    ensures Aggregate(params, None).Ok?
  {
    AggregateOkIff(params, None, |params|);
  }

  /**
   * Every parameter that receives `Args` has a data dependency: `Args` are only
   * accepted for a parameter whose default is a `Result`, which is then recorded.
   */
  lemma {:induction false} DataDependencyArgsHaveDependency(params: seq<Param>, args: Option<Args>, n: nat)
    requires n <= |params| && AggregatePrefix(params, args, n).Ok?
    ensures AggregatePrefix(params, args, n).value.dataDependencyArgs.Keys
         <= AggregatePrefix(params, args, n).value.dataDependencies.Keys
  {
    if n > 0 {
      DataDependencyArgsHaveDependency(params, args, n - 1);
    }
  }

  /** Each function dependency found comes from a parameter whose default is that dependency. */
  lemma {:induction false} FuncDependenciesFromDefaults(params: seq<Param>, args: Option<Args>, n: nat)
    requires n <= |params| && AggregatePrefix(params, args, n).Ok?
    ensures forall k :: k in AggregatePrefix(params, args, n).value.funcDependencies ==>
      exists i :: 0 <= i < n && params[i].name == k &&
        params[i].default == Some(UseFn(AggregatePrefix(params, args, n).value.funcDependencies[k]))
  {
    if n > 0 {
      FuncDependenciesFromDefaults(params, args, n - 1);
      var acc := AggregatePrefix(params, args, n - 1).value;
      var r := AggregatePrefix(params, args, n).value;
      forall k | k in r.funcDependencies
        ensures exists i :: 0 <= i < n && params[i].name == k && params[i].default == Some(UseFn(r.funcDependencies[k]))
      {
        if k == params[n - 1].name && params[n - 1].default.Some? && params[n - 1].default.value.UseFn?
           && Supplied(args, n - 1, k).None? {
          assert params[n - 1].default == Some(UseFn(r.funcDependencies[k]));
        } else {
          assert k in acc.funcDependencies && r.funcDependencies[k] == acc.funcDependencies[k];
        }
      }
    }
  }

  /** Each data dependency found comes from a parameter whose default is that dependency. */
  lemma {:induction false} DataDependenciesFromDefaults(params: seq<Param>, args: Option<Args>, n: nat)
    requires n <= |params| && AggregatePrefix(params, args, n).Ok?
    ensures forall k :: k in AggregatePrefix(params, args, n).value.dataDependencies ==>
      exists i :: 0 <= i < n && params[i].name == k &&
        params[i].default == Some(UseRes(AggregatePrefix(params, args, n).value.dataDependencies[k]))
  {
    if n > 0 {
      DataDependenciesFromDefaults(params, args, n - 1);
      var acc := AggregatePrefix(params, args, n - 1).value;
      var r := AggregatePrefix(params, args, n).value;
      forall k | k in r.dataDependencies
        ensures exists i :: 0 <= i < n && params[i].name == k && params[i].default == Some(UseRes(r.dataDependencies[k]))
      {
        var s := Supplied(args, n - 1, k);
        if k == params[n - 1].name && params[n - 1].default.Some? && params[n - 1].default.value.UseRes?
           && (s.None? || s.value.Bundle?) {
          assert params[n - 1].default == Some(UseRes(r.dataDependencies[k]));
        } else {
          assert k in acc.dataDependencies && r.dataDependencies[k] == acc.dataDependencies[k];
        }
      }
    }
  }

  /**
   * Aggregation sees a call only through what it supplies per parameter, so
   * supplying the same value positionally or by name gives equal results.
   */
  lemma {:induction false} AggregateDependsOnlyOnSupplied(params: seq<Param>, a1: Option<Args>, a2: Option<Args>, n: nat)
    requires n <= |params|
    requires forall i :: 0 <= i < n ==> Supplied(a1, i, params[i].name) == Supplied(a2, i, params[i].name)
    ensures AggregatePrefix(params, a1, n) == AggregatePrefix(params, a2, n)
  {
    if n > 0 {
      AggregateDependsOnlyOnSupplied(params, a1, a2, n - 1);
    }
  }

  /**
   * Passing the value for parameter `k` by name instead of as the last
   * positional value gives the same aggregation.
   */
  lemma PositionalOrNamedAgree(params: seq<Param>, positional: seq<Value>, v: Value, named: map<string, Value>)
    requires |positional| < |params| && DistinctNames(params)
    requires params[|positional|].name !in named
    ensures Aggregate(params, Some(Args(positional + [v], named)))
         == Aggregate(params, Some(Args(positional, named[params[|positional|].name := v])))
  {
    var k := |positional|;
    var a1 := Some(Args(positional + [v], named));
    var a2 := Some(Args(positional, named[params[k].name := v]));
    forall i | 0 <= i < |params|
      ensures Supplied(a1, i, params[i].name) == Supplied(a2, i, params[i].name)
    {
      if i < k {
        assert (positional + [v])[i] == positional[i];
      } else if i > k {
        assert params[i].name != params[k].name;
      }
    }
    AggregateDependsOnlyOnSupplied(params, a1, a2, |params|);
  }

  // ---------------------------------------------------------------------------
  // The signature `greet(greeting, age=25, name="Janine")` and
  // `greet(name="Jonas", repetitions=1)` used to illustrate the rules.

  function Str(s: string): Value { Plain(StrDatum(s)) }
  function Int(i: int): Value { Plain(IntDatum(i)) }

  function Greet(): seq<Param> {
    [Param("greeting", None), Param("age", Some(Int(25))), Param("name", Some(Str("Janine")))]
  }

  /** Without arguments only the defaults appear; the parameter without default is absent. */
  lemma GreetWithoutArgs()
    ensures Aggregate(Greet(), None)
         == Ok(EmptyAggregation.(nonDependencyArgs := map["age" := Int(25), "name" := Str("Janine")]))
  {
    var g := Greet();
    assert AggregatePrefix(g, None, 1) == Ok(EmptyAggregation);
    assert AggregatePrefix(g, None, 2) == Ok(EmptyAggregation.(nonDependencyArgs := map["age" := Int(25)]));
  }

  /** A positional and a named value override the defaults they replace. */
  lemma GreetOverrideName()
    ensures Aggregate(Greet(), Some(Args([Str("Hi")], map["name" := Str("Donald")])))
         == Ok(EmptyAggregation.(nonDependencyArgs := map["greeting" := Str("Hi"), "age" := Int(25), "name" := Str("Donald")]))
  {
    var g := Greet();
    var a := Some(Args([Str("Hi")], map["name" := Str("Donald")]));
    assert AggregatePrefix(g, a, 1) == Ok(EmptyAggregation.(nonDependencyArgs := map["greeting" := Str("Hi")]));
    assert AggregatePrefix(g, a, 2)
        == Ok(EmptyAggregation.(nonDependencyArgs := map["greeting" := Str("Hi"), "age" := Int(25)]));
  }

  /** A value equal to the default, passed or not, yields equal aggregations. */
  lemma RepeatedGreetingsAgree()
    ensures
      var greet := [Param("name", Some(Str("Jonas"))), Param("repetitions", Some(Int(1)))];
      Aggregate(greet, Some(Args([], map["repetitions" := Int(2)])))
        == Aggregate(greet, Some(Args([Str("Jonas"), Int(2)], map[])))
        == Ok(EmptyAggregation.(nonDependencyArgs := map["name" := Str("Jonas"), "repetitions" := Int(2)]))
  {
    var greet := [Param("name", Some(Str("Jonas"))), Param("repetitions", Some(Int(1)))];
    var a1 := Some(Args([], map["repetitions" := Int(2)]));
    var a2 := Some(Args([Str("Jonas"), Int(2)], map[]));
    assert AggregatePrefix(greet, a1, 1) == Ok(EmptyAggregation.(nonDependencyArgs := map["name" := Str("Jonas")]));
    assert AggregatePrefix(greet, a2, 1) == Ok(EmptyAggregation.(nonDependencyArgs := map["name" := Str("Jonas")]));
  }
}

=== FILE: arguments.dfy ===
/** Merging the arguments a result dependency declares with the ones a caller passes. */
module Arguments {
  import opened Wrappers
  import opened Core

  function Max(a: nat, b: nat): nat {
    if a < b then b else a
  }

  /**
   * `merge_args`: the override's positionals take the first slots and the
   * default's positionals fill the rest; named values are the union with the
   * override winning on a conflict.  Any `Args` object is truthy, so only a
   * missing override returns the default unchanged.
   */
  function MergeArgs(default: Args, override: Option<Args>): (r: Args)
    ensures override.None? ==> r == default
    ensures override.Some? ==>
      |r.positional| == Max(|override.value.positional|, |default.positional|)
    ensures override.Some? ==> forall i :: 0 <= i < |r.positional| ==>
      r.positional[i] == (if i < |override.value.positional| then override.value.positional[i] else default.positional[i])
    ensures override.Some? ==> r.named.Keys == default.named.Keys + override.value.named.Keys
    ensures override.Some? ==> forall k :: k in override.value.named ==> r.named[k] == override.value.named[k]
    ensures override.Some? ==> forall k :: k in default.named && k !in override.value.named ==>
      r.named[k] == default.named[k]
  {
    match override
    case None => default
    case Some(o) =>
      var n := |o.positional|;
      var tail := if n < |default.positional| then default.positional[n..] else [];
      Args(o.positional + tail, default.named + o.named)
  }
}

=== FILE: core.dfy ===
/**
 * The data model shared by every part of the engine: the values a stage function
 * can be given, its parameters, the three dependency kinds, invocations and their
 * persisted form, hook state records, and the two objects the library mutates in
 * place, `Stage` and `Hook`.
 *
 * A Python function is modelled as a record: module name, qualified name, its source
 * text and the ordered list of its parameters with their defaults.  What the function
 * computes is opaque (see `Storage.Runtime.run`).
 */
module Core {
  import opened Wrappers

  newtype byte = b: int | 0 <= b < 256

  /** A SHA-256 digest. */
  type Digest = s: seq<byte> | |s| == 32 witness seq(32, _ => 0)

  /** A file system path, as its list of components. */
  type Path = seq<string>

  /** Plain data: what a stage returns and what a literal argument holds. */
  datatype Datum =
    | NoneDatum
    | BoolDatum(b: bool)
    | IntDatum(i: int)
    | StrDatum(s: string)
    | ListDatum(items: seq<Datum>)

  /**
   * Anything that can be passed as an argument or declared as a default:
   * plain data, an `Args` bundle, or one of the three dependency markers
   * (`Result(...)`, `Use(...)`, `Subscription(...)`).
   */
  datatype Value =
    | Plain(datum: Datum)
    | Bundle(args: Args)
    | UseRes(result: ResultDependency)
    | UseFn(dependency: FunctionDependency)
    | Subscribe(subscription: SubscriptionDependency)

  /** `Args(*args, **kwargs)`: positional values and named values. */
  datatype Args = Args(positional: seq<Value>, named: map<string, Value>)

  /** One entry of a function signature; `None` default means `inspect.Parameter.empty`. */
  datatype Param = Param(name: string, default: Option<Value>)

  /** Python forbids two parameters with one name. */
  ghost predicate DistinctNames(params: seq<Param>) {
    forall i, j :: 0 <= i < j < |params| ==> params[i].name != params[j].name
  }

  /** A user function: identity for naming, source for code hashing, and its signature. */
  datatype Func = Func(moduleName: string, qualname: string, source: string, params: seq<Param>)

  /** What a function dependency wraps: a plain function or a stage (whose `stage_func` is used). */
  datatype Callee = PlainFn(func: Func) | StageFn(stage: Stage)

  /** `Use(func)`. */
  datatype FunctionDependency = FunctionDependency(callee: Callee)

  /** `Result(stage, args, with_metadata)`. */
  datatype ResultDependency = ResultDependency(stage: Stage, args: Args, withMetadata: bool)

  /** The two trigger conditions a subscription can use. */
  datatype Condition = DifferentFromLast | DifferentFromAll

  /** `Subscription(stage, when, optional, with_metadata)`. */
  datatype SubscriptionDependency =
    SubscriptionDependency(stage: Stage, when: Condition, optional: bool, withMetadata: bool)

  /**
   * A value a stage or hook function is actually called with: a literal (non-dependency
   * argument), a function dependency object, the wrapped callable restored from a
   * record, a dependency's result, or a dependency's whole invocation.
   */
  datatype ArgValue =
    | Literal(value: Value)
    | Callable(dependency: FunctionDependency)
    | RawFunc(callee: Callee)
    | Data(datum: Datum)
    | WithMetadata(invocation: Invocation)

  /** One run of a stage function: its result, the arguments it saw and its timing. */
  datatype Invocation = Invocation(
    result: Datum,
    args: map<string, ArgValue>,
    startTime: int,
    duration: int)

  /** How one argument of a cached run is recorded. */
  datatype PersistedArg =
    | DataArg(data: ArgValue)
    | ResultArg(referenceHash: Digest)
    | FuncArg(recursiveCodeHash: Digest)

  /** The record stored for one stage hash. */
  datatype PersistedInvocation = PersistedInvocation(
    result: Datum,
    startTime: int,
    duration: int,
    args: map<string, PersistedArg>,
    codeHash: Digest)

  /** Trigger bookkeeping of a hook for one subscribed argument. */
  datatype HookArgumentState = HookArgumentState(
    resultLookupReference: Option<Digest>,
    lastExecutedResultReference: Option<Digest>,
    allExecutedResultReferences: set<Digest>)

  /** The persisted form of a hook's state. */
  datatype HookStateRecord = HookStateRecord(
    codeHash: Option<Digest>,
    argStates: map<string, HookArgumentState>)

  /** The exceptions the core raises. */
  datatype Error =
    | ResultDependencyPassedAsValue(param: string)
    | FunctionDependencyPassedAsValue(param: string)
    | ArgsForNonDataDependency(param: string)
    | InvalidFunctionSource
    | NonCachableFunctionDependency(param: string)
    | MissingRecord
    | MissingDefault(param: string)
    | NotADataDependency(param: string)
    | NotAFunctionDependency(param: string)
    | HookParamWithoutDefault(param: string)
    | HookParamNotADependency(param: string)

  /** `functools.partial(hook._execute_hook, arg_name)`, as registered on a stage. */
  datatype HookCallback = HookCallback(hook: Hook, argName: string)

  /**
   * A stage: a function whose results are cached by the hash of its code and
   * arguments, and which notifies registered hooks after every computation.
   * `rank` is a proof device: every stage a stage depends on has a smaller rank,
   * which rules out the dependency cycles the library does not detect.
   */
  class Stage {
    const stageFunc: Func
    const cacheDirOverride: Option<Path>
    var hookCallbacks: seq<HookCallback>
    ghost const rank: nat

    constructor (stageFunc: Func, cacheDir: Option<Path>, ghost rank: nat)
      ensures this.stageFunc == stageFunc && cacheDirOverride == cacheDir
      ensures hookCallbacks == [] && this.rank == rank
    {
      this.stageFunc := stageFunc;
      this.cacheDirOverride := cacheDir;
      this.hookCallbacks := [];
      this.rank := rank;
    }

    /** `cache_dir`: the stage's own directory when one was given, else the global one. */
    function CacheDir(globalCacheDir: Path): (dir: Path)
      ensures cacheDirOverride.Some? ==> dir == cacheDirOverride.value
      ensures cacheDirOverride.None? ==> dir == globalCacheDir
    {
      if cacheDirOverride.Some? then cacheDirOverride.value else globalCacheDir
    }

    /** Appends a callback; callbacks keep their registration order. */
    method RegisterHook(callback: HookCallback)
      modifies this`hookCallbacks
      ensures hookCallbacks == old(hookCallbacks) + [callback]
    {
      hookCallbacks := hookCallbacks + [callback];
    }
  }

  /**
   * A hook: a function run when a subscribed stage produces a result that meets the
   * subscription's condition.  `subscriptions` and `functionDependencyHashes` are
   * filled when the hook is created (`Hooks.NewHook`).
   */
  class Hook {
    const hookFunc: Func
    const cacheDirOverride: Option<Path>
    const subscriptions: map<string, SubscriptionDependency>
    var functionDependencyHashes: map<string, Digest>

    constructor (hookFunc: Func, cacheDir: Option<Path>, subscriptions: map<string, SubscriptionDependency>)
      ensures this.hookFunc == hookFunc && cacheDirOverride == cacheDir
      ensures this.subscriptions == subscriptions && functionDependencyHashes == map[]
    {
      this.hookFunc := hookFunc;
      this.cacheDirOverride := cacheDir;
      this.subscriptions := subscriptions;
      this.functionDependencyHashes := map[];
    }

    /** `cache_dir`: the hook's own directory when one was given, else the global one. */
    function CacheDir(globalCacheDir: Path): (dir: Path)
      ensures cacheDirOverride.Some? ==> dir == cacheDirOverride.value
      ensures cacheDirOverride.None? ==> dir == globalCacheDir
    {
      if cacheDirOverride.Some? then cacheDirOverride.value else globalCacheDir
    }
  }

  // ---------------------------------------------------------------------------
  // Acyclicity of the stage graph.  A value is bounded by `bound` when every stage
  // it reaches through result and function dependencies is one of `stages` and has
  // a rank below `bound`.

  ghost predicate ValueBounded(v: Value, bound: nat, stages: set<Stage>)
    decreases v, 1
  {
    match v
    case Plain(_) => true
    case Bundle(a) => ArgsBounded(a, bound, stages)
    case UseRes(rd) => rd.stage in stages && rd.stage.rank < bound && ArgsBounded(rd.args, bound, stages)
    case UseFn(fd) => CalleeBounded(fd.callee, bound, stages)
    case Subscribe(_) => true
  }

  ghost predicate ArgsBounded(a: Args, bound: nat, stages: set<Stage>)
    decreases a, 0
  {
    (forall i :: 0 <= i < |a.positional| ==> ValueBounded(a.positional[i], bound, stages)) &&
    (forall k :: k in a.named ==> ValueBounded(a.named[k], bound, stages))
  }

  ghost predicate CalleeBounded(c: Callee, bound: nat, stages: set<Stage>)
    decreases c
  {
    match c
    case PlainFn(f) => FuncBounded(f, bound, stages)
    case StageFn(s) => s in stages && s.rank < bound
  }

  ghost predicate FuncBounded(f: Func, bound: nat, stages: set<Stage>)
    decreases f
  {
    forall i :: 0 <= i < |f.params| ==> DefaultBounded(f.params[i], bound, stages)
  }

  ghost predicate DefaultBounded(p: Param, bound: nat, stages: set<Stage>)
    decreases p
  {
    p.default.Some? ==> ValueBounded(p.default.value, bound, stages)
  }

  /** Every callback registered on a stage names one of its hook's subscriptions. */
  ghost predicate CallbacksWellFormed(callbacks: seq<HookCallback>) {
    forall i :: 0 <= i < |callbacks| ==> callbacks[i].argName in callbacks[i].hook.subscriptions
  }

  /**
   * The registry of stages is closed and acyclic: each stage's function only
   * reaches stages of the registry with smaller ranks, and its callbacks are
   * well formed.
   */
  ghost predicate Closed(stages: set<Stage>)
    reads stages
  {
    Ranked(stages) && forall s :: s in stages ==> CallbacksWellFormed(s.hookCallbacks)
  }

  /** The part of `Closed` about the stage functions alone, which never change. */
  ghost predicate Ranked(stages: set<Stage>) {
    forall s :: s in stages ==> FuncBounded(s.stageFunc, s.rank, stages)
  }
}

=== FILE: execution.dfy ===
/**
 * Running a stage function or reusing its stored result.  A stage hash combines
 * the code hash of the function with the hashes of its arguments; a stored
 * record under that hash is reused, otherwise the function runs and the record
 * (result, timing, how each argument can be restored, code hash) is saved.
 */
module Execution {
  import opened Wrappers
  import opened Core
  import opened ArgAggregation
  import opened Hashing
  import opened Functions
  import opened Storage
  import opened StagePersistence

  /** `ExecutionData`: the call arguments and the hashes the stage hash is built from. */
  datatype ExecutionData = ExecutionData(
    argValues: map<string, ArgValue>,
    nonDependencyHashes: map<string, Digest>,
    dataDependencyHashes: map<string, Digest>,
    functionDependencyHashes: map<string, Digest>,
    resultReferenceHashes: map<string, Digest>)

  /** Every literal argument has a value to call the function with. */
  ghost predicate WellFormed(ed: ExecutionData) {
    ed.nonDependencyHashes.Keys <= ed.argValues.Keys
  }

  /** The result a dependency argument carries: the invocation's result, or the plain result. */
  function ResultOf(v: ArgValue): Datum {
    match v
    case WithMetadata(inv) => inv.result
    case Data(d) => d
    case _ => NoneDatum
  }

  /** The value a data-dependency argument receives. */
  function DependencyArg(withMetadata: bool, inv: Invocation): (v: ArgValue)
    ensures v.WithMetadata? <==> withMetadata
    ensures ResultOf(v) == inv.result
  {
    if withMetadata then WithMetadata(inv) else Data(inv.result)
  }

  /**
   * The arguments a stage function is called with: literals, overridden by
   * function dependencies, overridden by data-dependency results.
   */
  function CallArgs(agg: AggregationResult, dataResults: map<string, ArgValue>): (r: map<string, ArgValue>)
    ensures r.Keys == agg.nonDependencyArgs.Keys + agg.funcDependencies.Keys + dataResults.Keys
    ensures forall n :: n in dataResults ==> r[n] == dataResults[n]
    ensures forall n :: n in agg.funcDependencies && n !in dataResults ==> r[n] == Callable(agg.funcDependencies[n])
    ensures forall n :: n in agg.nonDependencyArgs && n !in agg.funcDependencies && n !in dataResults ==>
      r[n] == Literal(agg.nonDependencyArgs[n])
  {
    var literals := map n | n in agg.nonDependencyArgs :: Literal(agg.nonDependencyArgs[n]);
    var callables := map n | n in agg.funcDependencies :: Callable(agg.funcDependencies[n]);
    literals + callables + dataResults
  }

  /** The value hash of every literal argument. */
  function LiteralHashes(P: Primitives, literals: map<string, Value>): (r: map<string, Digest>)
    ensures r.Keys == literals.Keys
    ensures forall n :: n in literals ==> r[n] == ValueHash(P, Obj(literals[n]))
  {
    map n | n in literals :: ValueHash(P, Obj(literals[n]))
  }

  /**
   * The `ExecutionData` built by `prepare_execution` from the aggregation and
   * what the loop over data dependencies collected: their argument values,
   * their value hashes and the stage hashes they were computed under.
   */
  function ExecutionDataOf(P: Primitives, agg: AggregationResult, dataResults: map<string, ArgValue>,
                           dataHashes: map<string, Digest>, references: map<string, Digest>,
                           functionHashes: map<string, Digest>): (ed: ExecutionData)
    ensures WellFormed(ed)
    ensures ed.argValues == CallArgs(agg, dataResults)
    ensures ed.nonDependencyHashes == LiteralHashes(P, agg.nonDependencyArgs)
    ensures ed.dataDependencyHashes == dataHashes && ed.functionDependencyHashes == functionHashes
    ensures ed.resultReferenceHashes == references
  {
    ExecutionData(CallArgs(agg, dataResults), LiteralHashes(P, agg.nonDependencyArgs), dataHashes, functionHashes, references)
  }

  /**
   * The `ExecutionData` as `prepare_execution` actually returns it: the result
   * references are the value hashes of the dependencies' results.
   */
  function ExecutionDataAsWritten(P: Primitives, agg: AggregationResult, dataResults: map<string, ArgValue>,
                                  dataHashes: map<string, Digest>, references: map<string, Digest>,
                                  functionHashes: map<string, Digest>): (ed: ExecutionData)
    ensures ed.resultReferenceHashes == ed.dataDependencyHashes
    ensures ed == ExecutionDataOf(P, agg, dataResults, dataHashes, references, functionHashes)
                    .(resultReferenceHashes := dataHashes)
  {
    ExecutionDataOf(P, agg, dataResults, dataHashes, references, functionHashes).(resultReferenceHashes := dataHashes)
  }

  /**
   * The argument hashes of a call: function-dependency hashes override
   * data-dependency hashes, which override literal hashes of the same name.
   */
  function ArgHashes(ed: ExecutionData): (r: map<string, Digest>)
    ensures r.Keys == ed.nonDependencyHashes.Keys + ed.dataDependencyHashes.Keys + ed.functionDependencyHashes.Keys
    ensures forall n :: n in ed.functionDependencyHashes ==> r[n] == ed.functionDependencyHashes[n]
    ensures forall n :: n in ed.dataDependencyHashes && n !in ed.functionDependencyHashes ==>
      r[n] == ed.dataDependencyHashes[n]
    ensures forall n :: n in ed.nonDependencyHashes && n !in ed.dataDependencyHashes && n !in ed.functionDependencyHashes ==>
      r[n] == ed.nonDependencyHashes[n]
  {
    ed.nonDependencyHashes + ed.dataDependencyHashes + ed.functionDependencyHashes
  }

  /** The stage hash: the value hash of the code hash and the argument hashes. */
  function StageHash(P: Primitives, code: Digest, ed: ExecutionData): Digest {
    ValueHash(P, CodeAndHashes(code, ArgHashes(ed)))
  }

  /**
   * The stage hash is the cache key of exactly one code hash and one map of
   * argument hashes: argument values and result references do not enter it,
   * and, unless serialisation or SHA-256 collides on the two calls, calls that
   * differ in either get different keys.
   */
  lemma StageHashIdentifiesCall(P: Primitives, code1: Digest, ed1: ExecutionData, code2: Digest, ed2: ExecutionData)
    requires NoCollision(P, P.encode(CodeAndHashes(code1, ArgHashes(ed1))), P.encode(CodeAndHashes(code2, ArgHashes(ed2))))
    requires P.encode(CodeAndHashes(code1, ArgHashes(ed1))) == P.encode(CodeAndHashes(code2, ArgHashes(ed2))) ==>
      CodeAndHashes(code1, ArgHashes(ed1)) == CodeAndHashes(code2, ArgHashes(ed2))
    ensures StageHash(P, code1, ed1) == StageHash(P, code2, ed2) <==> code1 == code2 && ArgHashes(ed1) == ArgHashes(ed2)
  {
    ValueHashIdentifiesEncoding(P, CodeAndHashes(code1, ArgHashes(ed1)), CodeAndHashes(code2, ArgHashes(ed2)));
  }

  /**
   * How each argument is recorded: literals as their value, data dependencies
   * by reference hash and function dependencies by recursive code hash, the
   * later kinds overriding the earlier ones for the same name.
   */
  function PersistedArgs(ed: ExecutionData): (r: map<string, PersistedArg>)
    requires WellFormed(ed)
    ensures r.Keys == ed.nonDependencyHashes.Keys + ed.resultReferenceHashes.Keys + ed.functionDependencyHashes.Keys
    ensures forall n :: n in ed.functionDependencyHashes ==> r[n] == FuncArg(ed.functionDependencyHashes[n])
    ensures forall n :: n in ed.resultReferenceHashes && n !in ed.functionDependencyHashes ==>
      r[n] == ResultArg(ed.resultReferenceHashes[n])
    ensures forall n :: n in ed.nonDependencyHashes && n !in ed.resultReferenceHashes && n !in ed.functionDependencyHashes ==>
      r[n] == DataArg(ed.argValues[n])
  {
    var dataArgs := map n | n in ed.nonDependencyHashes :: DataArg(ed.argValues[n]);
    var resultArgs := map n | n in ed.resultReferenceHashes :: ResultArg(ed.resultReferenceHashes[n]);
    var functionArgs := map n | n in ed.functionDependencyHashes :: FuncArg(ed.functionDependencyHashes[n]);
    dataArgs + resultArgs + functionArgs
  }

  /** The record stored under a hash holds this invocation's result and timing. */
  ghost predicate StoredAs(files: map<Path, PersistedInvocation>, dir: Path, hash: Digest, inv: Invocation) {
    var rec := LoadStageResult(files, dir, hash);
    rec.Some? && rec.value.result == inv.result &&
    rec.value.startTime == inv.startTime && rec.value.duration == inv.duration
  }

  /** `exec_to_result`: runs the function once and times it on the wall clock. */
  method ExecToResult(rt: Runtime, func: Func, args: map<string, ArgValue>) returns (inv: Invocation)
    modifies rt`clock, rt`executions
    ensures inv == Invocation(rt.run(func, args), args, old(rt.clock), rt.durationOf(func, args))
    ensures rt.clock == old(rt.clock) + rt.durationOf(func, args)
    ensures rt.executions == old(rt.executions) + [Call(func, args)]
  {
    var startTime := rt.clock;
    var resultData := rt.run(func, args);
    rt.executions := rt.executions + [Call(func, args)];
    rt.clock := rt.clock + rt.durationOf(func, args);
    inv := Invocation(resultData, args, startTime, rt.clock - startTime);
  }

  /**
   * What `exec_or_load` returned for `func` on `ed`, judged against the store
   * `before` the call: the hash is the stage hash of the function's code and
   * `ed`; the invocation carries `ed`'s argument values; its result is the one
   * stored under that hash or, when none was, the function's result on those
   * values, and that run is the last one in `executions`.
   */
  ghost predicate ExecutedOrLoaded(P: Primitives, run: (Func, map<string, ArgValue>) -> Datum, func: Func, dir: Path,
                                   ed: ExecutionData, before: map<Path, PersistedInvocation>, executions: seq<Call>,
                                   hash: Digest, inv: Invocation) {
    CodeHash(P, func).Ok? &&
    hash == StageHash(P, CodeHash(P, func).value, ed) &&
    inv.args == ed.argValues &&
    match LoadStageResult(before, dir, hash)
    case Some(rec) => inv.result == rec.result
    case None =>
      |executions| > 0 && executions[|executions| - 1] == Call(func, ed.argValues) && inv.result == run(func, ed.argValues)
  }

  /**
   * `exec_or_load`: on a stored record for the stage hash the function is not
   * run and the invocation carries the stored result and timing; otherwise the
   * function runs once and its record is saved under the stage hash.  Either
   * way the store afterwards holds the returned result under the returned hash,
   * and no stored record changes.
   */
  method ExecOrLoad(rt: Runtime, func: Func, ed: ExecutionData, dir: Path)
    returns (r: Result<(Digest, Invocation), Error>)
    requires WellFormed(ed)
    modifies rt`clock, rt`executions, rt`stageFiles
    ensures r.Err? <==> CodeHash(rt.P, func).Err?
    ensures r.Err? ==> r.error == CodeHash(rt.P, func).error
    ensures r.Err? ==> rt.stageFiles == old(rt.stageFiles) && rt.executions == old(rt.executions)
    ensures r.Ok? ==> r.value.0 == StageHash(rt.P, CodeHash(rt.P, func).value, ed) && r.value.1.args == ed.argValues
    ensures r.Ok? ==> ExecutedOrLoaded(rt.P, rt.run, func, dir, ed, old(rt.stageFiles), rt.executions, r.value.0, r.value.1)
    ensures r.Ok? ==> StoredAs(rt.stageFiles, dir, r.value.0, r.value.1)
    ensures Extends(old(rt.stageFiles), rt.stageFiles)
    ensures r.Ok? && LoadStageResult(old(rt.stageFiles), dir, r.value.0).Some? ==>
      rt.stageFiles == old(rt.stageFiles) && rt.executions == old(rt.executions) &&
      r.value.1.result == LoadStageResult(old(rt.stageFiles), dir, r.value.0).value.result
    ensures r.Ok? && LoadStageResult(old(rt.stageFiles), dir, r.value.0).None? ==>
      rt.executions == old(rt.executions) + [Call(func, ed.argValues)] &&
      r.value.1.result == rt.run(func, ed.argValues) &&
      LoadStageResult(rt.stageFiles, dir, r.value.0).value.args == PersistedArgs(ed) &&
      LoadStageResult(rt.stageFiles, dir, r.value.0).value.codeHash == CodeHash(rt.P, func).value
  {
    var argHashes := ed.nonDependencyHashes + ed.dataDependencyHashes + ed.functionDependencyHashes;
    var codeHash := CodeHash(rt.P, func);
    if codeHash.Err? {
      return Err(codeHash.error);
    }
    var stageHash := ValueHash(rt.P, CodeAndHashes(codeHash.value, argHashes));
    var cachedResult := LoadStageResult(rt.stageFiles, dir, stageHash);
    var argValues := ed.argValues;
    var result: Invocation;
    if cachedResult.Some? {
      result := Invocation(cachedResult.value.result, argValues, cachedResult.value.startTime, cachedResult.value.duration);
    } else {
      result := ExecToResult(rt, func, argValues);
      var persistedArgs := PersistedArgs(ed);
      var persistedResult := PersistedInvocation(result.result, result.startTime, result.duration, persistedArgs, codeHash.value);
      rt.stageFiles := SaveStageResult(rt.stageFiles, dir, stageHash, persistedResult);
    }
    return Ok((stageHash, result));
  }

  /** `load_result` without metadata: the stored result, raising when nothing is stored. */
  function LoadResultValue(files: map<Path, PersistedInvocation>, dir: Path, hash: Digest): (r: Result<Datum, Error>)
    ensures r.Ok? <==> LoadStageResult(files, dir, hash).Some?
    ensures r.Ok? ==> r.value == LoadStageResult(files, dir, hash).value.result
    ensures r.Err? ==> r.error == MissingRecord
  {
    match LoadStageResult(files, dir, hash)
    case None => Err(MissingRecord)
    case Some(rec) => Ok(rec.result)
  }

  /**
   * Restores one recorded argument of a stage function whose declared defaults
   * are `defaults`: a literal is its value; a result reference is loaded from
   * the store of the stage named by the parameter's `Result` default; a
   * function reference becomes the function of the parameter's `Use` default.
   */
  function RestoredArg(files: map<Path, PersistedInvocation>, globalCacheDir: Path, defaults: map<string, Value>,
                       name: string, arg: PersistedArg): (r: Result<ArgValue, Error>)
    ensures arg.DataArg? ==> r == Ok(arg.data)
    ensures !arg.DataArg? && name !in defaults ==> r == Err(MissingDefault(name))
    ensures arg.ResultArg? && name in defaults && !defaults[name].UseRes? ==> r == Err(NotADataDependency(name))
    ensures arg.FuncArg? && name in defaults && !defaults[name].UseFn? ==> r == Err(NotAFunctionDependency(name))
    ensures arg.FuncArg? && name in defaults && defaults[name].UseFn? ==> r == Ok(RawFunc(defaults[name].dependency.callee))
    ensures arg.ResultArg? && name in defaults && defaults[name].UseRes? ==>
      var value := LoadResultValue(files, defaults[name].result.stage.CacheDir(globalCacheDir), arg.referenceHash);
      (r.Ok? <==> value.Ok?) && (r.Ok? ==> r.value == Data(value.value))
    ensures r.Err? ==> LoadError(r.error)
  {
    match arg
    case DataArg(data) => Ok(data)
    case ResultArg(reference) =>
      if name !in defaults then Err(MissingDefault(name))
      else if !defaults[name].UseRes? then Err(NotADataDependency(name))
      else
        var value :- LoadResultValue(files, defaults[name].result.stage.CacheDir(globalCacheDir), reference);
        Ok(Data(value))
    case FuncArg(_) =>
      if name !in defaults then Err(MissingDefault(name))
      else if !defaults[name].UseFn? then Err(NotAFunctionDependency(name))
      else Ok(RawFunc(defaults[name].dependency.callee))
  }

  /** The errors that loading a stored record can raise. */
  predicate LoadError(e: Error) {
    e.MissingRecord? || e.MissingDefault? || e.NotADataDependency? || e.NotAFunctionDependency?
  }

  /**
   * Loading `hash` from `dir` for a stage whose function is `stageFunc`
   * succeeds: a record is stored, and with metadata every recorded argument
   * can be restored.
   */
  ghost predicate Loadable(files: map<Path, PersistedInvocation>, globalCacheDir: Path, stageFunc: Func, dir: Path,
                           hash: Digest, withMetadata: bool) {
    var rec := LoadStageResult(files, dir, hash);
    rec.Some? &&
    (withMetadata ==> forall n :: n in rec.value.args ==>
      RestoredArg(files, globalCacheDir, ArgDefaultValues(stageFunc.params), n, rec.value.args[n]).Ok?)
  }

  /**
   * Loading `hash` from `dir` raises `e`: nothing is stored and `e` is the
   * missing record, or with metadata `e` is the failure of restoring one of
   * the recorded arguments.
   */
  ghost predicate LoadRaises(files: map<Path, PersistedInvocation>, globalCacheDir: Path, stageFunc: Func, dir: Path,
                             hash: Digest, withMetadata: bool, e: Error) {
    var rec := LoadStageResult(files, dir, hash);
    if rec.None? then e == MissingRecord
    else
      withMetadata &&
      exists n :: n in rec.value.args &&
        RestoredArg(files, globalCacheDir, ArgDefaultValues(stageFunc.params), n, rec.value.args[n]) == Err(e)
  }

  /** A load that raises is not loadable, and what it raises is a load error. */
  lemma LoadRaisesNotLoadable(files: map<Path, PersistedInvocation>, globalCacheDir: Path, stageFunc: Func, dir: Path,
                              hash: Digest, withMetadata: bool, e: Error)
    requires LoadRaises(files, globalCacheDir, stageFunc, dir, hash, withMetadata, e)
    ensures !Loadable(files, globalCacheDir, stageFunc, dir, hash, withMetadata)
    ensures LoadError(e)
  {
    var rec := LoadStageResult(files, dir, hash);
    if rec.Some? {
      var n :| n in rec.value.args &&
        RestoredArg(files, globalCacheDir, ArgDefaultValues(stageFunc.params), n, rec.value.args[n]) == Err(e);
    }
  }

  /**
   * `load_from_reference`: without metadata the stored result; with metadata
   * the stored invocation with every recorded argument restored, failing when
   * one of them cannot be.  A missing record raises in both cases.
   */
  method LoadFromReference(rt: Runtime, stageFunc: Func, hash: Digest, dir: Path, withMetadata: bool)
    returns (r: Result<ArgValue, Error>)
    ensures LoadStageResult(rt.stageFiles, dir, hash).None? ==> r == Err(MissingRecord)
    ensures !withMetadata && LoadStageResult(rt.stageFiles, dir, hash).Some? ==>
      r == Ok(Data(LoadStageResult(rt.stageFiles, dir, hash).value.result))
    ensures withMetadata && LoadStageResult(rt.stageFiles, dir, hash).Some? ==>
      var rec := LoadStageResult(rt.stageFiles, dir, hash).value;
      var defaults := ArgDefaultValues(stageFunc.params);
      (r.Ok? <==> forall n :: n in rec.args ==> RestoredArg(rt.stageFiles, rt.globalCacheDir, defaults, n, rec.args[n]).Ok?) &&
      (r.Ok? ==> r.value == WithMetadata(Invocation(rec.result,
         map n | n in rec.args :: RestoredArg(rt.stageFiles, rt.globalCacheDir, defaults, n, rec.args[n]).value,
         rec.startTime, rec.duration))) &&
      (r.Err? ==> exists n :: n in rec.args && RestoredArg(rt.stageFiles, rt.globalCacheDir, defaults, n, rec.args[n]) == Err(r.error))
    ensures r.Ok? <==> Loadable(rt.stageFiles, rt.globalCacheDir, stageFunc, dir, hash, withMetadata)
    ensures r.Err? ==> LoadRaises(rt.stageFiles, rt.globalCacheDir, stageFunc, dir, hash, withMetadata, r.error)
  {
    var cachedResult := LoadStageResult(rt.stageFiles, dir, hash);
    if cachedResult.None? {
      return Err(MissingRecord);
    }
    var rec := cachedResult.value;
    if !withMetadata {
      return Ok(Data(rec.result));
    }
    var defaults := ArgDefaultValues(stageFunc.params);
    var argValues: map<string, ArgValue> := map[];
    var remaining := rec.args.Keys;
    while remaining != {}
      invariant remaining <= rec.args.Keys
      invariant argValues.Keys == rec.args.Keys - remaining
      invariant forall n :: n in argValues ==>
        RestoredArg(rt.stageFiles, rt.globalCacheDir, defaults, n, rec.args[n]) == Ok(argValues[n])
      decreases remaining
    {
      var n :| n in remaining;
      var restored := RestoredArg(rt.stageFiles, rt.globalCacheDir, defaults, n, rec.args[n]);
      if restored.Err? {
        return Err(restored.error);
      }
      argValues := argValues[n := restored.value];
      remaining := remaining - {n};
    }
    return Ok(WithMetadata(Invocation(rec.result, argValues, rec.startTime, rec.duration)));
  }

  /** `Stage.load_result`: loading by reference with the stage's function and cache directory. */
  method LoadResult(rt: Runtime, stage: Stage, hash: Digest, withMetadata: bool) returns (r: Result<ArgValue, Error>)
    ensures r.Ok? <==>
      Loadable(rt.stageFiles, rt.globalCacheDir, stage.stageFunc, stage.CacheDir(rt.globalCacheDir), hash, withMetadata)
    ensures r.Err? ==>
      LoadRaises(rt.stageFiles, rt.globalCacheDir, stage.stageFunc, stage.CacheDir(rt.globalCacheDir), hash, withMetadata, r.error)
    ensures LoadStageResult(rt.stageFiles, stage.CacheDir(rt.globalCacheDir), hash).None? ==> r == Err(MissingRecord)
    ensures r.Ok? ==> r.value.WithMetadata? == withMetadata
    ensures r.Ok? ==> LoadStageResult(rt.stageFiles, stage.CacheDir(rt.globalCacheDir), hash).Some?
    ensures r.Ok? ==>
      ResultOf(r.value) == LoadStageResult(rt.stageFiles, stage.CacheDir(rt.globalCacheDir), hash).value.result
    ensures r.Ok? && withMetadata ==>
      StoredAs(rt.stageFiles, stage.CacheDir(rt.globalCacheDir), hash, r.value.invocation)
  {
    r := LoadFromReference(rt, stage.stageFunc, hash, stage.CacheDir(rt.globalCacheDir), withMetadata);
  }

  // ---------------------------------------------------------------------------
  // What a result reference is for.

  /**
   * A reference recorded under the producer's stage hash restores the
   * producer's result when the consumer's record is loaded with metadata.
   */
  lemma StageHashReferenceRestores(files: map<Path, PersistedInvocation>, globalCacheDir: Path,
                                   defaults: map<string, Value>, name: string, stageHash: Digest, inv: Invocation)
    requires name in defaults && defaults[name].UseRes?
    requires StoredAs(files, defaults[name].result.stage.CacheDir(globalCacheDir), stageHash, inv)
    ensures RestoredArg(files, globalCacheDir, defaults, name, ResultArg(stageHash)) == Ok(Data(inv.result))
  {
  }

  /**
   * With the references as written, the reference is the value hash of the
   * producer's result.  When only the producer's record is stored and that value
   * hash differs from the producer's stage hash, restoring the argument fails
   * although the producer's result is stored.
   */
  lemma ValueHashReferenceMissesRecord(P: Primitives, dir: Path, globalCacheDir: Path, defaults: map<string, Value>,
                                       name: string, stageHash: Digest, rec: PersistedInvocation)
    requires name in defaults && defaults[name].UseRes?
    requires dir == defaults[name].result.stage.CacheDir(globalCacheDir)
    requires ValueHash(P, Obj(Plain(rec.result))) != stageHash
    ensures var files := SaveStageResult(map[], dir, stageHash, rec);
      RestoredArg(files, globalCacheDir, defaults, name, ResultArg(ValueHash(P, Obj(Plain(rec.result))))) == Err(MissingRecord) &&
      RestoredArg(files, globalCacheDir, defaults, name, ResultArg(stageHash)) == Ok(Data(rec.result))
  {
    var files := SaveStageResult(map[], dir, stageHash, rec);
    SaveKeepsOtherHashes(map[], dir, stageHash, ValueHash(P, Obj(Plain(rec.result))), rec);
  }
}

=== FILE: function_dependency.dfy ===
/**
 * Function dependencies (`Use(func)`): the recursive check that no function in a
 * dependency tree declares a data dependency, and the recursive code hash of the
 * tree.  A stage used as a function dependency stands for its `stage_func`.
 */
module FunctionDependencies {
  import opened Wrappers
  import opened Core
  import opened ArgAggregation
  import opened Hashing

  /** `aggregate_args(func)` without call arguments, which cannot fail. */
  function DefaultAggregation(params: seq<Param>): AggregationResult {
    AggregateWithoutArgsSucceeds(params);
    Aggregate(params, None).value
  }

  /** The function dependencies a signature declares, each traced to its parameter. */
  function FuncDeps(params: seq<Param>): (r: map<string, FunctionDependency>)
    ensures forall n :: n in r ==>
      exists i :: 0 <= i < |params| && params[i].name == n && params[i].default == Some(UseFn(r[n]))
  {
    AggregateWithoutArgsSucceeds(params);
    FuncDependenciesFromDefaults(params, None, |params|);
    DefaultAggregation(params).funcDependencies
  }

  /** The function a dependency stands for: a stage's `stage_func`, or the function itself. */
  function TargetFunc(c: Callee): Func
  {
    match c
    case PlainFn(f) => f
    case StageFn(s) => s.stageFunc
  }

  /** The rank bound that holds inside the dependency's function. */
  ghost function InnerBound(c: Callee, bound: nat): nat {
    match c
    case PlainFn(_) => bound
    case StageFn(s) => s.rank
  }

  lemma TargetBounded(c: Callee, stages: set<Stage>, bound: nat)
    requires Ranked(stages) && CalleeBounded(c, bound, stages)
    ensures FuncBounded(TargetFunc(c), InnerBound(c, bound), stages)
    ensures InnerBound(c, bound) <= bound
  {
  }

  /** The nested dependencies of a bounded function are bounded too. */
  lemma DepsBounded(f: Func, stages: set<Stage>, bound: nat)
    requires FuncBounded(f, bound, stages)
    ensures forall n :: n in FuncDeps(f.params) ==> CalleeBounded(FuncDeps(f.params)[n].callee, bound, stages)
  {
    var deps := FuncDeps(f.params);
    forall n | n in deps ensures CalleeBounded(deps[n].callee, bound, stages) {
      var i :| 0 <= i < |f.params| && f.params[i].name == n && f.params[i].default == Some(UseFn(deps[n]));
      assert DefaultBounded(f.params[i], bound, stages);
      assert ValueBounded(UseFn(deps[n]), bound, stages);
    }
  }

  /**
   * `has_no_data_dependencies`: false when the function declares a data
   * dependency, otherwise true when every nested function dependency has none.
   */
  function HasNoDataDependencies(fd: FunctionDependency, ghost stages: set<Stage>, ghost bound: nat): (r: bool)
    requires Ranked(stages) && CalleeBounded(fd.callee, bound, stages)
    ensures DeclaresDataDependency(TargetFunc(fd.callee)) ==> !r
    decreases bound, fd
  {
    TargetBounded(fd.callee, stages, bound);
    var f := TargetFunc(fd.callee);
    var b := InnerBound(fd.callee, bound);
    var deps := FuncDeps(f.params);
    DepsBounded(f, stages, b);
    if |DefaultAggregation(f.params).dataDependencies| > 0 then false
    else forall n :: n in deps ==> HasNoDataDependencies(deps[n], stages, b)
  }

  /**
   * The function reached by following `path`, a list of parameter names, from
   * `fd` through nested function dependencies (`None` if the path leaves the tree).
   */
  ghost function Reach(fd: FunctionDependency, path: seq<string>, stages: set<Stage>, bound: nat): Option<Func>
    requires Ranked(stages) && CalleeBounded(fd.callee, bound, stages)
    decreases path
  {
    TargetBounded(fd.callee, stages, bound);
    var f := TargetFunc(fd.callee);
    var b := InnerBound(fd.callee, bound);
    var deps := FuncDeps(f.params);
    DepsBounded(f, stages, b);
    if path == [] then Some(f)
    else if path[0] in deps then Reach(deps[path[0]], path[1..], stages, b)
    else None
  }

  ghost predicate DeclaresDataDependency(f: Func) {
    |DefaultAggregation(f.params).dataDependencies| > 0
  }

  /** Following a non-empty path takes its first step into the named nested dependency. */
  lemma ReachStep(fd: FunctionDependency, n: string, path: seq<string>, stages: set<Stage>, bound: nat)
    requires Ranked(stages) && CalleeBounded(fd.callee, bound, stages)
    requires n in FuncDeps(TargetFunc(fd.callee).params)
    ensures CalleeBounded(FuncDeps(TargetFunc(fd.callee).params)[n].callee, InnerBound(fd.callee, bound), stages)
    ensures Reach(fd, [n] + path, stages, bound)
        == Reach(FuncDeps(TargetFunc(fd.callee).params)[n], path, stages, InnerBound(fd.callee, bound))
  {
    TargetBounded(fd.callee, stages, bound);
    DepsBounded(TargetFunc(fd.callee), stages, InnerBound(fd.callee, bound));
    assert ([n] + path)[1..] == path;
  }

  ghost predicate TreeFree(fd: FunctionDependency, stages: set<Stage>, bound: nat)
    requires Ranked(stages) && CalleeBounded(fd.callee, bound, stages)
  {
    forall path :: Reach(fd, path, stages, bound).Some? ==> !DeclaresDataDependency(Reach(fd, path, stages, bound).value)
  }

  /**
   * A dependency has no data dependencies exactly when no function anywhere in
   * its dependency tree declares one.
   */
  lemma {:induction false} HasNoDataDependenciesIff(fd: FunctionDependency, stages: set<Stage>, bound: nat)
    requires Ranked(stages) && CalleeBounded(fd.callee, bound, stages)
    ensures HasNoDataDependencies(fd, stages, bound) <==> TreeFree(fd, stages, bound)
  {
    if HasNoDataDependencies(fd, stages, bound) {
      NoDataDependenciesTreeFree(fd, stages, bound);
    }
    if TreeFree(fd, stages, bound) {
      TreeFreeNoDataDependencies(fd, stages, bound);
    }
  }

  lemma {:induction false} NoDataDependenciesTreeFree(fd: FunctionDependency, stages: set<Stage>, bound: nat)
    requires Ranked(stages) && CalleeBounded(fd.callee, bound, stages)
    requires HasNoDataDependencies(fd, stages, bound)
    ensures TreeFree(fd, stages, bound)
    decreases bound, fd
  {
    TargetBounded(fd.callee, stages, bound);
    var f := TargetFunc(fd.callee);
    var b := InnerBound(fd.callee, bound);
    var deps := FuncDeps(f.params);
    DepsBounded(f, stages, b);
    forall path | Reach(fd, path, stages, bound).Some?
      ensures !DeclaresDataDependency(Reach(fd, path, stages, bound).value)
    {
      if path == [] {
        assert Reach(fd, [], stages, bound) == Some(f);
      } else {
        assert path == [path[0]] + path[1..];
        assert path[0] in deps;
        ReachStep(fd, path[0], path[1..], stages, bound);
        NoDataDependenciesTreeFree(deps[path[0]], stages, b);
      }
    }
  }

  lemma {:induction false} TreeFreeNoDataDependencies(fd: FunctionDependency, stages: set<Stage>, bound: nat)
    requires Ranked(stages) && CalleeBounded(fd.callee, bound, stages)
    requires TreeFree(fd, stages, bound)
    ensures HasNoDataDependencies(fd, stages, bound)
    decreases bound, fd
  {
    TargetBounded(fd.callee, stages, bound);
    var f := TargetFunc(fd.callee);
    var b := InnerBound(fd.callee, bound);
    var deps := FuncDeps(f.params);
    DepsBounded(f, stages, b);
    assert Reach(fd, [], stages, bound) == Some(f);
    forall n | n in deps
      ensures HasNoDataDependencies(deps[n], stages, b)
    {
      forall path | Reach(deps[n], path, stages, b).Some?
        ensures !DeclaresDataDependency(Reach(deps[n], path, stages, b).value)
      {
        ReachStep(fd, n, path, stages, bound);
      }
      TreeFreeNoDataDependencies(deps[n], stages, b);
    }
  }

  /** The recursive hashes of the nested function dependencies of `fd`'s function, by name. */
  function NestedHashes(P: Primitives, fd: FunctionDependency, ghost stages: set<Stage>, ghost bound: nat)
    : (r: map<string, Result<Digest, Error>>)
    requires Ranked(stages) && CalleeBounded(fd.callee, bound, stages)
    ensures r.Keys == FuncDeps(TargetFunc(fd.callee).params).Keys
    decreases bound, fd, 0
  {
    TargetBounded(fd.callee, stages, bound);
    var f := TargetFunc(fd.callee);
    var b := InnerBound(fd.callee, bound);
    var deps := FuncDeps(f.params);
    DepsBounded(f, stages, b);
    map n | n in deps :: RecursiveHash(P, deps[n], stages, b)
  }

  /**
   * `get_recursive_hash`: the value hash of the pair (code hash of the function,
   * recursive hashes of its nested function dependencies by parameter name).
   * A failing code hash anywhere in the tree fails the whole hash.
   */
  function RecursiveHash(P: Primitives, fd: FunctionDependency, ghost stages: set<Stage>, ghost bound: nat)
    : (r: Result<Digest, Error>)
    requires Ranked(stages) && CalleeBounded(fd.callee, bound, stages)
    ensures r.Err? ==> r.error == InvalidFunctionSource
    decreases bound, fd, 1
  {
    var nested := NestedHashes(P, fd, stages, bound);
    match CodeHash(P, TargetFunc(fd.callee))
    case Err(e) => Err(e)
    case Ok(code) =>
      var hashes :- Collect(nested);
      Ok(ValueHash(P, CodeAndHashes(code, hashes)))
  }

  /** Every function anywhere in the dependency tree of `fd` has a code hash. */
  ghost predicate TreeHashable(P: Primitives, fd: FunctionDependency, stages: set<Stage>, bound: nat)
    requires Ranked(stages) && CalleeBounded(fd.callee, bound, stages)
  {
    forall path :: Reach(fd, path, stages, bound).Some? ==> CodeHash(P, Reach(fd, path, stages, bound).value).Ok?
  }

  /**
   * The recursive hash of a dependency succeeds exactly when every function
   * in its dependency tree, the root and all nested function dependencies at
   * any depth, has a valid source.
   */
  lemma {:induction false} RecursiveHashOkIff(P: Primitives, fd: FunctionDependency, stages: set<Stage>, bound: nat)
    requires Ranked(stages) && CalleeBounded(fd.callee, bound, stages)
    ensures RecursiveHash(P, fd, stages, bound).Ok? <==> TreeHashable(P, fd, stages, bound)
  {
    if RecursiveHash(P, fd, stages, bound).Ok? {
      HashedTreeHashable(P, fd, stages, bound);
    }
    if TreeHashable(P, fd, stages, bound) {
      TreeHashableHashed(P, fd, stages, bound);
    }
  }

  lemma {:induction false} HashedTreeHashable(P: Primitives, fd: FunctionDependency, stages: set<Stage>, bound: nat)
    requires Ranked(stages) && CalleeBounded(fd.callee, bound, stages)
    requires RecursiveHash(P, fd, stages, bound).Ok?
    ensures TreeHashable(P, fd, stages, bound)
    decreases bound, fd
  {
    TargetBounded(fd.callee, stages, bound);
    var f := TargetFunc(fd.callee);
    var b := InnerBound(fd.callee, bound);
    var deps := FuncDeps(f.params);
    DepsBounded(f, stages, b);
    var nested := NestedHashes(P, fd, stages, bound);
    assert CodeHash(P, f).Ok? && Collect(nested).Ok?;
    forall path | Reach(fd, path, stages, bound).Some?
      ensures CodeHash(P, Reach(fd, path, stages, bound).value).Ok?
    {
      if path == [] {
        assert Reach(fd, [], stages, bound) == Some(f);
      } else {
        var n := path[0];
        assert path == [n] + path[1..];
        ReachStep(fd, n, path[1..], stages, bound);
        assert n in nested && nested[n] == RecursiveHash(P, deps[n], stages, b);
        HashedTreeHashable(P, deps[n], stages, b);
        assert Reach(deps[n], path[1..], stages, b).Some?;
      }
    }
  }

  lemma {:induction false} TreeHashableHashed(P: Primitives, fd: FunctionDependency, stages: set<Stage>, bound: nat)
    requires Ranked(stages) && CalleeBounded(fd.callee, bound, stages)
    requires TreeHashable(P, fd, stages, bound)
    ensures RecursiveHash(P, fd, stages, bound).Ok?
    decreases bound, fd
  {
    TargetBounded(fd.callee, stages, bound);
    var f := TargetFunc(fd.callee);
    var b := InnerBound(fd.callee, bound);
    var deps := FuncDeps(f.params);
    DepsBounded(f, stages, b);
    var nested := NestedHashes(P, fd, stages, bound);
    assert Reach(fd, [], stages, bound) == Some(f);
    forall n | n in deps
      ensures RecursiveHash(P, deps[n], stages, b).Ok?
    {
      forall path | Reach(deps[n], path, stages, b).Some?
        ensures CodeHash(P, Reach(deps[n], path, stages, b).value).Ok?
      {
        ReachStep(fd, n, path, stages, bound);
        assert Reach(fd, [n] + path, stages, bound).Some?;
      }
      TreeHashableHashed(P, deps[n], stages, b);
    }
    assert CodeHash(P, f).Ok?;
    assert forall n :: n in nested ==> nested[n].Ok?;
  }

  /** A stage used as a function dependency is hashed through its `stage_func`. */
  lemma StageHashedThroughStageFunc(P: Primitives, s: Stage, stages: set<Stage>, bound: nat)
    requires Ranked(stages) && s in stages && s.rank < bound
    ensures FuncBounded(s.stageFunc, s.rank, stages)
    ensures RecursiveHash(P, FunctionDependency(StageFn(s)), stages, bound)
         == RecursiveHash(P, FunctionDependency(PlainFn(s.stageFunc)), stages, s.rank)
  {
  }

  /**
   * The recursive hash of a function is determined by its source and its
   * function dependencies: two functions that agree on those hash alike, however
   * their other defaults (literals, `Result` dependencies) differ.
   */
  lemma RecursiveHashIgnoresDataDefaults(P: Primitives, f: Func, g: Func, stages: set<Stage>, bound: nat)
    requires Ranked(stages) && FuncBounded(f, bound, stages) && FuncBounded(g, bound, stages)
    requires f.source == g.source && FuncDeps(f.params) == FuncDeps(g.params)
    ensures RecursiveHash(P, FunctionDependency(PlainFn(f)), stages, bound)
         == RecursiveHash(P, FunctionDependency(PlainFn(g)), stages, bound)
  {
    assert CodeHash(P, f) == CodeHash(P, g);
  }

  /** Replacing a `Result` default by another leaves the function dependencies unchanged. */
  lemma {:induction false} FuncDepsIgnoreResultDefaults(params: seq<Param>, i: nat, rd: ResultDependency)
    requires i < |params| && params[i].default.Some? && params[i].default.value.UseRes?
    ensures FuncDeps(params[i := Param(params[i].name, Some(UseRes(rd)))]) == FuncDeps(params)
  {
    var params' := params[i := Param(params[i].name, Some(UseRes(rd)))];
    AggregateWithoutArgsSucceeds(params);
    AggregateWithoutArgsSucceeds(params');
    FuncDepsPrefixAgree(params, params', i, |params|);
  }

  lemma {:induction false} FuncDepsPrefixAgree(params: seq<Param>, params': seq<Param>, i: nat, n: nat)
    requires |params| == |params'| && i < |params| && n <= |params|
    requires forall j :: 0 <= j < |params| && j != i ==> params'[j] == params[j]
    requires params'[i].name == params[i].name
    requires params[i].default.Some? && params[i].default.value.UseRes?
    requires params'[i].default.Some? && params'[i].default.value.UseRes?
    ensures AggregatePrefix(params, None, n).Ok? && AggregatePrefix(params', None, n).Ok?
    ensures AggregatePrefix(params, None, n).value.funcDependencies
         == AggregatePrefix(params', None, n).value.funcDependencies
  {
    if n == 0 {
      assert AggregatePrefix(params, None, 0) == Ok(EmptyAggregation);
      assert AggregatePrefix(params', None, 0) == Ok(EmptyAggregation);
    } else {
      FuncDepsPrefixAgree(params, params', i, n - 1);
      var acc := AggregatePrefix(params, None, n - 1).value;
      var acc' := AggregatePrefix(params', None, n - 1).value;
      assert Supplied(None, n - 1, params[n - 1].name) == None;
      assert Supplied(None, n - 1, params'[n - 1].name) == None;
      assert AggregatePrefix(params, None, n) == Ok(Step(acc, params[n - 1], None));
      assert AggregatePrefix(params', None, n) == Ok(Step(acc', params'[n - 1], None));
      DefaultStepShape(acc, params[n - 1]);
      DefaultStepShape(acc', params'[n - 1]);
    }
  }

  /** All the hashes when every one of them succeeded, else the code-hash failure, the only error a recursive hash raises. */
  function Collect(hashes: map<string, Result<Digest, Error>>): (r: Result<map<string, Digest>, Error>)
    ensures r.Ok? <==> forall n :: n in hashes ==> hashes[n].Ok?
    ensures r.Ok? ==> r.value.Keys == hashes.Keys
    ensures r.Ok? ==> forall n :: n in hashes ==> hashes[n] == Ok(r.value[n])
  {
    if exists n :: n in hashes && hashes[n].Err? then Err(InvalidFunctionSource)
    else Ok(map n | n in hashes :: hashes[n].value)
  }

  /**
   * `compute_function_dependency_hashes`: the recursive hash of every
   * dependency, under the same names; it fails with the error of a failing one.
   */
  function FunctionDependencyHashes(P: Primitives, deps: map<string, FunctionDependency>, ghost stages: set<Stage>, ghost bound: nat)
    : (r: Result<map<string, Digest>, Error>)
    requires Ranked(stages)
    requires forall n :: n in deps ==> CalleeBounded(deps[n].callee, bound, stages)
    ensures r.Ok? <==> forall n :: n in deps ==> RecursiveHash(P, deps[n], stages, bound).Ok?
    ensures r.Ok? ==> r.value.Keys == deps.Keys
    ensures r.Ok? ==> forall n :: n in deps ==> RecursiveHash(P, deps[n], stages, bound) == Ok(r.value[n])
    ensures r.Err? ==> exists n :: n in deps && RecursiveHash(P, deps[n], stages, bound) == Err(r.error)
  {
    var hashes := map n | n in deps :: RecursiveHash(P, deps[n], stages, bound);
    assert hashes.Keys == deps.Keys;
    assert forall n :: n in deps ==> hashes[n] == RecursiveHash(P, deps[n], stages, bound);
    Collect(hashes)
  }
}

=== FILE: functions.dfy ===
/** Naming a function for file names, and reading its declared defaults. */
module Functions {
  import opened Wrappers
  import opened Core

  /** Python's `s[start:]` for any integer `start` (negative counts from the end). */
  function SliceFrom(s: string, start: int): (r: string)
    ensures |r| <= |s| && r == s[|s| - |r|..]
  {
    var k := if start < 0 then (if |s| + start < 0 then 0 else |s| + start)
             else (if start > |s| then |s| else start);
    s[k..]
  }

  /**
   * `get_full_func_name`: `module.qualname`, cut to its last `maxLength`
   * characters when it is longer.  Python's `name[-0:]` is the whole name, so a
   * limit of zero does not shorten anything.
   */
  function FullFuncName(f: Func, maxLength: Option<int>): (r: string)
    ensures maxLength.None? ==> r == f.moduleName + "." + f.qualname
    ensures maxLength.Some? && maxLength.value > 0 ==> |r| <= maxLength.value
    ensures var full := f.moduleName + "." + f.qualname; |r| <= |full| && r == full[|full| - |r|..]
    ensures maxLength.Some? && |f.moduleName + "." + f.qualname| <= maxLength.value ==>
      r == f.moduleName + "." + f.qualname
  {
    var full := f.moduleName + "." + f.qualname;
    if maxLength.Some? && |full| > maxLength.value then SliceFrom(full, -maxLength.value) else full
  }

  /** A long name keeps exactly its last `maxLength` characters. */
  lemma LongNameKeepsSuffix(f: Func, maxLength: nat)
    requires maxLength > 0 && |f.moduleName + "." + f.qualname| > maxLength
    ensures |FullFuncName(f, Some(maxLength))| == maxLength
  {
  }

  /** A zero limit leaves the (never empty) full name as it is. */
  lemma ZeroLimitKeepsWholeName(f: Func)
    ensures FullFuncName(f, Some(0)) == f.moduleName + "." + f.qualname
    ensures |FullFuncName(f, Some(0))| > 0
  {
  }

  /** `get_arg_default_values`: the declared defaults by parameter name. */
  function ArgDefaultValues(params: seq<Param>): (r: map<string, Value>)
    ensures forall n :: n in r ==> exists i :: 0 <= i < |params| && params[i].name == n && params[i].default == Some(r[n])
  {
    if params == [] then map[]
    else
      var rest := ArgDefaultValues(params[..|params| - 1]);
      var last := params[|params| - 1];
      if last.default.Some? then rest[last.name := last.default.value] else rest
  }

  /** Exactly the parameters that declare a default appear, each with its default. */
  lemma {:induction false} ArgDefaultValuesExact(params: seq<Param>)
    requires DistinctNames(params)
    ensures forall i :: 0 <= i < |params| ==>
      (params[i].name in ArgDefaultValues(params) <==> params[i].default.Some?)
    ensures forall i :: 0 <= i < |params| && params[i].default.Some? ==>
      ArgDefaultValues(params)[params[i].name] == params[i].default.value
  {
    if params != [] {
      var init := params[..|params| - 1];
      assert DistinctNames(init);
      ArgDefaultValuesExact(init);
      var last := params[|params| - 1];
      var rest := ArgDefaultValues(init);
      var r := ArgDefaultValues(params);
      assert r == if last.default.Some? then rest[last.name := last.default.value] else rest;
      forall i | 0 <= i < |params|
        ensures params[i].name in r <==> params[i].default.Some?
        ensures params[i].default.Some? ==> r[params[i].name] == params[i].default.value
      {
        if i < |init| {
          assert init[i] == params[i] && params[i].name != last.name;
        }
      }
    }
  }
}

=== FILE: hashing.dfy ===
/**
 * Value hashing and code hashing.  Serialisation (pickle), SHA-256, the Python
 * parser and unparser and UTF-8 encoding are library code whose behaviour the
 * model does not interpret: they are the fields of `Primitives`, passed to every
 * operation that hashes.
 */
module Hashing {
  import opened Wrappers
  import opened Core

  /** What `compute_value_hash` is applied to: a value, or a (code hash, hash map) pair. */
  datatype Encodable =
    | Obj(value: Value)
    | CodeAndHashes(code: Digest, hashes: map<string, Digest>)

  /** A top-level statement of a parsed module; `shape` stands for everything but the name. */
  datatype Statement = FunctionDef(name: string, shape: string) | OtherStatement(shape: string)

  /**
   * The library functions hashing relies on: `encode` (pickle), `sha256`, `parse`
   * (`ast.parse`, `None` on a syntax error), `unparse` (`ast.unparse`) and `utf8`.
   */
  datatype Primitives = Primitives(
    encode: Encodable -> seq<byte>,
    sha256: seq<byte> -> Digest,
    parse: string -> Option<seq<Statement>>,
    unparse: Statement -> string,
    utf8: string -> seq<byte>)

  /** `compute_value_hash`: SHA-256 of the serialised value. */
  function ValueHash(P: Primitives, x: Encodable): Digest {
    P.sha256(P.encode(x))
  }

  /** SHA-256 does not collide on the byte strings `a` and `b`. */
  ghost predicate NoCollision(P: Primitives, a: seq<byte>, b: seq<byte>) {
    P.sha256(a) == P.sha256(b) ==> a == b
  }

  /**
   * The value hash identifies a value's serialisation: two values hash alike
   * exactly when they serialise alike, unless SHA-256 collides on the two.
   */
  lemma ValueHashIdentifiesEncoding(P: Primitives, x: Encodable, y: Encodable)
    requires NoCollision(P, P.encode(x), P.encode(y))
    ensures ValueHash(P, x) == ValueHash(P, y) <==> P.encode(x) == P.encode(y)
  {
  }

  // ---------------------------------------------------------------------------
  // Lines of source text.

  /** `str.split("\n")`: never empty, and no piece holds a newline. */
  function SplitLines(s: string): (lines: seq<string>)
    ensures |lines| >= 1
    ensures forall i :: 0 <= i < |lines| ==> '\n' !in lines[i]
  {
    if s == [] then [""]
    else
      var rest := SplitLines(s[1..]);
      if s[0] == '\n' then [""] + rest else [[s[0]] + rest[0]] + rest[1..]
  }

  /** `"\n".join(lines)`. */
  function JoinLines(lines: seq<string>): string
    decreases |lines|
  {
    if lines == [] then ""
    else if |lines| == 1 then lines[0]
    else lines[0] + "\n" + JoinLines(lines[1..])
  }

  lemma {:induction false} SplitLineThenRest(a: string, b: string)
    requires '\n' !in a
    ensures SplitLines(a + "\n" + b) == [a] + SplitLines(b)
  {
    if a != [] {
      assert (a + "\n" + b)[1..] == a[1..] + "\n" + b;
      SplitLineThenRest(a[1..], b);
      assert [a[0]] + a[1..] == a;
    } else {
      assert (a + "\n" + b)[1..] == b;
    }
  }

  lemma {:induction false} SplitSingleLine(a: string)
    requires '\n' !in a
    ensures SplitLines(a) == [a]
  {
    if a != [] {
      SplitSingleLine(a[1..]);
      assert [a[0]] + a[1..] == a;
    }
  }

  /** Splitting a join gives back the lines. */
  lemma {:induction false} SplitJoin(lines: seq<string>)
    requires |lines| >= 1
    requires forall i :: 0 <= i < |lines| ==> '\n' !in lines[i]
    ensures SplitLines(JoinLines(lines)) == lines
  {
    if |lines| == 1 {
      SplitSingleLine(lines[0]);
    } else {
      SplitJoin(lines[1..]);
      SplitLineThenRest(lines[0], JoinLines(lines[1..]));
    }
  }

  /** Joining a split gives back the text. */
  lemma {:induction false} JoinSplit(s: string)
    ensures JoinLines(SplitLines(s)) == s
  {
    if s != [] {
      JoinSplit(s[1..]);
      var rest := SplitLines(s[1..]);
      if s[0] != '\n' {
        if |rest| > 1 {
          assert JoinLines(rest) == rest[0] + "\n" + JoinLines(rest[1..]);
          assert JoinLines([[s[0]] + rest[0]] + rest[1..]) == [s[0]] + rest[0] + "\n" + JoinLines(rest[1..]);
        }
      }
    }
  }

  // ---------------------------------------------------------------------------
  // `_strip_whitespace_prefixes`.

  /**
   * A character `str.isspace()` accepts: the Unicode characters of general
   * category Zs or of bidirectional class WS, B or S.
   */
  predicate IsSpace(c: char) {
    ('\U{0009}' <= c <= '\U{000D}') || ('\U{001C}' <= c <= '\U{0020}') || c == '\U{0085}' || c == '\U{00A0}' ||
    c == '\U{1680}' || ('\U{2000}' <= c <= '\U{200A}') || c == '\U{2028}' || c == '\U{2029}' || c == '\U{202F}' ||
    c == '\U{205F}' || c == '\U{3000}'
  }

  /** `str.isspace()`: non-empty and only whitespace. */
  predicate AllSpace(s: string) {
    |s| > 0 && forall i :: 0 <= i < |s| ==> IsSpace(s[i])
  }

  function Min(a: nat, b: nat): nat {
    if a < b then a else b
  }

  /** Python's `line[k:]`: empty when `k` is past the end. */
  function Drop(line: string, k: nat): string {
    if k <= |line| then line[k..] else ""
  }

  /**
   * The inner loop for one line, from `length` up to (not including) `stop`: the
   * first length at which the line's prefix is not whitespace or differs from the
   * current prefix cuts the prefix to one character shorter.
   */
  function ScanLine(prefix: string, line: string, length: nat, stop: nat): string
    requires 1 <= length && stop <= Min(|prefix|, |line|) + 1
    decreases stop - length
  {
    if length >= stop then prefix
    else if !AllSpace(line[..length]) || line[..length] != prefix[..length] then line[..length - 1]
    else ScanLine(prefix, line, length + 1, stop)
  }

  /**
   * The outer loop over the remaining lines.  `inclusive` chooses the inner
   * range: `range(1, m)` as written when false, `range(1, m + 1)` when true, where
   * `m` is the smaller of the prefix and line lengths.
   */
  function ScanLines(prefix: string, lines: seq<string>, inclusive: bool): string
    decreases |lines|
  {
    if lines == [] then prefix
    else
      var m := Min(|prefix|, |lines[0]|);
      ScanLines(ScanLine(prefix, lines[0], 1, if inclusive then m + 1 else m), lines[1..], inclusive)
  }

  /** The prefix `_strip_whitespace_prefixes` computes, starting from the first line. */
  function PrefixAsWritten(lines: seq<string>): string {
    ScanLines(if |lines| > 0 then lines[0] else "", lines, false)
  }

  /** The intended prefix: the inner loop also compares the shorter length. */
  function CommonWhitespacePrefix(lines: seq<string>): string {
    ScanLines(if |lines| > 0 then lines[0] else "", lines, true)
  }

  /** Every line with the prefix's length cut off. */
  function StripLines(lines: seq<string>, prefix: string): (r: seq<string>)
    ensures |r| == |lines|
    ensures forall i :: 0 <= i < |r| ==> r[i] == Drop(lines[i], |prefix|)
  {
    seq(|lines|, i requires 0 <= i < |lines| => Drop(lines[i], |prefix|))
  }

  /**
   * `_strip_whitespace_prefixes` as written: the nested loops shrink
   * `longestCommonPrefix`, then every line loses that many leading characters.
   */
  method StripWhitespacePrefixes(funcCode: string) returns (stripped: string)
    ensures stripped == JoinLines(StripLines(SplitLines(funcCode), PrefixAsWritten(SplitLines(funcCode))))
  {
    var codeLines := SplitLines(funcCode);
    var longestCommonPrefix := if |codeLines| > 0 then codeLines[0] else "";
    var j := 0;
    while j < |codeLines|
      invariant 0 <= j <= |codeLines|
      invariant ScanLines(longestCommonPrefix, codeLines[j..], false) == PrefixAsWritten(codeLines)
    {
      var line := codeLines[j];
      ghost var before := longestCommonPrefix;
      var stop := Min(|longestCommonPrefix|, |line|);
      var length := 1;
      while length < stop
        invariant 1 <= length
        invariant longestCommonPrefix == before
        invariant ScanLine(before, line, length, stop) == ScanLine(before, line, 1, stop)
      {
        if !AllSpace(line[..length]) || line[..length] != longestCommonPrefix[..length] {
          longestCommonPrefix := line[..length - 1];
          break;
        }
        length := length + 1;
      }
      assert longestCommonPrefix == ScanLine(before, line, 1, stop);
      assert codeLines[j..][1..] == codeLines[j + 1..];
      j := j + 1;
    }
    stripped := JoinLines(StripLines(codeLines, longestCommonPrefix));
  }

  /** The prefix a scan settles on is a prefix of the one it started from. */
  lemma {:induction false} ScanLineShrinks(prefix: string, line: string, length: nat, stop: nat)
    requires 1 <= length <= Min(|prefix|, |line|) + 1 && stop <= Min(|prefix|, |line|) + 1
    requires line[..length - 1] == prefix[..length - 1]
    ensures var r := ScanLine(prefix, line, length, stop); |r| <= |prefix| && r == prefix[..|r|]
    decreases stop - length
  {
    if length < stop && AllSpace(line[..length]) && line[..length] == prefix[..length] {
      ScanLineShrinks(prefix, line, length + 1, stop);
    }
  }

  lemma {:induction false} ScanLinesShrinks(prefix: string, lines: seq<string>, inclusive: bool)
    ensures var r := ScanLines(prefix, lines, inclusive); |r| <= |prefix| && r == prefix[..|r|]
    decreases |lines|
  {
    if lines != [] {
      var m := Min(|prefix|, |lines[0]|);
      var next := ScanLine(prefix, lines[0], 1, if inclusive then m + 1 else m);
      ScanLineShrinks(prefix, lines[0], 1, if inclusive then m + 1 else m);
      ScanLinesShrinks(next, lines[1..], inclusive);
    }
  }

  /**
   * The prefix never grows while the loops run, and what is stripped is always
   * a prefix of the first line; both hold for the code as written and for the
   * corrected loop.
   */
  lemma PrefixOfFirstLine(lines: seq<string>, inclusive: bool)
    requires |lines| > 0
    ensures var r := ScanLines(lines[0], lines, inclusive); |r| <= |lines[0]| && r == lines[0][..|r|]
  {
    ScanLinesShrinks(lines[0], lines, inclusive);
  }

  /** Stripping keeps the number of lines, and line `i` loses exactly the prefix's length. */
  lemma StripKeepsLines(code: string, prefix: string)
    ensures SplitLines(JoinLines(StripLines(SplitLines(code), prefix))) == StripLines(SplitLines(code), prefix)
    ensures |StripLines(SplitLines(code), prefix)| == |SplitLines(code)|
  {
    var lines := StripLines(SplitLines(code), prefix);
    forall i | 0 <= i < |lines| ensures '\n' !in lines[i] {
      var line := SplitLines(code)[i];
      assert '\n' !in line;
      if |prefix| <= |line| {
        assert forall c :: c in line[|prefix|..] ==> c in line;
      }
    }
    SplitJoin(lines);
  }

  // ---------------------------------------------------------------------------
  // The corrected scan strips whitespace only.

  /** Up to the shorter length, every processed line agrees with the prefix on whitespace. */
  ghost predicate WhitespaceAgrees(prefix: string, line: string) {
    forall j :: 0 <= j < Min(|prefix|, |line|) ==> line[j] == prefix[j] && IsSpace(line[j])
  }

  lemma {:induction false} CorrectedScanLineAgrees(prefix: string, line: string, length: nat)
    requires 1 <= length <= Min(|prefix|, |line|) + 1
    requires forall j :: 0 <= j < length - 1 ==> line[j] == prefix[j] && IsSpace(line[j])
    ensures var r := ScanLine(prefix, line, length, Min(|prefix|, |line|) + 1);
      WhitespaceAgrees(r, line) && |r| <= |prefix| && r == prefix[..|r|]
    decreases Min(|prefix|, |line|) + 1 - length
  {
    var stop := Min(|prefix|, |line|) + 1;
    if length < stop {
      if !AllSpace(line[..length]) || line[..length] != prefix[..length] {
        var r := line[..length - 1];
        assert r == prefix[..length - 1];
      } else {
        assert line[length - 1] == line[..length][length - 1];
        assert prefix[length - 1] == prefix[..length][length - 1];
        CorrectedScanLineAgrees(prefix, line, length + 1);
      }
    }
  }

  lemma {:induction false} CorrectedScanLinesAgree(prefix: string, done: seq<string>, lines: seq<string>)
    requires forall i :: 0 <= i < |done| ==> WhitespaceAgrees(prefix, done[i])
    ensures var r := ScanLines(prefix, lines, true);
      forall i :: 0 <= i < |done| + |lines| ==> WhitespaceAgrees(r, (done + lines)[i])
    decreases |lines|
  {
    if lines == [] {
      assert done + lines == done;
    } else {
      var m := Min(|prefix|, |lines[0]|);
      var next := ScanLine(prefix, lines[0], 1, m + 1);
      CorrectedScanLineAgrees(prefix, lines[0], 1);
      forall i | 0 <= i < |done + [lines[0]]| ensures WhitespaceAgrees(next, (done + [lines[0]])[i]) {
        if i < |done| {
          assert WhitespaceAgrees(prefix, done[i]);
        }
      }
      CorrectedScanLinesAgree(next, done + [lines[0]], lines[1..]);
      assert done + [lines[0]] + lines[1..] == done + lines;
    }
  }

  /**
   * With the corrected loop, the characters cut from every line are whitespace
   * (and the same for every line): no code is lost by stripping.
   */
  lemma StripRemovesOnlyWhitespace(lines: seq<string>)
    ensures var p := CommonWhitespacePrefix(lines);
      forall i :: 0 <= i < |lines| ==>
        var k := Min(|p|, |lines[i]|);
        lines[i] == lines[i][..k] + Drop(lines[i], |p|) &&
        forall j :: 0 <= j < k ==> IsSpace(lines[i][j]) && lines[i][j] == p[j]
  {
    var p := CommonWhitespacePrefix(lines);
    CorrectedScanLinesAgree(if |lines| > 0 then lines[0] else "", [], lines);
    assert [] + lines == lines;
    forall i | 0 <= i < |lines|
      ensures lines[i] == lines[i][..Min(|p|, |lines[i]|)] + Drop(lines[i], |p|)
    {
      DropSplits(lines[i], |p|);
    }
  }

  lemma DropSplits(line: string, k: nat)
    ensures line == line[..Min(k, |line|)] + Drop(line, k)
  {
    if k <= |line| {
      assert line == line[..k] + line[k..];
    } else {
      assert line[..|line|] == line;
    }
  }

  /** `_strip_whitespace_prefixes` with the corrected inner range. */
  function StripCommonWhitespace(funcCode: string): string {
    var lines := SplitLines(funcCode);
    JoinLines(StripLines(lines, CommonWhitespacePrefix(lines)))
  }

  /**
   * The code as written compares only lengths below the shorter length, so a
   * line whose first code character sits at the last compared position is cut:
   * here the second line loses its `x`, which the corrected scan keeps.
   */
  lemma AsWrittenStripLosesCode()
    ensures var lines := ["  def f():", " x"];
      PrefixAsWritten(lines) == "  " &&
      StripLines(lines, PrefixAsWritten(lines)) == ["def f():", ""] &&
      CommonWhitespacePrefix(lines) == " " &&
      StripLines(lines, CommonWhitespacePrefix(lines)) == [" def f():", "x"]
  {
    var lines := ["  def f():", " x"];
    var first := "  def f():";
    assert !AllSpace(first[..3]) by {
      assert first[..3][2] == 'd';
    }
    assert AllSpace(first[..1]) && AllSpace(first[..2]);
    assert ScanLine(first, first, 1, 10) == "  ";
    assert ScanLine(first, first, 1, 11) == "  ";
    assert ScanLine("  ", " x", 1, 2) == "  ";
    assert !AllSpace(" x"[..2]) by {
      assert " x"[..2][1] == 'x';
    }
    assert ScanLine("  ", " x", 1, 3) == " ";
  }

  // ---------------------------------------------------------------------------
  // `compute_code_hash`.

  /** The name every function definition is given before hashing. */
  const OverrideFunctionName := "_fn_"

  /**
   * `compute_code_hash`: strip the common indentation, parse, demand exactly one
   * function definition, rename it to `_fn_`, unparse and hash the UTF-8 bytes.
   * Both a syntax error and a source that is not one function definition are
   * `InvalidFunctionSource`.
   */
  function CodeHash(P: Primitives, f: Func): (r: Result<Digest, Error>)
    ensures r.Ok? <==>
      var body := P.parse(StripCommonWhitespace(f.source));
      body.Some? && |body.value| == 1 && body.value[0].FunctionDef?
    ensures r.Err? ==> r.error == InvalidFunctionSource
  {
    match P.parse(StripCommonWhitespace(f.source))
    case None => Err(InvalidFunctionSource)
    case Some(body) =>
      if |body| == 1 && body[0].FunctionDef? then
        Ok(P.sha256(P.utf8(P.unparse(body[0].(name := OverrideFunctionName)))))
      else
        Err(InvalidFunctionSource)
  }

  /** Renaming a function does not change its code hash. */
  lemma CodeHashIgnoresName(P: Primitives, f: Func, g: Func, nf: string, ng: string, shape: string)
    requires P.parse(StripCommonWhitespace(f.source)) == Some([FunctionDef(nf, shape)])
    requires P.parse(StripCommonWhitespace(g.source)) == Some([FunctionDef(ng, shape)])
    ensures CodeHash(P, f).Ok? && CodeHash(P, f) == CodeHash(P, g)
  {
  }
}

=== FILE: hook_persistence.dfy ===
/**
 * The state a hook keeps between runs: the hash of its code (with the hashes of
 * its function dependencies), and per subscribed argument the reference used to
 * look up its last result and the references the hook has already run on.  The
 * state lives in `<cache dir>/hook_states/<qualified hook name>`.
 */
module HookPersistence {
  import opened Wrappers
  import opened Core
  import opened Hashing
  import opened Functions

  const HookStatesDirName := "hook_states"
  /** The longest file name most file systems accept. */
  const MaxFuncNameLength := 255

  /** `HookArgumentState()`: no references at all. */
  const FreshArgState := HookArgumentState(None, None, {})

  /** An argument state forgets what the hook ran on, but keeps where its last result is. */
  function Invalidated(s: HookArgumentState): (r: HookArgumentState)
    ensures r.resultLookupReference == s.resultLookupReference
    ensures r.lastExecutedResultReference.None? && r.allExecutedResultReferences == {}
  {
    s.(lastExecutedResultReference := None, allExecutedResultReferences := {})
  }

  /** The argument states after a code change: every one of them invalidated. */
  function InvalidatedAll(states: map<string, HookArgumentState>): (r: map<string, HookArgumentState>)
    ensures r.Keys == states.Keys
    ensures forall k :: k in r ==> r[k] == Invalidated(states[k])
  {
    map k | k in states :: Invalidated(states[k])
  }

  /** `record_triggered` on one argument state (a fresh one when the argument had none). */
  function Recorded(s: Option<HookArgumentState>, hash: Digest): (r: HookArgumentState)
    ensures r.resultLookupReference == Some(hash) && r.lastExecutedResultReference == Some(hash)
    ensures r.allExecutedResultReferences == (if s.Some? then s.value.allExecutedResultReferences else {}) + {hash}
  {
    var base := if s.Some? then s.value else FreshArgState;
    base.(resultLookupReference := Some(hash),
          lastExecutedResultReference := Some(hash),
          allExecutedResultReferences := base.allExecutedResultReferences + {hash})
  }

  function Get<V>(m: map<string, V>, k: string): Option<V> {
    if k in m then Some(m[k]) else None
  }

  /** The combined hash of a hook's code and its function dependencies' hashes. */
  function HookCodeHash(P: Primitives, hookFunc: Func, dependencyHashes: map<string, Digest>): (r: Result<Digest, Error>)
    ensures r.Ok? <==> CodeHash(P, hookFunc).Ok?
    ensures r.Ok? ==> r.value == ValueHash(P, CodeAndHashes(CodeHash(P, hookFunc).value, dependencyHashes))
  {
    var code :- CodeHash(P, hookFunc);
    Ok(ValueHash(P, CodeAndHashes(code, dependencyHashes)))
  }

  /** The state record after `update_code_hash` has seen the hash `newHash`. */
  function AfterCodeUpdate(rec: HookStateRecord, newHash: Digest): (r: HookStateRecord)
    ensures r.codeHash == Some(newHash)
    ensures rec.codeHash.Some? && rec.codeHash != Some(newHash) ==> r.argStates == InvalidatedAll(rec.argStates)
    ensures rec.codeHash.None? || rec.codeHash == Some(newHash) ==> r.argStates == rec.argStates
  {
    if rec.codeHash.Some? && rec.codeHash != Some(newHash) then HookStateRecord(Some(newHash), InvalidatedAll(rec.argStates))
    else HookStateRecord(Some(newHash), rec.argStates)
  }

  /** The last executed reference is always one of the executed references. */
  ghost predicate Consistent(s: HookArgumentState) {
    s.lastExecutedResultReference.Some? ==> s.lastExecutedResultReference.value in s.allExecutedResultReferences
  }

  ghost predicate AllConsistent(states: map<string, HookArgumentState>) {
    forall k :: k in states ==> Consistent(states[k])
  }

  /** Recording and invalidation keep every argument state consistent. */
  lemma ConsistencyPreserved(rec: HookStateRecord, newHash: Digest, name: string, hash: Digest)
    requires AllConsistent(rec.argStates)
    ensures AllConsistent(AfterCodeUpdate(rec, newHash).argStates)
    ensures AllConsistent(rec.argStates[name := Recorded(Get(rec.argStates, name), hash)])
  {
  }

  /** `HookState`: the mutable state object loaded, updated and saved around a hook run. */
  class HookState {
    var codeHash: Option<Digest>
    var argStates: map<string, HookArgumentState>

    /** `HookState()`. */
    constructor ()
      ensures codeHash.None? && argStates == map[]
    {
      codeHash := None;
      argStates := map[];
    }

    constructor FromRecord(rec: HookStateRecord)
      ensures codeHash == rec.codeHash && argStates == rec.argStates
    {
      codeHash := rec.codeHash;
      argStates := rec.argStates;
    }

    function Record(): HookStateRecord
      reads this
    {
      HookStateRecord(codeHash, argStates)
    }

    /**
     * `update_code_hash`: stores the new combined hash and reports whether it
     * differs from the stored one (it does on the first call).  A change of a
     * hash that was set invalidates every argument state.  A function source
     * that cannot be hashed raises before anything changes.
     */
    method UpdateCodeHash(P: Primitives, hookFunc: Func, dependencyHashes: map<string, Digest>)
      returns (r: Result<bool, Error>)
      modifies this
      ensures var h := HookCodeHash(P, hookFunc, dependencyHashes);
        r.Err? <==> h.Err?
      ensures r.Err? ==> r.error == HookCodeHash(P, hookFunc, dependencyHashes).error
      ensures r.Err? ==> codeHash == old(codeHash) && argStates == old(argStates)
      ensures r.Ok? ==> var h := HookCodeHash(P, hookFunc, dependencyHashes).value;
        r.value == (old(codeHash) != Some(h)) &&
        Record() == AfterCodeUpdate(old(Record()), h)
    {
      var hookHash := CodeHash(P, hookFunc);
      if hookHash.Err? {
        return Err(hookHash.error);
      }
      var newHash := ValueHash(P, CodeAndHashes(hookHash.value, dependencyHashes));
      var prevCodeHash := codeHash;
      codeHash := Some(newHash);
      if prevCodeHash.Some? && prevCodeHash != Some(newHash) {
        var remaining := argStates.Keys;
        while remaining != {}
          invariant codeHash == Some(newHash)
          invariant remaining <= argStates.Keys && argStates.Keys == old(argStates).Keys
          invariant forall k :: k in argStates && k !in remaining ==> argStates[k] == Invalidated(old(argStates)[k])
          invariant forall k :: k in remaining ==> argStates[k] == old(argStates)[k]
          decreases remaining
        {
          var k :| k in remaining;
          argStates := argStates[k := Invalidated(argStates[k])];
          remaining := remaining - {k};
        }
        assert argStates == InvalidatedAll(old(argStates));
      }
      assert newHash == HookCodeHash(P, hookFunc, dependencyHashes).value;
      assert old(Record()) == HookStateRecord(prevCodeHash, old(argStates));
      return Ok(prevCodeHash != Some(newHash));
    }

    /**
     * `record_triggered`: the argument's state (created when missing) now looks
     * up and has last run on `hash`, and `hash` joins its executed references;
     * no other argument changes.
     */
    method RecordTriggered(argName: string, hash: Digest)
      modifies this`argStates
      ensures argStates == old(argStates)[argName := Recorded(Get(old(argStates), argName), hash)]
    {
      var argState := if argName in argStates then argStates[argName] else FreshArgState;
      argState := argState.(resultLookupReference := Some(hash), lastExecutedResultReference := Some(hash));
      argState := argState.(allExecutedResultReferences := argState.allExecutedResultReferences + {hash});
      argStates := argStates[argName := argState];
    }
  }

  /** `_get_hook_state_path`: a file named by the hook's qualified name, cut to 255 characters. */
  function HookStatePath(dir: Path, hookFunc: Func): (path: Path)
    ensures |path| == |dir| + 2 && path[..|dir|] == dir && path[|dir|] == HookStatesDirName
    ensures |path[|dir| + 1]| <= MaxFuncNameLength
  {
    dir + [HookStatesDirName, FullFuncName(hookFunc, Some(MaxFuncNameLength))]
  }

  /** The record `load_hook_state` reads: the stored one, or a fresh state when none is stored. */
  function LoadedRecord(files: map<Path, HookStateRecord>, dir: Path, hookFunc: Func): (r: HookStateRecord)
    ensures HookStatePath(dir, hookFunc) !in files ==> r == HookStateRecord(None, map[])
    ensures HookStatePath(dir, hookFunc) in files ==> r == files[HookStatePath(dir, hookFunc)]
  {
    var path := HookStatePath(dir, hookFunc);
    if path in files then files[path] else HookStateRecord(None, map[])
  }

  /** `load_hook_state`: a new state object holding the loaded record. */
  method LoadHookState(files: map<Path, HookStateRecord>, dir: Path, hookFunc: Func) returns (state: HookState)
    ensures fresh(state)
    ensures state.Record() == LoadedRecord(files, dir, hookFunc)
  {
    var path := HookStatePath(dir, hookFunc);
    if path in files {
      state := new HookState.FromRecord(files[path]);
    } else {
      state := new HookState();
    }
  }

  /** `save_hook_state`: the files with the state's record written at the hook's path. */
  function SaveHookState(files: map<Path, HookStateRecord>, dir: Path, hookFunc: Func, rec: HookStateRecord)
    : (r: map<Path, HookStateRecord>)
    ensures LoadedRecord(r, dir, hookFunc) == rec
    ensures forall p :: p in files && p != HookStatePath(dir, hookFunc) ==> p in r && r[p] == files[p]
  {
    files[HookStatePath(dir, hookFunc) := rec]
  }

  /**
   * Updating a fresh state stores the hash and has nothing to invalidate
   * (`UpdateCodeHash` reports it as a change, since no hash was stored).
   */
  lemma FreshStateUpdateStoresHash(newHash: Digest)
    ensures AfterCodeUpdate(HookStateRecord(None, map[]), newHash) == HookStateRecord(Some(newHash), map[])
  {
  }

  /**
   * After an update the stored hash is the new one, so a second update with
   * the same hash is reported as no change and leaves the state as it was.
   */
  lemma RepeatedUpdateIsIdle(rec: HookStateRecord, newHash: Digest)
    ensures AfterCodeUpdate(rec, newHash).codeHash == Some(newHash)
    ensures AfterCodeUpdate(AfterCodeUpdate(rec, newHash), newHash) == AfterCodeUpdate(rec, newHash)
  {
  }

  /** A code change clears what the hook ran on but keeps every lookup reference. */
  lemma CodeChangeKeepsLookups(rec: HookStateRecord, newHash: Digest, name: string)
    requires rec.codeHash.Some? && rec.codeHash != Some(newHash) && name in rec.argStates
    ensures name in AfterCodeUpdate(rec, newHash).argStates
    ensures AfterCodeUpdate(rec, newHash).argStates[name].resultLookupReference == rec.argStates[name].resultLookupReference
    ensures AfterCodeUpdate(rec, newHash).argStates[name].lastExecutedResultReference.None?
    ensures AfterCodeUpdate(rec, newHash).argStates[name].allExecutedResultReferences == {}
  {
  }
}

=== FILE: hooks.dfy ===
/**
 * Hooks: functions whose parameters all default to `Subscription(stage, ...)`
 * or `Use(func)`.  A hook registers one callback per subscription on the
 * subscribed stage.  When the stage produces a result, the callback decides
 * from the hook's persisted state whether the subscription's condition holds;
 * if so it gathers the last results of the other subscriptions and calls the
 * hook function.
 */
module Hooks {
  import opened Wrappers
  import opened Core
  import opened Hashing
  import opened FunctionDependencies
  import opened Storage
  import opened StagePersistence
  import opened HookPersistence
  import opened Execution

  // ---------------------------------------------------------------------------
  // Trigger conditions.

  /**
   * `cond_different_from_last`: never without a result hash; for an argument
   * with no recorded state every result fires; otherwise a result fires
   * exactly when it differs from the one the hook last ran on.
   */
  function CondDifferentFromLast(argStates: map<string, HookArgumentState>, argName: string, hash: Option<Digest>)
    : (r: bool)
    ensures r ==> hash.Some?
    ensures argName !in argStates ==> (r <==> hash.Some?)
    ensures argName in argStates && hash.Some? ==> (r <==> argStates[argName].lastExecutedResultReference != hash)
  {
    hash.Some? && (argName !in argStates || argStates[argName].lastExecutedResultReference != hash)
  }

  /**
   * `cond_different_from_all`: never without a result hash; for an argument
   * with no recorded state every result fires; otherwise a result fires
   * exactly when the hook has never run on it.
   */
  function CondDifferentFromAll(argStates: map<string, HookArgumentState>, argName: string, hash: Option<Digest>)
    : (r: bool)
    ensures r ==> hash.Some?
    ensures argName !in argStates ==> (r <==> hash.Some?)
    ensures argName in argStates && hash.Some? ==> (r <==> hash.value !in argStates[argName].allExecutedResultReferences)
  {
    hash.Some? && (argName !in argStates || hash.value !in argStates[argName].allExecutedResultReferences)
  }

  /**
   * `TRIGGER_CONDITIONS[when]`: under either condition nothing fires without a
   * result hash and a first result for an argument always fires.
   */
  function Triggers(when: Condition, argStates: map<string, HookArgumentState>, argName: string, hash: Option<Digest>)
    : (r: bool)
    ensures r ==> hash.Some?
    ensures argName !in argStates && hash.Some? ==> r
    ensures when == DifferentFromLast ==> r == CondDifferentFromLast(argStates, argName, hash)
    ensures when == DifferentFromAll ==> r == CondDifferentFromAll(argStates, argName, hash)
  {
    match when
    case DifferentFromLast => CondDifferentFromLast(argStates, argName, hash)
    case DifferentFromAll => CondDifferentFromAll(argStates, argName, hash)
  }

  /** No condition holds without a result hash. */
  lemma NoHashNeverTriggers(when: Condition, argStates: map<string, HookArgumentState>, argName: string)
    ensures !Triggers(when, argStates, argName, None)
  {
  }

  /** Right after a result is recorded for an argument, neither condition holds for that result again. */
  lemma RecordedResultDoesNotTrigger(when: Condition, argStates: map<string, HookArgumentState>, argName: string, hash: Digest)
    ensures !Triggers(when, argStates[argName := Recorded(Get(argStates, argName), hash)], argName, Some(hash))
  {
  }

  /** Recording a result for one argument does not change the conditions of the others. */
  lemma RecordingKeepsOtherArguments(when: Condition, argStates: map<string, HookArgumentState>, argName: string,
                                     other: string, hash: Digest, h: Option<Digest>)
    requires other != argName
    ensures Triggers(when, argStates[argName := Recorded(Get(argStates, argName), hash)], other, h)
        == Triggers(when, argStates, other, h)
  {
  }

  /** After a code change every condition holds for every result, whatever was recorded before. */
  lemma CodeChangeTriggersAgain(when: Condition, rec: HookStateRecord, newHash: Digest, argName: string, hash: Digest)
    requires rec.codeHash.Some? && rec.codeHash != Some(newHash)
    ensures Triggers(when, AfterCodeUpdate(rec, newHash).argStates, argName, Some(hash))
  {
  }

  /** In a consistent state, a result new to all runs is also new to the last run. */
  lemma FromAllImpliesFromLast(argStates: map<string, HookArgumentState>, argName: string, hash: Option<Digest>)
    requires AllConsistent(argStates)
    requires CondDifferentFromAll(argStates, argName, hash)
    ensures CondDifferentFromLast(argStates, argName, hash)
  {
    if argName in argStates {
      assert Consistent(argStates[argName]);
    }
  }

  /** One notification: whether the condition holds, and the argument states after recording it. */
  function Notify(when: Condition, argStates: map<string, HookArgumentState>, argName: string, hash: Digest)
    : (bool, map<string, HookArgumentState>)
  {
    (Triggers(when, argStates, argName, Some(hash)), argStates[argName := Recorded(Get(argStates, argName), hash)])
  }

  /** Whether each of a sequence of results for one argument triggers, starting from `argStates`. */
  function Firings(when: Condition, argStates: map<string, HookArgumentState>, argName: string, hashes: seq<Digest>)
    : (r: seq<bool>)
    ensures |r| == |hashes|
    decreases |hashes|
  {
    if hashes == [] then []
    else
      var (fired, next) := Notify(when, argStates, argName, hashes[0]);
      [fired] + Firings(when, next, argName, hashes[1..])
  }

  /** Results `a, a, b` with `different_from_last`: the hook runs on the first and the third. */
  lemma DifferentFromLastSequence(argName: string, a: Digest, b: Digest)
    requires a != b
    ensures Firings(DifferentFromLast, map[], argName, [a, a, b]) == [true, false, true]
  {
    var s1 := Notify(DifferentFromLast, map[], argName, a).1;
    var s2 := Notify(DifferentFromLast, s1, argName, a).1;
    assert [a, a, b][1..] == [a, b] && [a, b][1..] == [b] && [b][1..] == [];
    assert Firings(DifferentFromLast, s2, argName, [b]) == [true];
  }

  /** Results `a, b, a, c` with `different_from_all`: the hook runs on all but the repeated `a`. */
  lemma DifferentFromAllSequence(argName: string, a: Digest, b: Digest, c: Digest)
    requires a != b && a != c && b != c
    ensures Firings(DifferentFromAll, map[], argName, [a, b, a, c]) == [true, true, false, true]
  {
    var s1 := Notify(DifferentFromAll, map[], argName, a).1;
    var s2 := Notify(DifferentFromAll, s1, argName, b).1;
    var s3 := Notify(DifferentFromAll, s2, argName, a).1;
    assert [a, b, a, c][1..] == [b, a, c] && [b, a, c][1..] == [a, c] && [a, c][1..] == [c] && [c][1..] == [];
    assert s3[argName].allExecutedResultReferences == {a, b};
    assert Firings(DifferentFromAll, s3, argName, [c]) == [true];
    assert Firings(DifferentFromAll, s2, argName, [a, c]) == [false, true];
  }

  // ---------------------------------------------------------------------------
  // Creating a hook.

  /** The subscriptions and function dependencies of the first `n` parameters, or the first bad parameter. */
  function ParsePrefix(params: seq<Param>, n: nat)
    : Result<(map<string, SubscriptionDependency>, map<string, FunctionDependency>), Error>
    requires n <= |params|
  {
    if n == 0 then Ok((map[], map[]))
    else
      var acc :- ParsePrefix(params, n - 1);
      var p := params[n - 1];
      if p.default.None? then Err(HookParamWithoutDefault(p.name))
      else
        match p.default.value
        case Subscribe(sub) => Ok((acc.0[p.name := sub], acc.1))
        case UseFn(fd) => Ok((acc.0, acc.1[p.name := fd]))
        case _ => Err(HookParamNotADependency(p.name))
  }

  /** A hook parameter is acceptable when its default is a subscription or a function dependency. */
  predicate IsHookParam(p: Param) {
    p.default.Some? && (p.default.value.Subscribe? || p.default.value.UseFn?)
  }

  /** Parsing succeeds exactly when every parameter is acceptable. */
  lemma {:induction false} ParseOkIff(params: seq<Param>, n: nat)
    requires n <= |params|
    ensures ParsePrefix(params, n).Ok? <==> forall i :: 0 <= i < n ==> IsHookParam(params[i])
  {
    if n > 0 {
      ParseOkIff(params, n - 1);
    }
  }

  /**
   * After a successful parse, the subscriptions are exactly the parameters with
   * a subscription default and the function dependencies exactly those with a
   * function-dependency default, each under its parameter's name.
   */
  lemma {:induction false} ParseSorts(params: seq<Param>, n: nat)
    requires n <= |params| && ParsePrefix(params, n).Ok?
    ensures forall i :: 0 <= i < n && params[i].default.Some? && params[i].default.value.Subscribe? ==>
      params[i].name in ParsePrefix(params, n).value.0
    ensures forall k :: k in ParsePrefix(params, n).value.0 ==>
      exists i :: 0 <= i < n && params[i].name == k && params[i].default == Some(Subscribe(ParsePrefix(params, n).value.0[k]))
    ensures forall k :: k in ParsePrefix(params, n).value.1 ==>
      exists i :: 0 <= i < n && params[i].name == k && params[i].default == Some(UseFn(ParsePrefix(params, n).value.1[k]))
  {
    if n > 0 {
      ParseSorts(params, n - 1);
      var acc := ParsePrefix(params, n - 1).value;
      var r := ParsePrefix(params, n).value;
      var p := params[n - 1];
      forall k | k in r.0
        ensures exists i :: 0 <= i < n && params[i].name == k && params[i].default == Some(Subscribe(r.0[k]))
      {
        if k == p.name && p.default.value.Subscribe? {
          assert params[n - 1].default == Some(Subscribe(r.0[k]));
        } else {
          assert k in acc.0 && r.0[k] == acc.0[k];
        }
      }
      forall k | k in r.1
        ensures exists i :: 0 <= i < n && params[i].name == k && params[i].default == Some(UseFn(r.1[k]))
      {
        if k == p.name && p.default.value.UseFn? {
          assert params[n - 1].default == Some(UseFn(r.1[k]));
        } else {
          assert k in acc.1 && r.1[k] == acc.1[k];
        }
      }
    }
  }

  /**
   * `_parse_dependencies` without its two last steps: one pass over the
   * parameters, sorting subscriptions from function dependencies and raising
   * on the first parameter without a default or with a default of another kind.
   */
  method ParseDependencies(hookFunc: Func)
    returns (r: Result<(map<string, SubscriptionDependency>, map<string, FunctionDependency>), Error>)
    ensures r == ParsePrefix(hookFunc.params, |hookFunc.params|)
  {
    var params := hookFunc.params;
    var subscriptions: map<string, SubscriptionDependency> := map[];
    var functionDependencies: map<string, FunctionDependency> := map[];
    var i := 0;
    while i < |params|
      invariant 0 <= i <= |params|
      invariant ParsePrefix(params, i) == Ok((subscriptions, functionDependencies))
    {
      var p := params[i];
      if p.default.None? {
        ParseErrorPersists(params, i + 1);
        return Err(HookParamWithoutDefault(p.name));
      } else if p.default.value.Subscribe? {
        subscriptions := subscriptions[p.name := p.default.value.subscription];
      } else if p.default.value.UseFn? {
        functionDependencies := functionDependencies[p.name := p.default.value.dependency];
      } else {
        ParseErrorPersists(params, i + 1);
        return Err(HookParamNotADependency(p.name));
      }
      i := i + 1;
    }
    return Ok((subscriptions, functionDependencies));
  }

  lemma {:induction false} ParseErrorPersists(params: seq<Param>, n: nat)
    requires n <= |params| && ParsePrefix(params, n).Err?
    ensures ParsePrefix(params, |params|) == ParsePrefix(params, n)
    decreases |params| - n
  {
    if n < |params| {
      ParseErrorPersists(params, n + 1);
    }
  }

  /** The parameter's default subscribes to stage `s`. */
  predicate SubscribesTo(p: Param, s: Stage) {
    p.default.Some? && p.default.value.Subscribe? && p.default.value.subscription.stage == s
  }

  /** The callbacks that registering `hook` with parameters `params[..n]` adds to stage `s`, in order. */
  function Registrations(params: seq<Param>, n: nat, hook: Hook, s: Stage): (r: seq<HookCallback>)
    requires n <= |params|
    ensures forall j :: 0 <= j < |r| ==> r[j].hook == hook
  {
    if n == 0 then []
    else
      var p := params[n - 1];
      var rest := Registrations(params, n - 1, hook, s);
      if SubscribesTo(p, s) then
        rest + [HookCallback(hook, p.name)]
      else rest
  }

  /** The callbacks registered for a parsed hook name its subscriptions. */
  lemma RegistrationsWellFormed(params: seq<Param>, n: nat, hook: Hook, s: Stage)
    requires n == |params| && ParsePrefix(params, n).Ok? && hook.subscriptions == ParsePrefix(params, n).value.0
    ensures CallbacksWellFormed(Registrations(params, n, hook, s))
  {
    ParseSorts(params, n);
    RegistrationsNameSubscriptions(params, n, hook, s);
  }

  lemma {:induction false} RegistrationsNameSubscriptions(params: seq<Param>, n: nat, hook: Hook, s: Stage)
    requires n <= |params|
    requires forall i :: 0 <= i < n && SubscribesTo(params[i], s) ==> params[i].name in hook.subscriptions
    ensures CallbacksWellFormed(Registrations(params, n, hook, s))
  {
    if n > 0 {
      RegistrationsNameSubscriptions(params, n - 1, hook, s);
      var rest := Registrations(params, n - 1, hook, s);
      if SubscribesTo(params[n - 1], s) {
        var r := rest + [HookCallback(hook, params[n - 1].name)];
        forall j | 0 <= j < |r|
          ensures r[j].argName in r[j].hook.subscriptions
        {
          if j < |rest| {
            assert r[j] == rest[j];
          }
        }
      }
    }
  }

  lemma WellFormedAppend(a: seq<HookCallback>, b: seq<HookCallback>)
    requires CallbacksWellFormed(a) && CallbacksWellFormed(b)
    ensures CallbacksWellFormed(a + b)
  {
    forall j | 0 <= j < |a + b|
      ensures (a + b)[j].argName in (a + b)[j].hook.subscriptions
    {
      if j >= |a| {
        assert (a + b)[j] == b[j - |a|];
      }
    }
  }

  /** Every subscribed stage is one of `stages`. */
  ghost predicate SubscriptionsIn(params: seq<Param>, stages: set<Stage>) {
    forall i :: 0 <= i < |params| && params[i].default.Some? && params[i].default.value.Subscribe? ==>
      params[i].default.value.subscription.stage in stages
  }

  /** The hashes of the function dependencies a hook function declares. */
  ghost function HookDependencyHashes(P: Primitives, hookFunc: Func, stages: set<Stage>, bound: nat)
    : Result<map<string, Digest>, Error>
    requires Ranked(stages) && FuncBounded(hookFunc, bound, stages)
    requires ParsePrefix(hookFunc.params, |hookFunc.params|).Ok?
  {
    var deps := ParsePrefix(hookFunc.params, |hookFunc.params|).value.1;
    ParsedDependenciesBounded(hookFunc, bound, stages);
    FunctionDependencyHashes(P, deps, stages, bound)
  }

  /** The function dependencies of a bounded hook function are bounded. */
  lemma ParsedDependenciesBounded(hookFunc: Func, bound: nat, stages: set<Stage>)
    requires FuncBounded(hookFunc, bound, stages)
    requires ParsePrefix(hookFunc.params, |hookFunc.params|).Ok?
    ensures var deps := ParsePrefix(hookFunc.params, |hookFunc.params|).value.1;
      forall n :: n in deps ==> CalleeBounded(deps[n].callee, bound, stages)
  {
    var params := hookFunc.params;
    var deps := ParsePrefix(params, |params|).value.1;
    ParseSorts(params, |params|);
    forall n | n in deps
      ensures CalleeBounded(deps[n].callee, bound, stages)
    {
      var j :| 0 <= j < |params| && params[j].name == n && params[j].default == Some(UseFn(deps[n]));
      assert DefaultBounded(params[j], bound, stages);
      assert ValueBounded(UseFn(deps[n]), bound, stages);
    }
  }

  /** The registration loop of `Hook.__init__`: one callback per subscription, on its stage, in parameter order. */
  method RegisterCallbacks(params: seq<Param>, hook: Hook, ghost stages: set<Stage>)
    requires ParsePrefix(params, |params|).Ok? && hook.subscriptions == ParsePrefix(params, |params|).value.0
    requires Closed(stages) && SubscriptionsIn(params, stages)
    modifies stages`hookCallbacks
    ensures Closed(stages)
    ensures forall s :: s in stages ==> s.hookCallbacks == old(s.hookCallbacks) + Registrations(params, |params|, hook, s)
  {
    ParseOkIff(params, |params|);
    var i := 0;
    while i < |params|
      invariant 0 <= i <= |params|
      invariant forall s :: s in stages ==> s.hookCallbacks == old(s.hookCallbacks) + Registrations(params, i, hook, s)
    {
      var p := params[i];
      if p.default.value.Subscribe? {
        var stage := p.default.value.subscription.stage;
        stage.RegisterHook(HookCallback(hook, p.name));
        forall s | s in stages
          ensures s.hookCallbacks == old(s.hookCallbacks) + Registrations(params, i + 1, hook, s)
        {
          if s == stage {
            assert Registrations(params, i + 1, hook, s) == Registrations(params, i, hook, s) + [HookCallback(hook, p.name)];
          }
        }
      }
      i := i + 1;
    }
    forall s | s in stages
      ensures CallbacksWellFormed(s.hookCallbacks)
    {
      assert old(allocated(s)) && old(Closed(stages));
      RegistrationsWellFormed(params, |params|, hook, s);
      WellFormedAppend(old(s.hookCallbacks), Registrations(params, |params|, hook, s));
    }
  }

  /**
   * `Hook.__init__`: parses the parameters, registers a callback for every
   * subscription on its stage in parameter order, then hashes the function
   * dependencies.  A bad parameter raises before anything is registered; a
   * function dependency that cannot be hashed raises after the callbacks are
   * registered, and they stay registered.
   */
  method NewHook(P: Primitives, hookFunc: Func, cacheDir: Option<Path>, ghost stages: set<Stage>, ghost bound: nat)
    returns (r: Result<Hook, Error>, ghost created: Hook?)
    requires Closed(stages) && FuncBounded(hookFunc, bound, stages)
    requires SubscriptionsIn(hookFunc.params, stages)
    modifies stages`hookCallbacks
    ensures Closed(stages)
    ensures ParsePrefix(hookFunc.params, |hookFunc.params|).Err? ==>
      r == Err(ParsePrefix(hookFunc.params, |hookFunc.params|).error) &&
      forall s :: s in stages ==> s.hookCallbacks == old(s.hookCallbacks)
    ensures ParsePrefix(hookFunc.params, |hookFunc.params|).Ok? ==>
      created != null && fresh(created) &&
      created.hookFunc == hookFunc && created.cacheDirOverride == cacheDir &&
      created.subscriptions == ParsePrefix(hookFunc.params, |hookFunc.params|).value.0 &&
      (forall s :: s in stages ==>
        s.hookCallbacks == old(s.hookCallbacks) + Registrations(hookFunc.params, |hookFunc.params|, created, s))
    ensures r.Ok? ==> r.value == created
    ensures ParsePrefix(hookFunc.params, |hookFunc.params|).Ok? ==>
      (r.Ok? <==> HookDependencyHashes(P, hookFunc, stages, bound).Ok?)
    ensures r.Ok? ==> created.functionDependencyHashes == HookDependencyHashes(P, hookFunc, stages, bound).value
  {
    var params := hookFunc.params;
    var parsed := ParseDependencies(hookFunc);
    if parsed.Err? {
      return Err(parsed.error), null;
    }
    var (subscriptions, functionDependencies) := parsed.value;
    var hook := new Hook(hookFunc, cacheDir, subscriptions);
    created := hook;
    RegisterCallbacks(params, hook, stages);
    ParsedDependenciesBounded(hookFunc, bound, stages);
    var hashes := FunctionDependencyHashes(P, functionDependencies, stages, bound);
    assert hashes == HookDependencyHashes(P, hookFunc, stages, bound);
    if hashes.Err? {
      return Err(hashes.error), created;
    }
    hook.functionDependencyHashes := hashes.value;
    return Ok(hook), created;
  }

  // ---------------------------------------------------------------------------
  // Running a hook.

  /** The reference under which the last result of an argument can be looked up. */
  function LookupReference(argStates: map<string, HookArgumentState>, argName: string): Option<Digest> {
    if argName in argStates then argStates[argName].resultLookupReference else None
  }

  /** Some required subscription has no result to look up. */
  ghost predicate RequiredMissing(argStates: map<string, HookArgumentState>, subscriptions: map<string, SubscriptionDependency>) {
    exists n :: n in subscriptions && !subscriptions[n].optional && LookupReference(argStates, n).None?
  }

  /** The subscriptions of a hook other than the triggering one. */
  function Others(subscriptions: map<string, SubscriptionDependency>, argName: string)
    : (r: map<string, SubscriptionDependency>)
    ensures r.Keys == subscriptions.Keys - {argName}
    ensures forall n :: n in r ==> r[n] == subscriptions[n]
  {
    map n | n in subscriptions && n != argName :: subscriptions[n]
  }

  /** Loading the subscribed stage's result under `reference`, with its metadata, succeeds. */
  ghost predicate SubscriptionLoadable(files: map<Path, PersistedInvocation>, globalCacheDir: Path,
                                       sub: SubscriptionDependency, reference: Digest)
  {
    Loadable(files, globalCacheDir, sub.stage.stageFunc, sub.stage.CacheDir(globalCacheDir), reference, true)
  }

  /** Loading the subscribed stage's result under `reference`, with its metadata, raises `e`. */
  ghost predicate SubscriptionLoadRaises(files: map<Path, PersistedInvocation>, globalCacheDir: Path,
                                         sub: SubscriptionDependency, reference: Digest, e: Error)
  {
    LoadRaises(files, globalCacheDir, sub.stage.stageFunc, sub.stage.CacheDir(globalCacheDir), reference, true, e)
  }

  /** The result of every subscription other than `argName` that has a lookup reference can be loaded. */
  ghost predicate OthersLoadable(files: map<Path, PersistedInvocation>, globalCacheDir: Path,
                                 subscriptions: map<string, SubscriptionDependency>,
                                 argStates: map<string, HookArgumentState>, argName: string)
  {
    forall n :: n in subscriptions && n != argName && LookupReference(argStates, n).Some? ==>
      SubscriptionLoadable(files, globalCacheDir, subscriptions[n], LookupReference(argStates, n).value)
  }

  /** Loading the result of some subscription other than `argName` under its lookup reference raises `e`. */
  ghost predicate OtherLoadRaises(files: map<Path, PersistedInvocation>, globalCacheDir: Path,
                                  subscriptions: map<string, SubscriptionDependency>,
                                  argStates: map<string, HookArgumentState>, argName: string, e: Error)
  {
    exists n :: n in subscriptions && n != argName && LookupReference(argStates, n).Some? &&
      SubscriptionLoadRaises(files, globalCacheDir, subscriptions[n], LookupReference(argStates, n).value, e)
  }

  /**
   * From `argStates`, the triggering subscription's condition holds for `hash`
   * and every required other subscription has a result to look up.
   */
  ghost predicate Ready(subscriptions: map<string, SubscriptionDependency>, argStates: map<string, HookArgumentState>,
                        argName: string, hash: Digest)
    requires argName in subscriptions
  {
    Triggers(subscriptions[argName].when, argStates, argName, Some(hash)) &&
    !RequiredMissing(argStates, Others(subscriptions, argName))
  }

  /** A gathered slot is empty exactly without a lookup reference, and otherwise holds the result stored under it. */
  ghost predicate Gathered(files: map<Path, PersistedInvocation>, globalCacheDir: Path, sub: SubscriptionDependency,
                           reference: Option<Digest>, slot: Option<Invocation>) {
    (slot.None? <==> reference.None?) &&
    (slot.Some? ==> StoredAs(files, sub.stage.CacheDir(globalCacheDir), reference.value, slot.value))
  }

  /**
   * `_get_missing_result_references`: `None` when a required subscription has no
   * lookup reference; otherwise every subscription's reference, `None` for an
   * optional one that has none.
   */
  method GetMissingResultReferences(argStates: map<string, HookArgumentState>,
                                    subscriptions: map<string, SubscriptionDependency>)
    returns (r: Option<map<string, Option<Digest>>>)
    ensures r.None? <==> RequiredMissing(argStates, subscriptions)
    ensures r.Some? ==> r.value.Keys == subscriptions.Keys
    ensures r.Some? ==> forall n :: n in subscriptions ==> r.value[n] == LookupReference(argStates, n)
  {
    var references: map<string, Option<Digest>> := map[];
    var remaining := subscriptions.Keys;
    while remaining != {}
      invariant remaining <= subscriptions.Keys
      invariant references.Keys == subscriptions.Keys - remaining
      invariant forall n :: n in references ==> references[n] == LookupReference(argStates, n)
      invariant forall n :: n in references ==> subscriptions[n].optional || LookupReference(argStates, n).Some?
      decreases remaining
    {
      var n :| n in remaining;
      var argState := if n in argStates then Some(argStates[n]) else None;
      if argState.None? || argState.value.resultLookupReference.None? {
        if subscriptions[n].optional {
          references := references[n := None];
        } else {
          return None;
        }
      } else {
        references := references[n := argState.value.resultLookupReference];
      }
      remaining := remaining - {n};
    }
    return Some(references);
  }

  /** The reference given for a subscription, `None` when there is none. */
  function Reference(references: map<string, Option<Digest>>, n: string): Option<Digest> {
    if n in references then references[n] else None
  }

  /**
   * `_load_missing_results`: loads every referenced result with its metadata;
   * a subscription without a reference gets an empty slot when optional and
   * aborts with `None` when required; a reference that cannot be loaded raises
   * the load's error, and when every referenced result can be loaded nothing
   * raises.
   */
  method LoadMissingResults(rt: Runtime, subscriptions: map<string, SubscriptionDependency>,
                            references: map<string, Option<Digest>>)
    returns (r: Result<Option<map<string, Option<Invocation>>>, Error>)
    ensures r == Ok(None) ==> exists n :: n in subscriptions && !subscriptions[n].optional && Reference(references, n).None?
    ensures r.Ok? && r.value.Some? ==> r.value.value.Keys == subscriptions.Keys
    ensures r.Ok? && r.value.Some? ==> forall n :: n in subscriptions ==>
      Gathered(rt.stageFiles, rt.globalCacheDir, subscriptions[n], Reference(references, n), r.value.value[n])
    ensures r.Ok? && r.value.Some? ==> forall n :: n in subscriptions && Reference(references, n).Some? ==>
      SubscriptionLoadable(rt.stageFiles, rt.globalCacheDir, subscriptions[n], Reference(references, n).value)
    ensures r.Err? ==>
      exists n :: n in subscriptions && Reference(references, n).Some? &&
        SubscriptionLoadRaises(rt.stageFiles, rt.globalCacheDir, subscriptions[n], Reference(references, n).value, r.error)
    ensures (forall n :: n in subscriptions && Reference(references, n).Some? ==>
      SubscriptionLoadable(rt.stageFiles, rt.globalCacheDir, subscriptions[n], Reference(references, n).value)) ==> r.Ok?
  {
    var results: map<string, Option<Invocation>> := map[];
    var remaining := subscriptions.Keys;
    while remaining != {}
      invariant remaining <= subscriptions.Keys
      invariant results.Keys == subscriptions.Keys - remaining
      invariant forall n :: n in results ==>
        Gathered(rt.stageFiles, rt.globalCacheDir, subscriptions[n], Reference(references, n), results[n])
      invariant forall n :: n in results && Reference(references, n).Some? ==>
        SubscriptionLoadable(rt.stageFiles, rt.globalCacheDir, subscriptions[n], Reference(references, n).value)
      decreases remaining
    {
      var n :| n in remaining;
      var subscription := subscriptions[n];
      var argReference := Reference(references, n);
      var argResult: Option<Invocation> := None;
      if argReference.Some? {
        var loaded := LoadResult(rt, subscription.stage, argReference.value, true);
        if loaded.Err? {
          LoadRaisesNotLoadable(rt.stageFiles, rt.globalCacheDir, subscription.stage.stageFunc,
                                subscription.stage.CacheDir(rt.globalCacheDir), argReference.value, true, loaded.error);
          assert !SubscriptionLoadable(rt.stageFiles, rt.globalCacheDir, subscription, argReference.value);
          assert SubscriptionLoadRaises(rt.stageFiles, rt.globalCacheDir, subscription, argReference.value, loaded.error);
          return Err(loaded.error);
        }
        argResult := Some(loaded.value.invocation);
      }
      if argResult.None? {
        if subscription.optional {
          results := results[n := None];
        } else {
          return Ok(None);
        }
      } else {
        results := results[n := argResult];
      }
      remaining := remaining - {n};
    }
    return Ok(Some(results));
  }

  /**
   * The second half of `_get_missing_subscription_data`, once the condition
   * held: looks up the references of the subscriptions other than `argName` in
   * `argStates` and loads their results.  `argStates` differs from `before`
   * at most in `argName`'s own state, so the outcome is stated over `before`.
   */
  method GatherOtherResults(rt: Runtime, hook: Hook, argStates: map<string, HookArgumentState>, argName: string,
                            ghost before: map<string, HookArgumentState>)
    returns (r: Result<Option<map<string, Option<Invocation>>>, Error>)
    requires argName in hook.subscriptions
    requires forall n :: n != argName ==> LookupReference(argStates, n) == LookupReference(before, n)
    ensures r.Ok? && r.value.Some? <==>
      !RequiredMissing(before, Others(hook.subscriptions, argName)) &&
      OthersLoadable(rt.stageFiles, rt.globalCacheDir, hook.subscriptions, before, argName)
    ensures r.Err? ==>
      !RequiredMissing(before, Others(hook.subscriptions, argName)) &&
      OtherLoadRaises(rt.stageFiles, rt.globalCacheDir, hook.subscriptions, before, argName, r.error)
    ensures r == Ok(None) <==> RequiredMissing(before, Others(hook.subscriptions, argName))
    ensures r.Err? <==>
      !RequiredMissing(before, Others(hook.subscriptions, argName)) &&
      !OthersLoadable(rt.stageFiles, rt.globalCacheDir, hook.subscriptions, before, argName)
    ensures r.Ok? && r.value.Some? ==> r.value.value.Keys == hook.subscriptions.Keys - {argName}
    ensures r.Ok? && r.value.Some? ==> forall n :: n in hook.subscriptions && n != argName ==>
      Gathered(rt.stageFiles, rt.globalCacheDir, hook.subscriptions[n], LookupReference(before, n), r.value.value[n])
  {
    var missingSubscriptions := Others(hook.subscriptions, argName);
    var references := GetMissingResultReferences(argStates, missingSubscriptions);
    if references.None? {
      ghost var n :| n in missingSubscriptions && !missingSubscriptions[n].optional && LookupReference(argStates, n).None?;
      assert LookupReference(before, n).None?;
      return Ok(None);
    }
    assert forall n :: n in missingSubscriptions ==> Reference(references.value, n) == LookupReference(before, n);
    assert !RequiredMissing(before, missingSubscriptions) by {
      forall n | n in missingSubscriptions && !missingSubscriptions[n].optional
        ensures LookupReference(before, n).Some?
      {
        assert LookupReference(argStates, n).Some?;
      }
    }
    var missingResults := LoadMissingResults(rt, missingSubscriptions, references.value);
    if missingResults.Err? {
      ghost var n :| n in missingSubscriptions && Reference(references.value, n).Some? &&
        SubscriptionLoadRaises(rt.stageFiles, rt.globalCacheDir, missingSubscriptions[n], Reference(references.value, n).value,
                               missingResults.error);
      var stage := missingSubscriptions[n].stage;
      LoadRaisesNotLoadable(rt.stageFiles, rt.globalCacheDir, stage.stageFunc, stage.CacheDir(rt.globalCacheDir),
                            Reference(references.value, n).value, true, missingResults.error);
      return Err(missingResults.error);
    }
    if missingResults.value.None? {
      // Every required subscription has a reference, so none is left without a result.
      assert false;
      return Ok(None);
    }
    return missingResults;
  }

  /**
   * `_get_missing_subscription_data`: evaluates the triggering subscription's
   * condition, records the result in the state whether or not it holds, and
   * when it holds gathers the results of all other subscriptions.  The data
   * comes back exactly when the condition held, every required subscription
   * has a result and every referenced result loads; an error is a failed load.
   */
  method GetMissingSubscriptionData(rt: Runtime, hook: Hook, state: HookState, argName: string, hash: Digest,
                                    result: Invocation)
    returns (r: Result<Option<map<string, Option<Invocation>>>, Error>)
    requires argName in hook.subscriptions
    modifies state`argStates
    ensures state.argStates == old(state.argStates)[argName := Recorded(Get(old(state.argStates), argName), hash)]
    ensures !Triggers(hook.subscriptions[argName].when, old(state.argStates), argName, Some(hash)) ==> r == Ok(None)
    ensures r.Ok? && r.value.Some? <==>
      Ready(hook.subscriptions, old(state.argStates), argName, hash) &&
      OthersLoadable(rt.stageFiles, rt.globalCacheDir, hook.subscriptions, old(state.argStates), argName)
    ensures r.Err? ==>
      Ready(hook.subscriptions, old(state.argStates), argName, hash) &&
      OtherLoadRaises(rt.stageFiles, rt.globalCacheDir, hook.subscriptions, old(state.argStates), argName, r.error)
    ensures r.Err? <==>
      Ready(hook.subscriptions, old(state.argStates), argName, hash) &&
      !OthersLoadable(rt.stageFiles, rt.globalCacheDir, hook.subscriptions, old(state.argStates), argName)
    ensures r.Ok? && r.value.Some? ==> r.value.value.Keys == hook.subscriptions.Keys && r.value.value[argName] == Some(result)
    ensures r.Ok? && r.value.Some? ==> forall n :: n in hook.subscriptions && n != argName ==>
      Gathered(rt.stageFiles, rt.globalCacheDir, hook.subscriptions[n], LookupReference(old(state.argStates), n),
               r.value.value[n])
  {
    var trigger := hook.subscriptions[argName];
    var isTriggered := Triggers(trigger.when, state.argStates, argName, Some(hash));
    ghost var before := state.argStates;
    state.RecordTriggered(argName, hash);
    if !isTriggered {
      return Ok(None);
    }
    var missingResults := GatherOtherResults(rt, hook, state.argStates, argName, before);
    if missingResults.Err? || missingResults.value.None? {
      return missingResults;
    }
    return Ok(Some(missingResults.value.value[argName := Some(result)]));
  }

  /**
   * `_convert_metadata`: a subscription with metadata receives the whole
   * invocation, any other only its result; an empty slot stays `None`.
   */
  function ConvertMetadata(subscriptions: map<string, SubscriptionDependency>, data: map<string, Option<Invocation>>)
    : (r: map<string, ArgValue>)
    requires data.Keys <= subscriptions.Keys
    ensures r.Keys == data.Keys
    ensures forall n :: n in data && data[n].None? ==> r[n] == Data(NoneDatum)
    ensures forall n :: n in data && data[n].Some? ==>
      r[n].WithMetadata? == subscriptions[n].withMetadata && ResultOf(r[n]) == data[n].value.result
    ensures forall n :: n in data && data[n].Some? && subscriptions[n].withMetadata ==> r[n] == WithMetadata(data[n].value)
  {
    map n | n in data :: if data[n].None? then Data(NoneDatum) else DependencyArg(subscriptions[n].withMetadata, data[n].value)
  }

  /** The state a hook run starts from: the loaded record after the code hash update. */
  ghost function StateBeforeTrigger(files: map<Path, HookStateRecord>, dir: Path, hookFunc: Func, codeHash: Digest)
    : HookStateRecord
  {
    AfterCodeUpdate(LoadedRecord(files, dir, hookFunc), codeHash)
  }

  /** The argument states a run of `hook` starts from, once its code hash is known. */
  ghost function StartStates(P: Primitives, files: map<Path, HookStateRecord>, globalCacheDir: Path, hook: Hook)
    : map<string, HookArgumentState>
    reads hook
    requires HookCodeHash(P, hook.hookFunc, hook.functionDependencyHashes).Ok?
  {
    StateBeforeTrigger(files, hook.CacheDir(globalCacheDir), hook.hookFunc,
                       HookCodeHash(P, hook.hookFunc, hook.functionDependencyHashes).value).argStates
  }

  /** The hook state files after a run: the updated state, with the triggering result recorded, saved. */
  ghost function FilesAfterTrigger(files: map<Path, HookStateRecord>, dir: Path, hookFunc: Func, codeHash: Digest,
                                   argName: string, hash: Digest): map<Path, HookStateRecord>
  {
    var before := StateBeforeTrigger(files, dir, hookFunc, codeHash);
    SaveHookState(files, dir, hookFunc,
      HookStateRecord(Some(codeHash), before.argStates[argName := Recorded(Get(before.argStates, argName), hash)]))
  }

  /**
   * Notifying `hook` of a new result of `argName` under `hash`, with hook state
   * files `hookFiles` and stage files `stageFiles`, runs the hook function: its
   * code hashes, its condition holds in the stored state, every required other
   * subscription has a result and every referenced result loads.
   */
  ghost predicate HookFires(P: Primitives, hookFiles: map<Path, HookStateRecord>, stageFiles: map<Path, PersistedInvocation>,
                            globalCacheDir: Path, hook: Hook, argName: string, hash: Digest)
    reads hook
    requires argName in hook.subscriptions
  {
    HookCodeHash(P, hook.hookFunc, hook.functionDependencyHashes).Ok? &&
    var argStates := StartStates(P, hookFiles, globalCacheDir, hook);
    Ready(hook.subscriptions, argStates, argName, hash) &&
    OthersLoadable(stageFiles, globalCacheDir, hook.subscriptions, argStates, argName)
  }

  /**
   * The same notification raises `e`: the hook's code hash fails with `e`, or
   * the hook is ready to run and loading another subscription's result raises `e`.
   */
  ghost predicate HookRaises(P: Primitives, hookFiles: map<Path, HookStateRecord>, stageFiles: map<Path, PersistedInvocation>,
                             globalCacheDir: Path, hook: Hook, argName: string, hash: Digest, e: Error)
    reads hook
    requires argName in hook.subscriptions
  {
    match HookCodeHash(P, hook.hookFunc, hook.functionDependencyHashes)
    case Err(c) => e == c
    case Ok(_) =>
      var argStates := StartStates(P, hookFiles, globalCacheDir, hook);
      Ready(hook.subscriptions, argStates, argName, hash) &&
      OtherLoadRaises(stageFiles, globalCacheDir, hook.subscriptions, argStates, argName, e)
  }

  /**
   * The same notification raises: the hook's code hash fails, or the hook is
   * ready to run and the result of another subscription does not load.
   */
  ghost predicate HookFails(P: Primitives, hookFiles: map<Path, HookStateRecord>, stageFiles: map<Path, PersistedInvocation>,
                            globalCacheDir: Path, hook: Hook, argName: string, hash: Digest)
    reads hook
    requires argName in hook.subscriptions
  {
    match HookCodeHash(P, hook.hookFunc, hook.functionDependencyHashes)
    case Err(_) => true
    case Ok(_) =>
      var argStates := StartStates(P, hookFiles, globalCacheDir, hook);
      Ready(hook.subscriptions, argStates, argName, hash) &&
      !OthersLoadable(stageFiles, globalCacheDir, hook.subscriptions, argStates, argName)
  }

  /**
   * What a callback may raise whatever the stored state: the failure of its
   * hook's code hash, or a load error when the hook loads the results of other
   * subscriptions.
   */
  ghost predicate HookMayRaise(P: Primitives, callback: HookCallback, e: Error)
    reads callback.hook
  {
    HookCodeHash(P, callback.hook.hookFunc, callback.hook.functionDependencyHashes) == Err(e) ||
    (LoadError(e) && exists n :: n in callback.hook.subscriptions && n != callback.argName)
  }

  lemma HookRaisesMayRaise(P: Primitives, hookFiles: map<Path, HookStateRecord>, stageFiles: map<Path, PersistedInvocation>,
                           globalCacheDir: Path, hook: Hook, argName: string, hash: Digest, e: Error)
    requires argName in hook.subscriptions
    requires HookRaises(P, hookFiles, stageFiles, globalCacheDir, hook, argName, hash, e)
    ensures HookMayRaise(P, HookCallback(hook, argName), e)
  {
    if HookCodeHash(P, hook.hookFunc, hook.functionDependencyHashes).Ok? {
      var argStates := StartStates(P, hookFiles, globalCacheDir, hook);
      var n :| n in hook.subscriptions && n != argName && LookupReference(argStates, n).Some? &&
        SubscriptionLoadRaises(stageFiles, globalCacheDir, hook.subscriptions[n], LookupReference(argStates, n).value, e);
      var stage := hook.subscriptions[n].stage;
      LoadRaisesNotLoadable(stageFiles, globalCacheDir, stage.stageFunc, stage.CacheDir(globalCacheDir),
                            LookupReference(argStates, n).value, true, e);
    }
  }

  /**
   * A slot of a hook call holds `None` without a lookup reference, and
   * otherwise the result stored under it, as the whole invocation exactly when
   * the subscription asks for metadata.
   */
  ghost predicate SlotHolds(files: map<Path, PersistedInvocation>, globalCacheDir: Path, sub: SubscriptionDependency,
                            reference: Option<Digest>, v: ArgValue) {
    if reference.None? then v == Data(NoneDatum)
    else
      var dir := sub.stage.CacheDir(globalCacheDir);
      v.WithMetadata? == sub.withMetadata &&
      LoadResultValue(files, dir, reference.value) == Ok(ResultOf(v)) &&
      (v.WithMetadata? ==> StoredAs(files, dir, reference.value, v.invocation))
  }

  /**
   * The arguments of a hook call: the triggering result in its own slot, and in
   * every other slot what `argStates` references for that subscription.
   */
  ghost predicate HookCallData(files: map<Path, PersistedInvocation>, globalCacheDir: Path, hook: Hook,
                               argStates: map<string, HookArgumentState>, argName: string, result: Invocation,
                               callData: map<string, ArgValue>)
    requires argName in hook.subscriptions
  {
    callData.Keys == hook.subscriptions.Keys &&
    callData[argName] == DependencyArg(hook.subscriptions[argName].withMetadata, result) &&
    forall n :: n in hook.subscriptions && n != argName ==>
      SlotHolds(files, globalCacheDir, hook.subscriptions[n], LookupReference(argStates, n), callData[n])
  }

  /** Converting gathered results gives the hook call's arguments. */
  lemma ConvertedCallData(files: map<Path, PersistedInvocation>, globalCacheDir: Path, hook: Hook,
                          argStates: map<string, HookArgumentState>, argName: string, result: Invocation,
                          data: map<string, Option<Invocation>>)
    requires argName in hook.subscriptions
    requires data.Keys == hook.subscriptions.Keys && data[argName] == Some(result)
    requires forall n :: n in hook.subscriptions && n != argName ==>
      Gathered(files, globalCacheDir, hook.subscriptions[n], LookupReference(argStates, n), data[n])
    ensures HookCallData(files, globalCacheDir, hook, argStates, argName, result, ConvertMetadata(hook.subscriptions, data))
  {
    var callData := ConvertMetadata(hook.subscriptions, data);
    forall n | n in hook.subscriptions && n != argName
      ensures SlotHolds(files, globalCacheDir, hook.subscriptions[n], LookupReference(argStates, n), callData[n])
    {
      assert Gathered(files, globalCacheDir, hook.subscriptions[n], LookupReference(argStates, n), data[n]);
    }
  }

  /**
   * The state handling of `_execute_hook`: loads the hook's state, updates its
   * code hash, records the triggering result and saves the state; the missing
   * subscription data comes back exactly when the hook fires.  Nothing is
   * saved when hashing or loading raises.
   */
  method UpdateHookState(rt: Runtime, hook: Hook, argName: string, hash: Digest, result: Invocation)
    returns (r: Result<Option<map<string, Option<Invocation>>>, Error>)
    requires argName in hook.subscriptions
    modifies rt`hookFiles
    ensures r.Err? ==> rt.hookFiles == old(rt.hookFiles)
    ensures HookCodeHash(rt.P, hook.hookFunc, hook.functionDependencyHashes).Err? ==> r.Err?
    ensures r.Err? ==> HookRaises(rt.P, old(rt.hookFiles), rt.stageFiles, rt.globalCacheDir, hook, argName, hash, r.error)
    ensures r.Err? <==> HookFails(rt.P, old(rt.hookFiles), rt.stageFiles, rt.globalCacheDir, hook, argName, hash)
    ensures r.Ok? ==> rt.hookFiles == FilesAfterTrigger(old(rt.hookFiles), hook.CacheDir(rt.globalCacheDir), hook.hookFunc,
      HookCodeHash(rt.P, hook.hookFunc, hook.functionDependencyHashes).value, argName, hash)
    ensures r.Ok? && r.value.Some? <==>
      HookFires(rt.P, old(rt.hookFiles), rt.stageFiles, rt.globalCacheDir, hook, argName, hash)
    ensures r.Ok? && r.value.Some? ==> r.value.value.Keys == hook.subscriptions.Keys && r.value.value[argName] == Some(result)
    ensures r.Ok? && r.value.Some? ==> forall n :: n in hook.subscriptions && n != argName ==>
      Gathered(rt.stageFiles, rt.globalCacheDir, hook.subscriptions[n],
               LookupReference(StartStates(rt.P, old(rt.hookFiles), rt.globalCacheDir, hook), n), r.value.value[n])
  {
    var dir := hook.CacheDir(rt.globalCacheDir);
    var hookState := LoadHookState(rt.hookFiles, dir, hook.hookFunc);
    var changed := hookState.UpdateCodeHash(rt.P, hook.hookFunc, hook.functionDependencyHashes);
    if changed.Err? {
      return Err(changed.error);
    }
    ghost var code := HookCodeHash(rt.P, hook.hookFunc, hook.functionDependencyHashes).value;
    ghost var before := StateBeforeTrigger(rt.hookFiles, dir, hook.hookFunc, code);
    assert hookState.Record() == before;
    assert before.argStates == StartStates(rt.P, rt.hookFiles, rt.globalCacheDir, hook);
    var subscriptionResults := GetMissingSubscriptionData(rt, hook, hookState, argName, hash, result);
    if subscriptionResults.Err? {
      return Err(subscriptionResults.error);
    }
    assert hookState.Record() ==
      HookStateRecord(Some(code), before.argStates[argName := Recorded(Get(before.argStates, argName), hash)]);
    rt.hookFiles := SaveHookState(rt.hookFiles, dir, hook.hookFunc, hookState.Record());
    assert rt.hookFiles == FilesAfterTrigger(old(rt.hookFiles), dir, hook.hookFunc, code, argName, hash);
    return Ok(subscriptionResults.value);
  }

  /**
   * `_execute_hook`: updates and saves the hook's state, then calls the hook
   * function exactly when the hook fires, with the triggering result and the
   * stored results of the other subscriptions.  Nothing is saved when hashing
   * or loading raises.
   */
  method ExecuteHook(rt: Runtime, hook: Hook, argName: string, hash: Digest, result: Invocation)
    returns (r: Result<Option<Datum>, Error>)
    requires argName in hook.subscriptions
    modifies rt`hookFiles, rt`hookCalls
    ensures r.Err? ==> rt.hookFiles == old(rt.hookFiles) && rt.hookCalls == old(rt.hookCalls)
    ensures HookCodeHash(rt.P, hook.hookFunc, hook.functionDependencyHashes).Err? ==> r.Err?
    ensures r.Err? ==> HookRaises(rt.P, old(rt.hookFiles), rt.stageFiles, rt.globalCacheDir, hook, argName, hash, r.error)
    ensures r.Err? <==> HookFails(rt.P, old(rt.hookFiles), rt.stageFiles, rt.globalCacheDir, hook, argName, hash)
    ensures r.Ok? ==> rt.hookFiles == FilesAfterTrigger(old(rt.hookFiles), hook.CacheDir(rt.globalCacheDir), hook.hookFunc,
      HookCodeHash(rt.P, hook.hookFunc, hook.functionDependencyHashes).value, argName, hash)
    ensures r.Ok? && r.value.Some? <==>
      HookFires(rt.P, old(rt.hookFiles), rt.stageFiles, rt.globalCacheDir, hook, argName, hash)
    ensures r.Ok? && r.value.None? ==> rt.hookCalls == old(rt.hookCalls)
    ensures |old(rt.hookCalls)| <= |rt.hookCalls| <= |old(rt.hookCalls)| + 1
    ensures r.Ok? && r.value.Some? ==> exists callData: map<string, ArgValue> ::
      rt.hookCalls == old(rt.hookCalls) + [Call(hook.hookFunc, callData)] &&
      HookCallData(rt.stageFiles, rt.globalCacheDir, hook,
                   StartStates(rt.P, old(rt.hookFiles), rt.globalCacheDir, hook), argName, result, callData) &&
      r.value.value == rt.run(hook.hookFunc, callData)
  {
    var subscriptionResults := UpdateHookState(rt, hook, argName, hash, result);
    if subscriptionResults.Err? {
      return Err(subscriptionResults.error);
    }
    if subscriptionResults.value.None? {
      return Ok(None);
    }
    var data := subscriptionResults.value.value;
    var callData := ConvertMetadata(hook.subscriptions, data);
    ConvertedCallData(rt.stageFiles, rt.globalCacheDir, hook, StartStates(rt.P, old(rt.hookFiles), rt.globalCacheDir, hook),
                      argName, result, data);
    rt.hookCalls := rt.hookCalls + [Call(hook.hookFunc, callData)];
    return Ok(Some(rt.run(hook.hookFunc, callData)));
  }
}

=== FILE: result_dependency.dfy ===
/**
 * `Result(stage, args, with_metadata)`: a data dependency on another stage's
 * result.  Building one checks that the producer stage can be cached, that is,
 * that none of its function dependencies reaches a data dependency.
 */
module ResultDependencies {
  import opened Wrappers
  import opened Core
  import opened ArgAggregation
  import opened FunctionDependencies

  /** No function dependency of the stage's function has (recursive) data dependencies. */
  ghost predicate Cachable(stage: Stage, stages: set<Stage>)
    requires Ranked(stages) && stage in stages
  {
    DepsBounded(stage.stageFunc, stages, stage.rank);
    var deps := FuncDeps(stage.stageFunc.params);
    forall n :: n in deps ==> HasNoDataDependencies(deps[n], stages, stage.rank)
  }

  /** The function dependency of the stage's function named `n` has data dependencies. */
  ghost predicate BlocksCaching(stage: Stage, stages: set<Stage>, n: string)
    requires Ranked(stages) && stage in stages
  {
    DepsBounded(stage.stageFunc, stages, stage.rank);
    var deps := FuncDeps(stage.stageFunc.params);
    n in deps && !HasNoDataDependencies(deps[n], stages, stage.rank)
  }

  /** Parameter `i` is the first, in parameter order, whose function dependency blocks caching. */
  ghost predicate FirstBlocking(stage: Stage, stages: set<Stage>, i: int)
    requires Ranked(stages) && stage in stages
  {
    0 <= i < |stage.stageFunc.params| &&
    BlocksCaching(stage, stages, stage.stageFunc.params[i].name) &&
    forall j :: 0 <= j < i ==> !BlocksCaching(stage, stages, stage.stageFunc.params[j].name)
  }

  /**
   * `_check_cachable`: aggregates the stage function's defaults and rejects the
   * first function dependency, in parameter order, that has data dependencies,
   * naming its parameter.
   */
  method CheckCachable(stage: Stage, ghost stages: set<Stage>) returns (r: Option<Error>)
    requires Ranked(stages) && stage in stages
    ensures r.None? <==> Cachable(stage, stages)
    ensures r.Some? ==> r.value.NonCachableFunctionDependency?
    ensures r.Some? ==> BlocksCaching(stage, stages, r.value.param)
    ensures r.Some? ==> exists i :: FirstBlocking(stage, stages, i) && stage.stageFunc.params[i].name == r.value.param
  {
    var aggregated := AggregateArgs(stage.stageFunc, None);
    AggregateWithoutArgsSucceeds(stage.stageFunc.params);
    DepsBounded(stage.stageFunc, stages, stage.rank);
    var deps := aggregated.value.funcDependencies;
    assert deps == FuncDeps(stage.stageFunc.params);
    var params := stage.stageFunc.params;
    for i := 0 to |params|
      invariant forall j :: 0 <= j < i ==> !BlocksCaching(stage, stages, params[j].name)
    {
      var n := params[i].name;
      if n in deps && !HasNoDataDependencies(deps[n], stages, stage.rank) {
        assert FirstBlocking(stage, stages, i);
        return Some(NonCachableFunctionDependency(n));
      }
    }
    forall n | n in deps
      ensures HasNoDataDependencies(deps[n], stages, stage.rank)
    {
      var i :| 0 <= i < |params| && params[i].name == n && params[i].default == Some(UseFn(deps[n]));
      assert !BlocksCaching(stage, stages, params[i].name);
    }
    return None;
  }

  /**
   * `ResultDependency.__init__`: stores the stage, the arguments and the
   * metadata flag as given, once the stage is known to be cachable.
   */
  method NewResultDependency(stage: Stage, args: Args, withMetadata: bool, ghost stages: set<Stage>)
    returns (r: Result<ResultDependency, Error>)
    requires Ranked(stages) && stage in stages
    ensures r.Ok? <==> Cachable(stage, stages)
    ensures r.Ok? ==> r.value.stage == stage && r.value.args == args && r.value.withMetadata == withMetadata
    ensures r.Err? ==> r.error.NonCachableFunctionDependency?
  {
    var problem := CheckCachable(stage, stages);
    if problem.Some? {
      return Err(problem.value);
    }
    return Ok(ResultDependency(stage, args, withMetadata));
  }

  /** `Result(stage)`: no extra arguments and no metadata unless asked for. */
  method ResultWithDefaults(stage: Stage, ghost stages: set<Stage>) returns (r: Result<ResultDependency, Error>)
    requires Ranked(stages) && stage in stages
    ensures r.Ok? <==> Cachable(stage, stages)
    ensures r.Ok? ==> r.value == ResultDependency(stage, Args([], map[]), false)
  {
    r := NewResultDependency(stage, Args([], map[]), false, stages);
  }
}

=== FILE: stage_persistence.dfy ===
/**
 * Where a stage result is stored: `<cache dir>/stage_results/<first two hex
 * digits of the stage hash>/<remaining hex digits>`, as Git stores its objects.
 * Saving and loading are an update of and a lookup in the map of stored files.
 */
module StagePersistence {
  import opened Wrappers
  import opened Core

  const StageResultsDirName := "stage_results"
  const SubdirNameLength := 2

  const HexDigits := "0123456789abcdef"

  /** `bytes.hex()`: two lower-case hexadecimal digits per byte, high nibble first. */
  function Hex(bytes: seq<byte>): (s: string)
    ensures |s| == 2 * |bytes|
    ensures forall i :: 0 <= i < |s| ==> s[i] in HexDigits
  {
    if bytes == [] then ""
    else
      var b := bytes[0] as int;
      [HexDigits[b / 16], HexDigits[b % 16]] + Hex(bytes[1..])
  }

  /** Distinct bytes give distinct pairs of digits. */
  lemma HexPairInjective(a: byte, b: byte)
    requires HexDigits[a as int / 16] == HexDigits[b as int / 16]
    requires HexDigits[a as int % 16] == HexDigits[b as int % 16]
    ensures a == b
  {
    assert forall i, j :: 0 <= i < j < 16 ==> HexDigits[i] != HexDigits[j];
    assert a as int == 16 * (a as int / 16) + a as int % 16;
  }

  /** The hex encoding determines the bytes. */
  lemma {:induction false} HexInjective(a: seq<byte>, b: seq<byte>)
    requires Hex(a) == Hex(b)
    ensures a == b
  {
    if a != [] {
      assert |b| == |a|;
      assert Hex(a)[0] == Hex(b)[0] && Hex(a)[1] == Hex(b)[1];
      HexPairInjective(a[0], b[0]);
      assert Hex(a)[2..] == Hex(a[1..]) && Hex(b)[2..] == Hex(b[1..]);
      HexInjective(a[1..], b[1..]);
      assert a == [a[0]] + a[1..] && b == [b[0]] + b[1..];
    }
  }

  /**
   * `_get_stage_result_path`: three components below the cache directory, the
   * last two of which spell out the hash's hex encoding.
   */
  function StageResultPath(dir: Path, hash: Digest): (path: Path)
    ensures |path| == |dir| + 3 && path[..|dir|] == dir
    ensures path[|dir|] == StageResultsDirName && |path[|dir| + 1]| == SubdirNameLength
    ensures path[|dir| + 1] + path[|dir| + 2] == Hex(hash)
  {
    var encoded := Hex(hash);
    var subdir := encoded[..SubdirNameLength];
    assert subdir + encoded[SubdirNameLength..] == encoded;
    dir + [StageResultsDirName, subdir, encoded[SubdirNameLength..]]
  }

  /** Two different hashes are never stored under the same path. */
  lemma DistinctHashesDistinctPaths(dir: Path, h1: Digest, h2: Digest)
    requires h1 != h2
    ensures StageResultPath(dir, h1) != StageResultPath(dir, h2)
  {
    if StageResultPath(dir, h1) == StageResultPath(dir, h2) {
      var p := StageResultPath(dir, h1);
      assert Hex(h1) == p[|dir| + 1] + p[|dir| + 2] == Hex(h2);
      HexInjective(h1, h2);
    }
  }

  /** `save_stage_result`: the files with the record written at the hash's path. */
  function SaveStageResult(files: map<Path, PersistedInvocation>, dir: Path, hash: Digest, rec: PersistedInvocation)
    : (r: map<Path, PersistedInvocation>)
    ensures r.Keys == files.Keys + {StageResultPath(dir, hash)}
    ensures r[StageResultPath(dir, hash)] == rec
    ensures forall p :: p in files && p != StageResultPath(dir, hash) ==> r[p] == files[p]
  {
    files[StageResultPath(dir, hash) := rec]
  }

  /** `load_stage_result`: the record at the hash's path, `None` when there is no such file. */
  function LoadStageResult(files: map<Path, PersistedInvocation>, dir: Path, hash: Digest)
    : (r: Option<PersistedInvocation>)
    ensures r.Some? <==> StageResultPath(dir, hash) in files
    ensures r.Some? ==> r.value == files[StageResultPath(dir, hash)]
  {
    var path := StageResultPath(dir, hash);
    if path in files then Some(files[path]) else None
  }

  /** Loading after saving under the same directory and hash gives back the saved record. */
  lemma SaveThenLoad(files: map<Path, PersistedInvocation>, dir: Path, hash: Digest, rec: PersistedInvocation)
    ensures LoadStageResult(SaveStageResult(files, dir, hash, rec), dir, hash) == Some(rec)
  {
  }

  /** Saving one hash leaves what is loaded for every other hash as it was. */
  lemma SaveKeepsOtherHashes(files: map<Path, PersistedInvocation>, dir: Path, h: Digest, other: Digest,
                             rec: PersistedInvocation)
    requires h != other
    ensures LoadStageResult(SaveStageResult(files, dir, h, rec), dir, other) == LoadStageResult(files, dir, other)
  {
    DistinctHashesDistinctPaths(dir, h, other);
  }

  /** A hash that was never saved in an empty cache loads as `None`. */
  lemma NeverSavedLoadsNone(dir: Path, saved: seq<(Digest, PersistedInvocation)>, hash: Digest)
    requires forall i :: 0 <= i < |saved| ==> saved[i].0 != hash
    ensures LoadStageResult(SaveAll(map[], dir, saved), dir, hash).None?
  {
    SaveAllKeepsOthers(map[], dir, saved, hash);
  }

  /** The files after saving each (hash, record) pair in turn. */
  function SaveAll(files: map<Path, PersistedInvocation>, dir: Path, saved: seq<(Digest, PersistedInvocation)>)
    : map<Path, PersistedInvocation>
    decreases |saved|
  {
    if saved == [] then files
    else SaveAll(SaveStageResult(files, dir, saved[0].0, saved[0].1), dir, saved[1..])
  }

  lemma {:induction false} SaveAllKeepsOthers(files: map<Path, PersistedInvocation>, dir: Path,
                                              saved: seq<(Digest, PersistedInvocation)>, hash: Digest)
    requires forall i :: 0 <= i < |saved| ==> saved[i].0 != hash
    ensures LoadStageResult(SaveAll(files, dir, saved), dir, hash) == LoadStageResult(files, dir, hash)
    decreases |saved|
  {
    if saved != [] {
      SaveKeepsOtherHashes(files, dir, saved[0].0, hash, saved[0].1);
      SaveAllKeepsOthers(SaveStageResult(files, dir, saved[0].0, saved[0].1), dir, saved[1..], hash);
    }
  }
}

=== FILE: stages.dfy ===
/**
 * Stages: calling a stage aggregates its arguments, resolves its data
 * dependencies (each one a call of another stage), hashes its function
 * dependencies, runs the function or reuses the stored result, and finally
 * notifies every hook registered on the stage.  Resolution recurses through
 * the dependency graph, which the ranks of `Core.Closed` keep acyclic.
 */
module Stages {
  import opened Wrappers
  import opened Core
  import opened Arguments
  import opened ArgAggregation
  import opened Hashing
  import opened FunctionDependencies
  import opened Storage
  import opened StagePersistence
  import opened HookPersistence
  import opened Execution
  import opened Hooks

  /**
   * A data-dependency argument was resolved: the store of the dependency's
   * stage holds the argument's result under `reference`, and the argument
   * carries the whole stored invocation exactly when metadata was asked for.
   */
  ghost predicate ResolvedAs(files: map<Path, PersistedInvocation>, globalCacheDir: Path, dependency: ResultDependency,
                             reference: Digest, arg: ArgValue) {
    var dir := dependency.stage.CacheDir(globalCacheDir);
    LoadResultValue(files, dir, reference) == Ok(ResultOf(arg)) &&
    arg.WithMetadata? == dependency.withMetadata &&
    (arg.WithMetadata? ==> StoredAs(files, dir, reference, arg.invocation))
  }

  /** Whatever is stored stays stored: growing the store keeps every loaded record. */
  lemma LoadExtends(before: map<Path, PersistedInvocation>, after: map<Path, PersistedInvocation>, dir: Path, hash: Digest)
    requires Extends(before, after) && LoadStageResult(before, dir, hash).Some?
    ensures LoadStageResult(after, dir, hash) == LoadStageResult(before, dir, hash)
  {
    assert StageResultPath(dir, hash) in before;
  }

  lemma ResolvedAsExtends(before: map<Path, PersistedInvocation>, after: map<Path, PersistedInvocation>,
                          globalCacheDir: Path, dependency: ResultDependency, reference: Digest, arg: ArgValue)
    requires Extends(before, after) && ResolvedAs(before, globalCacheDir, dependency, reference, arg)
    ensures ResolvedAs(after, globalCacheDir, dependency, reference, arg)
  {
    LoadExtends(before, after, dependency.stage.CacheDir(globalCacheDir), reference);
  }

  /** A stored invocation resolves a dependency argument built from it. */
  lemma ResolvedFromStored(files: map<Path, PersistedInvocation>, globalCacheDir: Path, dependency: ResultDependency,
                           reference: Digest, inv: Invocation)
    requires StoredAs(files, dependency.stage.CacheDir(globalCacheDir), reference, inv)
    ensures ResolvedAs(files, globalCacheDir, dependency, reference, DependencyArg(dependency.withMetadata, inv))
  {
  }

  /** Every data-dependency argument collected so far is resolved. */
  ghost predicate AllResolved(files: map<Path, PersistedInvocation>, globalCacheDir: Path,
                              dependencies: map<string, ResultDependency>, references: map<string, Digest>,
                              args: map<string, ArgValue>) {
    forall n :: n in args ==>
      n in dependencies && n in references && ResolvedAs(files, globalCacheDir, dependencies[n], references[n], args[n])
  }

  /** Resolving one more dependency keeps the earlier ones resolved in the grown store. */
  lemma AllResolvedStep(before: map<Path, PersistedInvocation>, after: map<Path, PersistedInvocation>, globalCacheDir: Path,
                        dependencies: map<string, ResultDependency>, references: map<string, Digest>,
                        args: map<string, ArgValue>, n: string, reference: Digest, inv: Invocation)
    requires AllResolved(before, globalCacheDir, dependencies, references, args) && Extends(before, after)
    requires n in dependencies && StoredAs(after, dependencies[n].stage.CacheDir(globalCacheDir), reference, inv)
    ensures AllResolved(after, globalCacheDir, dependencies, references[n := reference],
                        args[n := DependencyArg(dependencies[n].withMetadata, inv)])
  {
    var args' := args[n := DependencyArg(dependencies[n].withMetadata, inv)];
    var references' := references[n := reference];
    forall m | m in args'
      ensures m in dependencies && m in references' &&
        ResolvedAs(after, globalCacheDir, dependencies[m], references'[m], args'[m])
    {
      if m == n {
        ResolvedFromStored(after, globalCacheDir, dependencies[n], reference, inv);
      } else {
        ResolvedAsExtends(before, after, globalCacheDir, dependencies[m], references[m], args[m]);
      }
    }
  }

  /** The notifications a stage sends for one result, one per registered callback in registration order. */
  function Notifications(callbacks: seq<HookCallback>, hash: Digest, result: Invocation): (r: seq<Notification>)
    ensures |r| == |callbacks|
    ensures forall i :: 0 <= i < |r| ==> r[i].callback == callbacks[i] && r[i].resultReference == hash && r[i].result == result
  {
    seq(|callbacks|, i requires 0 <= i < |callbacks| => Notification(callbacks[i], hash, result))
  }

  /** Notifying one more callback appends its notification. */
  lemma NotificationsSnoc(callbacks: seq<HookCallback>, i: nat, hash: Digest, result: Invocation)
    requires i < |callbacks|
    ensures Notifications(callbacks[..i + 1], hash, result) ==
      Notifications(callbacks[..i], hash, result) + [Notification(callbacks[i], hash, result)]
  {
  }

  /** The dependencies found by aggregating a stage's arguments are all below the stage. */
  lemma AggregationBounded(stage: Stage, args: Option<Args>, stages: set<Stage>)
    requires Ranked(stages) && stage in stages && Aggregate(stage.stageFunc.params, args).Ok?
    ensures var agg := Aggregate(stage.stageFunc.params, args).value;
      forall n :: n in agg.dataDependencies ==>
        agg.dataDependencies[n].stage in stages && agg.dataDependencies[n].stage.rank < stage.rank
    ensures var agg := Aggregate(stage.stageFunc.params, args).value;
      forall n :: n in agg.funcDependencies ==> CalleeBounded(agg.funcDependencies[n].callee, stage.rank, stages)
  {
    var params := stage.stageFunc.params;
    var agg := Aggregate(params, args).value;
    assert FuncBounded(stage.stageFunc, stage.rank, stages);
    DataDependenciesFromDefaults(params, args, |params|);
    FuncDependenciesFromDefaults(params, args, |params|);
    forall n | n in agg.dataDependencies
      ensures agg.dataDependencies[n].stage in stages && agg.dataDependencies[n].stage.rank < stage.rank
    {
      var i :| 0 <= i < |params| && params[i].name == n && params[i].default == Some(UseRes(agg.dataDependencies[n]));
      assert DefaultBounded(params[i], stage.rank, stages);
      assert ValueBounded(UseRes(agg.dataDependencies[n]), stage.rank, stages);
    }
    forall n | n in agg.funcDependencies
      ensures CalleeBounded(agg.funcDependencies[n].callee, stage.rank, stages)
    {
      var i :| 0 <= i < |params| && params[i].name == n && params[i].default == Some(UseFn(agg.funcDependencies[n]));
      assert DefaultBounded(params[i], stage.rank, stages);
      assert ValueBounded(UseFn(agg.funcDependencies[n]), stage.rank, stages);
    }
  }

  /** Each data-dependency hash is the value hash of the dependency's result. */
  ghost predicate HashedResults(P: Primitives, args: map<string, ArgValue>, hashes: map<string, Digest>) {
    forall n :: n in args ==> n in hashes && hashes[n] == ValueHash(P, Obj(Plain(ResultOf(args[n]))))
  }

  /** The three maps collected so far hold exactly the names no longer remaining. */
  ghost predicate KeysCollected(names: set<string>, remaining: set<string>, args: map<string, ArgValue>,
                                hashes: map<string, Digest>, references: map<string, Digest>) {
    args.Keys == names - remaining && hashes.Keys == names - remaining && references.Keys == names - remaining
  }

  lemma CollectStep(P: Primitives, names: set<string>, remaining: set<string>, args: map<string, ArgValue>,
                    hashes: map<string, Digest>, references: map<string, Digest>, n: string, arg: ArgValue, reference: Digest)
    requires KeysCollected(names, remaining, args, hashes, references) && HashedResults(P, args, hashes)
    requires n in remaining && remaining <= names
    ensures KeysCollected(names, remaining - {n}, args[n := arg],
                          hashes[n := ValueHash(P, Obj(Plain(ResultOf(arg))))], references[n := reference])
    ensures HashedResults(P, args[n := arg], hashes[n := ValueHash(P, Obj(Plain(ResultOf(arg))))])
  {
    assert names - (remaining - {n}) == (names - remaining) + {n};
  }

  /** What the data-dependency loop has collected for the names no longer remaining. */
  ghost predicate Collected(P: Primitives, files: map<Path, PersistedInvocation>, globalCacheDir: Path,
                            dependencies: map<string, ResultDependency>, remaining: set<string>,
                            args: map<string, ArgValue>, hashes: map<string, Digest>, references: map<string, Digest>) {
    remaining <= dependencies.Keys &&
    KeysCollected(dependencies.Keys, remaining, args, hashes, references) &&
    HashedResults(P, args, hashes) &&
    AllResolved(files, globalCacheDir, dependencies, references, args)
  }

  /** Collecting one more resolved dependency keeps the loop's bookkeeping. */
  lemma CollectedStep(P: Primitives, before: map<Path, PersistedInvocation>, after: map<Path, PersistedInvocation>,
                      globalCacheDir: Path, dependencies: map<string, ResultDependency>, remaining: set<string>,
                      args: map<string, ArgValue>, hashes: map<string, Digest>, references: map<string, Digest>,
                      n: string, reference: Digest, inv: Invocation)
    requires Collected(P, before, globalCacheDir, dependencies, remaining, args, hashes, references)
    requires Extends(before, after) && n in remaining
    requires StoredAs(after, dependencies[n].stage.CacheDir(globalCacheDir), reference, inv)
    ensures var arg := DependencyArg(dependencies[n].withMetadata, inv);
      Collected(P, after, globalCacheDir, dependencies, remaining - {n}, args[n := arg],
                hashes[n := ValueHash(P, Obj(Plain(ResultOf(arg))))], references[n := reference])
  {
    var arg := DependencyArg(dependencies[n].withMetadata, inv);
    AllResolvedStep(before, after, globalCacheDir, dependencies, references, args, n, reference, inv);
    CollectStep(P, dependencies.Keys, remaining, args, hashes, references, n, arg, reference);
  }

  /** Once nothing remains, every dependency has been collected. */
  lemma CollectedAll(P: Primitives, files: map<Path, PersistedInvocation>, globalCacheDir: Path,
                     dependencies: map<string, ResultDependency>,
                     args: map<string, ArgValue>, hashes: map<string, Digest>, references: map<string, Digest>)
    requires Collected(P, files, globalCacheDir, dependencies, {}, args, hashes, references)
    ensures args.Keys == dependencies.Keys && hashes.Keys == dependencies.Keys && references.Keys == dependencies.Keys
    ensures AllResolved(files, globalCacheDir, dependencies, references, args) && HashedResults(P, args, hashes)
  {
    assert dependencies.Keys - {} == dependencies.Keys;
  }

  // ---------------------------------------------------------------------------
  // What a call may raise, and which functions it may run.

  /** The arguments passed for a data dependency, `None` when none were. */
  function Passed(passed: map<string, Args>, n: string): Option<Args> {
    if n in passed then Some(passed[n]) else None
  }

  /** The hooks registered on the stages of `stages`. */
  ghost function HooksOf(stages: set<Stage>): set<Hook>
    reads stages
  {
    set s, c | s in stages && c in s.hookCallbacks :: c.hook
  }

  /**
   * Calling `stage` on `args` may raise `e`: the aggregation of the arguments
   * fails with `e`, or one of the data dependencies may raise `e`, or the hash
   * of the function dependencies or of the stage function's code fails with
   * `e`, or one of the stage's hooks may raise `e`.  Nothing else raises.
   */
  ghost predicate MayRaise(P: Primitives, stage: Stage, args: Args, stages: set<Stage>, e: Error)
    reads stages, HooksOf(stages)
    requires Closed(stages) && stage in stages
    decreases stage.rank, 1
  {
    match Aggregate(stage.stageFunc.params, Some(args))
    case Err(a) => e == a
    case Ok(agg) =>
      AggregationBounded(stage, Some(args), stages);
      DependenciesMayRaise(P, agg, stages, stage.rank, e) ||
      CodeHash(P, stage.stageFunc) == Err(e) ||
      exists c :: c in stage.hookCallbacks && HookMayRaise(P, c, e)
  }

  /**
   * Preparing the execution of `agg` may raise `e`: a data dependency, called
   * with its declared arguments merged with the passed ones, may raise `e`, or
   * hashing the function dependencies fails with `e`.
   */
  ghost predicate DependenciesMayRaise(P: Primitives, agg: AggregationResult, stages: set<Stage>, bound: nat, e: Error)
    reads stages, HooksOf(stages)
    requires Closed(stages)
    requires forall n :: n in agg.dataDependencies ==>
      agg.dataDependencies[n].stage in stages && agg.dataDependencies[n].stage.rank < bound
    requires forall n :: n in agg.funcDependencies ==> CalleeBounded(agg.funcDependencies[n].callee, bound, stages)
    decreases bound, 0
  {
    (exists n :: n in agg.dataDependencies &&
       MayRaise(P, agg.dataDependencies[n].stage,
                MergeArgs(agg.dataDependencies[n].args, Passed(agg.dataDependencyArgs, n)), stages, e)) ||
    FunctionDependencyHashes(P, agg.funcDependencies, stages, bound) == Err(e)
  }

  /** A failure of the preparation or of the code hash is a failure the stage call may raise. */
  lemma ExecutionFailureMayRaise(P: Primitives, stage: Stage, args: Args, agg: AggregationResult, stages: set<Stage>, e: Error)
    requires Closed(stages) && stage in stages && Aggregate(stage.stageFunc.params, Some(args)) == Ok(agg)
    requires forall n :: n in agg.dataDependencies ==>
      agg.dataDependencies[n].stage in stages && agg.dataDependencies[n].stage.rank < stage.rank
    requires forall n :: n in agg.funcDependencies ==> CalleeBounded(agg.funcDependencies[n].callee, stage.rank, stages)
    requires DependenciesMayRaise(P, agg, stages, stage.rank, e) || CodeHash(P, stage.stageFunc) == Err(e)
    ensures MayRaise(P, stage, args, stages, e)
  {
  }

  /** A failure raised by one of the stage's hooks is a failure the stage call may raise. */
  lemma HookFailureMayRaise(P: Primitives, stage: Stage, args: Args, stages: set<Stage>, i: nat, e: Error)
    requires Closed(stages) && stage in stages && Aggregate(stage.stageFunc.params, Some(args)).Ok?
    requires i < |stage.hookCallbacks| && HookMayRaise(P, stage.hookCallbacks[i], e)
    ensures MayRaise(P, stage, args, stages, e)
  {
    assert stage.hookCallbacks[i] in stage.hookCallbacks;
  }

  /** A call ran the function of a stage of `stages` ranked below `bound`. */
  ghost predicate RunBelow(call: Call, bound: nat, stages: set<Stage>)
  {
    exists s :: s in stages && s.rank < bound && s.stageFunc == call.func
  }

  /** Every call logged from position `from` on ran the function of a stage ranked below `bound`. */
  ghost predicate RanBelow(executions: seq<Call>, from: nat, bound: nat, stages: set<Stage>)
  {
    from <= |executions| && forall i :: from <= i < |executions| ==> RunBelow(executions[i], bound, stages)
  }

  /** A stage that ran its own function at most once ran below the next rank. */
  lemma RanStage(executions: seq<Call>, later: seq<Call>, stage: Stage, args: map<string, ArgValue>, stages: set<Stage>)
    requires stage in stages
    requires later == executions || later == executions + [Call(stage.stageFunc, args)]
    ensures RanBelow(later, |executions|, stage.rank + 1, stages)
  {
    if later != executions {
      assert RunBelow(later[|executions|], stage.rank + 1, stages) by {
        assert stage in stages && stage.rank < stage.rank + 1 && stage.stageFunc == later[|executions|].func;
      }
    }
  }

  /** Runs below a bound are runs below any larger bound, and runs logged in two stretches join. */
  lemma RanBelowJoin(executions: seq<Call>, later: seq<Call>, from: nat, bound: nat, bound': nat, stages: set<Stage>)
    requires executions <= later && bound <= bound'
    requires RanBelow(executions, from, bound', stages) && RanBelow(later, |executions|, bound, stages)
    ensures RanBelow(later, from, bound', stages)
  {
    forall i | from <= i < |later|
      ensures RunBelow(later[i], bound', stages)
    {
      if i < |executions| {
        assert later[i] == executions[i];
      } else {
        assert RunBelow(later[i], bound, stages);
      }
    }
  }

  /**
   * The loop of `prepare_execution` over the data dependencies: each one is
   * resolved with its declared arguments merged with the passed ones, and
   * its argument value, value hash and stage hash are collected.
   */
  method ResolveDataDependencies(rt: Runtime, dependencies: map<string, ResultDependency>, passed: map<string, Args>,
                                 ghost stages: set<Stage>, ghost bound: nat)
    returns (r: Result<(map<string, ArgValue>, map<string, Digest>, map<string, Digest>), Error>)
    requires Closed(stages)
    requires forall n :: n in dependencies ==> dependencies[n].stage in stages && dependencies[n].stage.rank < bound
    modifies rt
    decreases bound, 1
    ensures Extends(old(rt.stageFiles), rt.stageFiles)
    ensures r.Ok? ==> r.value.0.Keys == dependencies.Keys && r.value.1.Keys == dependencies.Keys && r.value.2.Keys == dependencies.Keys
    ensures r.Ok? ==> AllResolved(rt.stageFiles, rt.globalCacheDir, dependencies, r.value.2, r.value.0)
    ensures r.Ok? ==> HashedResults(rt.P, r.value.0, r.value.1)
    ensures r.Ok? ==> AllHashed(rt.P, rt.stageFiles, rt.globalCacheDir, dependencies, passed, stages, bound, r.value.2)
    ensures r.Err? ==>
      exists n :: n in dependencies &&
        MayRaise(rt.P, dependencies[n].stage, MergeArgs(dependencies[n].args, Passed(passed, n)), stages, r.error)
    ensures old(rt.executions) <= rt.executions && RanBelow(rt.executions, |old(rt.executions)|, bound, stages)
  {
    var dataResults: map<string, ArgValue> := map[];
    var dataHashes: map<string, Digest> := map[];
    var references: map<string, Digest> := map[];
    var remaining := dependencies.Keys;
    while remaining != {}
      invariant Extends(old(rt.stageFiles), rt.stageFiles)
      invariant Collected(rt.P, rt.stageFiles, rt.globalCacheDir, dependencies, remaining, dataResults, dataHashes, references)
      invariant AllHashed(rt.P, rt.stageFiles, rt.globalCacheDir, dependencies, passed, stages, bound, references)
      invariant old(rt.executions) <= rt.executions && RanBelow(rt.executions, |old(rt.executions)|, bound, stages)
      decreases remaining
    {
      var n :| n in remaining;
      var dependency := dependencies[n];
      var mergedArgs := MergeArgs(dependency.args, Passed(passed, n));
      ghost var filesBefore := rt.stageFiles;
      ghost var executionsBefore := rt.executions;
      var resolved, resolvedData, resolvedStore := Resolve(rt, dependency, mergedArgs, stages);
      RanBelowJoin(executionsBefore, rt.executions, |old(rt.executions)|, dependency.stage.rank + 1, bound, stages);
      if resolved.Err? {
        return Err(resolved.error);
      }
      var (dependencyHash, dependencyResult) := resolved.value;
      HashedCallExtends(rt.P, resolvedStore, rt.stageFiles, rt.globalCacheDir, dependency.stage, mergedArgs, stages,
                        HashesOf(resolvedData), dependencyHash);
      AllHashedStep(rt.P, filesBefore, rt.stageFiles, rt.globalCacheDir, dependencies, passed, stages, bound, references, n,
                    dependencyHash);
      var arg := DependencyArg(dependency.withMetadata, dependencyResult);
      CollectedStep(rt.P, filesBefore, rt.stageFiles, rt.globalCacheDir, dependencies, remaining, dataResults, dataHashes,
                    references, n, dependencyHash, dependencyResult);
      dataResults := dataResults[n := arg];
      dataHashes := dataHashes[n := ValueHash(rt.P, Obj(Plain(ResultOf(arg))))];
      references := references[n := dependencyHash];
      remaining := remaining - {n};
    }
    CollectedAll(rt.P, rt.stageFiles, rt.globalCacheDir, dependencies, dataResults, dataHashes, references);
    return Ok((dataResults, dataHashes, references));
  }

  /**
   * What `prepare_execution` promises about the data it returns: every
   * argument has a value; every data-dependency argument was resolved and can
   * be restored from its reference; a function dependency not shadowed by a
   * data dependency is passed as the function itself, and a literal shadowed
   * by neither is passed as its value; and the hashes are those of
   * `HashesPrepared`.
   */
  ghost predicate Prepared(P: Primitives, files: map<Path, PersistedInvocation>, globalCacheDir: Path,
                           agg: AggregationResult, stages: set<Stage>, bound: nat, ed: ExecutionData)
    requires Ranked(stages)
  {
    WellFormed(ed) &&
    ed.argValues.Keys == agg.nonDependencyArgs.Keys + agg.funcDependencies.Keys + agg.dataDependencies.Keys &&
    ed.resultReferenceHashes.Keys == agg.dataDependencies.Keys &&
    (forall n :: n in agg.dataDependencies ==>
      ResolvedAs(files, globalCacheDir, agg.dataDependencies[n], ed.resultReferenceHashes[n], ed.argValues[n])) &&
    (forall n :: n in agg.funcDependencies && n !in agg.dataDependencies ==>
      ed.argValues[n] == Callable(agg.funcDependencies[n])) &&
    (forall n :: n in agg.nonDependencyArgs && n !in agg.funcDependencies && n !in agg.dataDependencies ==>
      ed.argValues[n] == Literal(agg.nonDependencyArgs[n])) &&
    HashesPrepared(P, files, globalCacheDir, agg, stages, bound, HashesOf(ed))
  }

  /** The hashes of a call, without the argument values: all the stage hash is built from, and the references. */
  datatype CallHashes = CallHashes(
    nonDependencyHashes: map<string, Digest>,
    dataDependencyHashes: map<string, Digest>,
    functionDependencyHashes: map<string, Digest>,
    resultReferenceHashes: map<string, Digest>)

  function HashesOf(ed: ExecutionData): CallHashes {
    CallHashes(ed.nonDependencyHashes, ed.dataDependencyHashes, ed.functionDependencyHashes, ed.resultReferenceHashes)
  }

  /** Execution data carrying only the hashes `h`, which is all `StageHash` looks at. */
  function HashedData(h: CallHashes): (ed: ExecutionData)
    ensures HashesOf(ed) == h
  {
    ExecutionData(map[], h.nonDependencyHashes, h.dataDependencyHashes, h.functionDependencyHashes, h.resultReferenceHashes)
  }

  /**
   * The hashes `prepare_execution` computes for `agg` against `files`:
   * literals hashed by value; every data dependency has a reference under
   * which its stage's directory holds a record, hashed by the value of that
   * record's result; and every reference is the stage hash of a call of the
   * dependency's stage, ranked below `bound`, on its merged arguments
   * (`DependencyHashed`).
   */
  ghost predicate HashesPrepared(P: Primitives, files: map<Path, PersistedInvocation>, globalCacheDir: Path,
                                 agg: AggregationResult, stages: set<Stage>, bound: nat, h: CallHashes)
    requires Ranked(stages)
    decreases bound, 1
  {
    h.nonDependencyHashes == LiteralHashes(P, agg.nonDependencyArgs) &&
    h.dataDependencyHashes.Keys == agg.dataDependencies.Keys &&
    h.resultReferenceHashes.Keys == agg.dataDependencies.Keys &&
    forall n :: n in agg.dataDependencies ==>
      var loaded := LoadResultValue(files, agg.dataDependencies[n].stage.CacheDir(globalCacheDir), h.resultReferenceHashes[n]);
      loaded.Ok? && h.dataDependencyHashes[n] == ValueHash(P, Obj(Plain(loaded.value))) &&
      DependencyHashed(P, files, globalCacheDir, agg.dataDependencies[n], Passed(agg.dataDependencyArgs, n), stages, bound,
                       h.resultReferenceHashes[n])
  }

  /**
   * `reference` is the stage hash of a call of the dependency's stage, ranked
   * below `bound`, on its declared arguments merged with `passed`, as
   * `HashedCall` computes it against `files`.
   */
  ghost predicate DependencyHashed(P: Primitives, files: map<Path, PersistedInvocation>, globalCacheDir: Path,
                                   dependency: ResultDependency, passed: Option<Args>, stages: set<Stage>, bound: nat,
                                   reference: Digest)
    requires Ranked(stages)
    decreases bound, 0
  {
    dependency.stage in stages && dependency.stage.rank < bound &&
    exists h :: HashedCall(P, files, globalCacheDir, dependency.stage, MergeArgs(dependency.args, passed), stages, h, reference)
  }

  /**
   * `reference` is the stage hash of calling `stage` on `args` against the
   * store `files`: the arguments aggregate, `h` holds the hashes prepared from
   * them (its data dependencies' references hashed the same way, down the
   * ranks) and the function dependencies' hashes, and `reference` is the
   * `StageHash` of the stage function's code hash and `h`.
   */
  ghost predicate HashedCall(P: Primitives, files: map<Path, PersistedInvocation>, globalCacheDir: Path, stage: Stage,
                             args: Args, stages: set<Stage>, h: CallHashes, reference: Digest)
    requires Ranked(stages) && stage in stages
    decreases stage.rank, 2
  {
    Aggregate(stage.stageFunc.params, Some(args)).Ok? &&
    var agg := Aggregate(stage.stageFunc.params, Some(args)).value;
    AggregationBounded(stage, Some(args), stages);
    FunctionDependencyHashes(P, agg.funcDependencies, stages, stage.rank) == Ok(h.functionDependencyHashes) &&
    HashesPrepared(P, files, globalCacheDir, agg, stages, stage.rank, h) &&
    CodeHash(P, stage.stageFunc).Ok? && reference == StageHash(P, CodeHash(P, stage.stageFunc).value, HashedData(h))
  }

  /** Growing the store keeps a hashed call hashed. */
  lemma {:induction false} HashedCallExtends(P: Primitives, before: map<Path, PersistedInvocation>,
                                             after: map<Path, PersistedInvocation>, globalCacheDir: Path, stage: Stage,
                                             args: Args, stages: set<Stage>, h: CallHashes, reference: Digest)
    requires Ranked(stages) && stage in stages && Extends(before, after)
    requires HashedCall(P, before, globalCacheDir, stage, args, stages, h, reference)
    ensures HashedCall(P, after, globalCacheDir, stage, args, stages, h, reference)
    decreases stage.rank, 2
  {
    var agg := Aggregate(stage.stageFunc.params, Some(args)).value;
    AggregationBounded(stage, Some(args), stages);
    HashesPreparedExtends(P, before, after, globalCacheDir, agg, stages, stage.rank, h);
  }

  /** Growing the store keeps prepared hashes prepared. */
  lemma {:induction false} HashesPreparedExtends(P: Primitives, before: map<Path, PersistedInvocation>,
                                                 after: map<Path, PersistedInvocation>, globalCacheDir: Path,
                                                 agg: AggregationResult, stages: set<Stage>, bound: nat, h: CallHashes)
    requires Ranked(stages) && Extends(before, after)
    requires HashesPrepared(P, before, globalCacheDir, agg, stages, bound, h)
    ensures HashesPrepared(P, after, globalCacheDir, agg, stages, bound, h)
    decreases bound, 1
  {
    forall n | n in agg.dataDependencies
      ensures LoadResultValue(after, agg.dataDependencies[n].stage.CacheDir(globalCacheDir), h.resultReferenceHashes[n]) ==
              LoadResultValue(before, agg.dataDependencies[n].stage.CacheDir(globalCacheDir), h.resultReferenceHashes[n])
      ensures DependencyHashed(P, after, globalCacheDir, agg.dataDependencies[n], Passed(agg.dataDependencyArgs, n), stages,
                               bound, h.resultReferenceHashes[n])
    {
      LoadExtends(before, after, agg.dataDependencies[n].stage.CacheDir(globalCacheDir), h.resultReferenceHashes[n]);
      DependencyHashedExtends(P, before, after, globalCacheDir, agg.dataDependencies[n], Passed(agg.dataDependencyArgs, n),
                              stages, bound, h.resultReferenceHashes[n]);
    }
  }

  /** Growing the store keeps a dependency's reference hashed. */
  lemma {:induction false} DependencyHashedExtends(P: Primitives, before: map<Path, PersistedInvocation>,
                                                   after: map<Path, PersistedInvocation>, globalCacheDir: Path,
                                                   dependency: ResultDependency, passed: Option<Args>, stages: set<Stage>,
                                                   bound: nat, reference: Digest)
    requires Ranked(stages) && Extends(before, after)
    requires DependencyHashed(P, before, globalCacheDir, dependency, passed, stages, bound, reference)
    ensures DependencyHashed(P, after, globalCacheDir, dependency, passed, stages, bound, reference)
    decreases bound, 0
  {
    var h :| HashedCall(P, before, globalCacheDir, dependency.stage, MergeArgs(dependency.args, passed), stages, h, reference);
    HashedCallExtends(P, before, after, globalCacheDir, dependency.stage, MergeArgs(dependency.args, passed), stages, h,
                      reference);
  }

  /**
   * Against a given store, a call has one stage hash: the hashes prepared for
   * it, and so its reference, are determined by the stage and the arguments.
   */
  lemma {:induction false} HashedCallDetermined(P: Primitives, files: map<Path, PersistedInvocation>, globalCacheDir: Path,
                                                stage: Stage, args: Args, stages: set<Stage>, h1: CallHashes,
                                                reference1: Digest, h2: CallHashes, reference2: Digest)
    requires Ranked(stages) && stage in stages
    requires HashedCall(P, files, globalCacheDir, stage, args, stages, h1, reference1)
    requires HashedCall(P, files, globalCacheDir, stage, args, stages, h2, reference2)
    ensures h1 == h2 && reference1 == reference2
    decreases stage.rank, 3
  {
    var agg := Aggregate(stage.stageFunc.params, Some(args)).value;
    AggregationBounded(stage, Some(args), stages);
    HashesPreparedDetermined(P, files, globalCacheDir, agg, stages, stage.rank, h1, h2);
    SameMaps(h1.resultReferenceHashes, h2.resultReferenceHashes, agg.dataDependencies.Keys);
    SameMaps(h1.dataDependencyHashes, h2.dataDependencyHashes, agg.dataDependencies.Keys);
  }

  /** Two maps over the same keys that agree at every key are equal. */
  lemma SameMaps(m1: map<string, Digest>, m2: map<string, Digest>, keys: set<string>)
    requires m1.Keys == m2.Keys == keys && forall k :: k in keys ==> m1[k] == m2[k]
    ensures m1 == m2
  {
  }

  /** The hashes prepared for the same arguments against the same store agree. */
  lemma {:induction false} HashesPreparedDetermined(P: Primitives, files: map<Path, PersistedInvocation>,
                                                    globalCacheDir: Path, agg: AggregationResult, stages: set<Stage>,
                                                    bound: nat, h1: CallHashes, h2: CallHashes)
    requires Ranked(stages)
    requires HashesPrepared(P, files, globalCacheDir, agg, stages, bound, h1)
    requires HashesPrepared(P, files, globalCacheDir, agg, stages, bound, h2)
    ensures h1.nonDependencyHashes == h2.nonDependencyHashes
    ensures h1.resultReferenceHashes.Keys == h2.resultReferenceHashes.Keys == agg.dataDependencies.Keys
    ensures h1.dataDependencyHashes.Keys == h2.dataDependencyHashes.Keys == agg.dataDependencies.Keys
    ensures forall n :: n in agg.dataDependencies ==>
      h1.resultReferenceHashes[n] == h2.resultReferenceHashes[n] && h1.dataDependencyHashes[n] == h2.dataDependencyHashes[n]
    decreases bound, 2
  {
    forall n | n in agg.dataDependencies
      ensures h1.resultReferenceHashes[n] == h2.resultReferenceHashes[n]
      ensures h1.dataDependencyHashes[n] == h2.dataDependencyHashes[n]
    {
      DataHashDetermined(P, files, globalCacheDir, agg, stages, bound, h1, h2, n);
    }
  }

  /** ... and so do the reference and the hash of each data dependency among them. */
  lemma {:induction false} DataHashDetermined(P: Primitives, files: map<Path, PersistedInvocation>, globalCacheDir: Path,
                                              agg: AggregationResult, stages: set<Stage>, bound: nat, h1: CallHashes,
                                              h2: CallHashes, n: string)
    requires Ranked(stages) && n in agg.dataDependencies
    requires HashesPrepared(P, files, globalCacheDir, agg, stages, bound, h1)
    requires HashesPrepared(P, files, globalCacheDir, agg, stages, bound, h2)
    ensures h1.resultReferenceHashes[n] == h2.resultReferenceHashes[n]
    ensures h1.dataDependencyHashes[n] == h2.dataDependencyHashes[n]
    decreases bound, 1
  {
    DependencyHashedDetermined(P, files, globalCacheDir, agg.dataDependencies[n], Passed(agg.dataDependencyArgs, n),
                               stages, bound, h1.resultReferenceHashes[n], h2.resultReferenceHashes[n]);
  }

  /** A dependency has one reference against a given store. */
  lemma {:induction false} DependencyHashedDetermined(P: Primitives, files: map<Path, PersistedInvocation>,
                                                      globalCacheDir: Path, dependency: ResultDependency,
                                                      passed: Option<Args>, stages: set<Stage>, bound: nat,
                                                      reference1: Digest, reference2: Digest)
    requires Ranked(stages)
    requires DependencyHashed(P, files, globalCacheDir, dependency, passed, stages, bound, reference1)
    requires DependencyHashed(P, files, globalCacheDir, dependency, passed, stages, bound, reference2)
    ensures reference1 == reference2
    decreases bound, 0
  {
    var args := MergeArgs(dependency.args, passed);
    var h1 :| HashedCall(P, files, globalCacheDir, dependency.stage, args, stages, h1, reference1);
    var h2 :| HashedCall(P, files, globalCacheDir, dependency.stage, args, stages, h2, reference2);
    HashedCallDetermined(P, files, globalCacheDir, dependency.stage, args, stages, h1, reference1, h2, reference2);
  }

  /** Every dependency resolved so far has its reference hashed. */
  ghost predicate AllHashed(P: Primitives, files: map<Path, PersistedInvocation>, globalCacheDir: Path,
                            dependencies: map<string, ResultDependency>, passed: map<string, Args>, stages: set<Stage>,
                            bound: nat, references: map<string, Digest>)
    requires Ranked(stages)
  {
    forall n :: n in references && n in dependencies ==>
      DependencyHashed(P, files, globalCacheDir, dependencies[n], Passed(passed, n), stages, bound, references[n])
  }

  /** Resolving one more dependency keeps the earlier references hashed in the grown store. */
  lemma AllHashedStep(P: Primitives, before: map<Path, PersistedInvocation>, after: map<Path, PersistedInvocation>,
                      globalCacheDir: Path, dependencies: map<string, ResultDependency>, passed: map<string, Args>,
                      stages: set<Stage>, bound: nat, references: map<string, Digest>, n: string, reference: Digest)
    requires Ranked(stages) && Extends(before, after) && n in dependencies
    requires AllHashed(P, before, globalCacheDir, dependencies, passed, stages, bound, references)
    requires DependencyHashed(P, after, globalCacheDir, dependencies[n], Passed(passed, n), stages, bound, reference)
    ensures AllHashed(P, after, globalCacheDir, dependencies, passed, stages, bound, references[n := reference])
  {
    forall m | m in references && m in dependencies && m != n
      ensures DependencyHashed(P, after, globalCacheDir, dependencies[m], Passed(passed, m), stages, bound, references[m])
    {
      DependencyHashedExtends(P, before, after, globalCacheDir, dependencies[m], Passed(passed, m), stages, bound,
                              references[m]);
    }
  }

  /** The data assembled from resolved dependencies has every promised property. */
  lemma PreparedOf(P: Primitives, files: map<Path, PersistedInvocation>, globalCacheDir: Path, agg: AggregationResult,
                   dataResults: map<string, ArgValue>, dataHashes: map<string, Digest>, references: map<string, Digest>,
                   functionHashes: map<string, Digest>, stages: set<Stage>, bound: nat)
    requires Ranked(stages)
    requires dataResults.Keys == agg.dataDependencies.Keys && dataHashes.Keys == agg.dataDependencies.Keys
    requires references.Keys == agg.dataDependencies.Keys
    requires AllResolved(files, globalCacheDir, agg.dataDependencies, references, dataResults)
    requires HashedResults(P, dataResults, dataHashes)
    requires AllHashed(P, files, globalCacheDir, agg.dataDependencies, agg.dataDependencyArgs, stages, bound, references)
    ensures Prepared(P, files, globalCacheDir, agg, stages, bound,
                     ExecutionDataOf(P, agg, dataResults, dataHashes, references, functionHashes))
  {
    var ed := ExecutionDataOf(P, agg, dataResults, dataHashes, references, functionHashes);
    var deps := agg.dataDependencies;
    forall n | n in deps
      ensures ResolvedAs(files, globalCacheDir, deps[n], ed.resultReferenceHashes[n], ed.argValues[n])
    {
      assert n in dataResults && ed.argValues[n] == dataResults[n];
    }
    HashesPreparedOf(P, files, globalCacheDir, agg, dataResults, dataHashes, references, stages, bound, HashesOf(ed));
    forall n | n in agg.funcDependencies && n !in deps
      ensures ed.argValues[n] == Callable(agg.funcDependencies[n])
    {
      assert n !in dataResults;
    }
    forall n | n in agg.nonDependencyArgs && n !in agg.funcDependencies && n !in deps
      ensures ed.argValues[n] == Literal(agg.nonDependencyArgs[n])
    {
      assert n !in dataResults;
    }
  }

  /** The hashes assembled from resolved dependencies are the prepared ones. */
  lemma HashesPreparedOf(P: Primitives, files: map<Path, PersistedInvocation>, globalCacheDir: Path,
                         agg: AggregationResult, dataResults: map<string, ArgValue>, dataHashes: map<string, Digest>,
                         references: map<string, Digest>, stages: set<Stage>, bound: nat, h: CallHashes)
    requires Ranked(stages)
    requires dataResults.Keys == agg.dataDependencies.Keys && dataHashes.Keys == agg.dataDependencies.Keys
    requires references.Keys == agg.dataDependencies.Keys
    requires AllResolved(files, globalCacheDir, agg.dataDependencies, references, dataResults)
    requires HashedResults(P, dataResults, dataHashes)
    requires AllHashed(P, files, globalCacheDir, agg.dataDependencies, agg.dataDependencyArgs, stages, bound, references)
    requires h == CallHashes(LiteralHashes(P, agg.nonDependencyArgs), dataHashes, h.functionDependencyHashes, references)
    ensures HashesPrepared(P, files, globalCacheDir, agg, stages, bound, h)
  {
    forall n | n in agg.dataDependencies
      ensures var loaded := LoadResultValue(files, agg.dataDependencies[n].stage.CacheDir(globalCacheDir), references[n]);
        loaded.Ok? && dataHashes[n] == ValueHash(P, Obj(Plain(loaded.value)))
    {
      assert n in dataResults;
    }
  }

  /**
   * `prepare_execution`, with the result references set to the dependencies'
   * stage hashes: resolves every data dependency with its declared arguments
   * merged with the passed ones, and hashes the literals and the function
   * dependencies.  Every data-dependency argument can afterwards be restored
   * from its reference, and its hash is the value hash of its result.
   */
  method PrepareExecution(rt: Runtime, agg: AggregationResult, ghost stages: set<Stage>, ghost bound: nat)
    returns (r: Result<ExecutionData, Error>)
    requires Closed(stages)
    requires forall n :: n in agg.dataDependencies ==>
      agg.dataDependencies[n].stage in stages && agg.dataDependencies[n].stage.rank < bound
    requires forall n :: n in agg.funcDependencies ==> CalleeBounded(agg.funcDependencies[n].callee, bound, stages)
    modifies rt
    decreases bound, 2
    ensures Extends(old(rt.stageFiles), rt.stageFiles)
    ensures r.Ok? ==> Prepared(rt.P, rt.stageFiles, rt.globalCacheDir, agg, stages, bound, r.value)
    ensures r.Ok? ==> Ok(r.value.functionDependencyHashes) == FunctionDependencyHashes(rt.P, agg.funcDependencies, stages, bound)
    ensures r.Err? ==> DependenciesMayRaise(rt.P, agg, stages, bound, r.error)
    ensures old(rt.executions) <= rt.executions && RanBelow(rt.executions, |old(rt.executions)|, bound, stages)
  {
    var resolved := ResolveDataDependencies(rt, agg.dataDependencies, agg.dataDependencyArgs, stages, bound);
    if resolved.Err? {
      return Err(resolved.error);
    }
    var (dataResults, dataHashes, references) := resolved.value;
    var functionHashes := FunctionDependencyHashes(rt.P, agg.funcDependencies, stages, bound);
    if functionHashes.Err? {
      return Err(functionHashes.error);
    }
    PreparedOf(rt.P, rt.stageFiles, rt.globalCacheDir, agg, dataResults, dataHashes, references, functionHashes.value,
               stages, bound);
    return Ok(ExecutionDataOf(rt.P, agg, dataResults, dataHashes, references, functionHashes.value));
  }

  /** The execution data of a call that failed before its execution was prepared. */
  const NoExecutionData := ExecutionData(map[], map[], map[], map[], map[])

  /**
   * A successful call of `stage` on `args`: `hash` is the stage hash of the
   * call against the store `prepared` the dependencies left (`HashedCall`),
   * `ed` was prepared from the aggregated arguments against that store and
   * carries the hashes `HashedCall` found, and the stage function was run or
   * loaded on `ed` as `ExecutedOrLoaded` says.
   */
  ghost predicate ComputedAs(P: Primitives, run: (Func, map<string, ArgValue>) -> Datum, globalCacheDir: Path,
                             stage: Stage, args: Args, stages: set<Stage>, ed: ExecutionData,
                             prepared: map<Path, PersistedInvocation>, executions: seq<Call>, hash: Digest, inv: Invocation)
    requires Ranked(stages) && stage in stages
  {
    HashedCall(P, prepared, globalCacheDir, stage, args, stages, HashesOf(ed), hash) &&
    Prepared(P, prepared, globalCacheDir, Aggregate(stage.stageFunc.params, Some(args)).value, stages, stage.rank, ed) &&
    ExecutedOrLoaded(P, run, stage.stageFunc, stage.CacheDir(globalCacheDir), ed, prepared, executions, hash, inv)
  }

  /**
   * A run or load of data prepared from the aggregated arguments, with the
   * function dependencies hashed, is a computed call.
   */
  lemma ComputedAsOf(P: Primitives, run: (Func, map<string, ArgValue>) -> Datum, globalCacheDir: Path, stage: Stage,
                     args: Args, agg: AggregationResult, stages: set<Stage>, ed: ExecutionData,
                     prepared: map<Path, PersistedInvocation>, executions: seq<Call>, hash: Digest, inv: Invocation)
    requires Ranked(stages) && stage in stages && Aggregate(stage.stageFunc.params, Some(args)) == Ok(agg)
    requires forall n :: n in agg.funcDependencies ==> CalleeBounded(agg.funcDependencies[n].callee, stage.rank, stages)
    requires FunctionDependencyHashes(P, agg.funcDependencies, stages, stage.rank) == Ok(ed.functionDependencyHashes)
    requires Prepared(P, prepared, globalCacheDir, agg, stages, stage.rank, ed)
    requires ExecutedOrLoaded(P, run, stage.stageFunc, stage.CacheDir(globalCacheDir), ed, prepared, executions, hash, inv)
    ensures ComputedAs(P, run, globalCacheDir, stage, args, stages, ed, prepared, executions, hash, inv)
  {
  }

  /**
   * `ResultDependency.resolve`: the dependency's stage computes or loads its
   * result for the merged arguments.
   */
  method Resolve(rt: Runtime, dependency: ResultDependency, args: Args, ghost stages: set<Stage>)
    returns (r: Result<(Digest, Invocation), Error>, ghost ed: ExecutionData, ghost prepared: map<Path, PersistedInvocation>)
    requires Closed(stages) && dependency.stage in stages
    modifies rt
    decreases dependency.stage.rank, 6
    ensures Extends(old(rt.stageFiles), rt.stageFiles)
    ensures r.Ok? ==> StoredAs(rt.stageFiles, dependency.stage.CacheDir(rt.globalCacheDir), r.value.0, r.value.1)
    ensures r.Ok? ==> Extends(old(rt.stageFiles), prepared) && Extends(prepared, rt.stageFiles)
    ensures r.Ok? ==>
      ComputedAs(rt.P, rt.run, rt.globalCacheDir, dependency.stage, args, stages, ed, prepared, rt.executions, r.value.0, r.value.1)
    ensures r.Err? ==> MayRaise(rt.P, dependency.stage, args, stages, r.error)
    ensures old(rt.executions) <= rt.executions &&
      RanBelow(rt.executions, |old(rt.executions)|, dependency.stage.rank + 1, stages)
  {
    r, ed, prepared := ComputeOrLoad(rt, dependency.stage, args, stages);
  }

  /**
   * `Stage.compute_or_load_result`: aggregates the arguments, prepares the
   * execution, runs or loads, and notifies the hooks.  A result stored before
   * the call under the returned hash is the one returned.  On success the
   * stage's callbacks were the last to be notified, each once, in
   * registration order, with the returned hash and invocation.
   */
  method ComputeOrLoad(rt: Runtime, stage: Stage, args: Args, ghost stages: set<Stage>)
    returns (r: Result<(Digest, Invocation), Error>, ghost ed: ExecutionData, ghost prepared: map<Path, PersistedInvocation>)
    requires Closed(stages) && stage in stages
    modifies rt
    decreases stage.rank, 5
    ensures Extends(old(rt.stageFiles), rt.stageFiles)
    ensures Aggregate(stage.stageFunc.params, Some(args)).Err? ==>
      r == Err(Aggregate(stage.stageFunc.params, Some(args)).error) && unchanged(rt)
    ensures r.Ok? ==> StoredAs(rt.stageFiles, stage.CacheDir(rt.globalCacheDir), r.value.0, r.value.1)
    ensures r.Ok? ==> Extends(old(rt.stageFiles), prepared) && Extends(prepared, rt.stageFiles)
    ensures r.Ok? ==>
      ComputedAs(rt.P, rt.run, rt.globalCacheDir, stage, args, stages, ed, prepared, rt.executions, r.value.0, r.value.1)
    ensures r.Ok? && LoadStageResult(old(rt.stageFiles), stage.CacheDir(rt.globalCacheDir), r.value.0).Some? ==>
      r.value.1.result == LoadStageResult(old(rt.stageFiles), stage.CacheDir(rt.globalCacheDir), r.value.0).value.result
    ensures r.Ok? ==> |rt.notifications| >= |stage.hookCallbacks|
    ensures r.Ok? ==>
      rt.notifications[|rt.notifications| - |stage.hookCallbacks|..] == Notifications(stage.hookCallbacks, r.value.0, r.value.1)
    ensures r.Err? ==> MayRaise(rt.P, stage, args, stages, r.error)
    ensures old(rt.executions) <= rt.executions && RanBelow(rt.executions, |old(rt.executions)|, stage.rank + 1, stages)
    ensures r.Ok? && LoadStageResult(prepared, stage.CacheDir(rt.globalCacheDir), r.value.0).Some? ==>
      RanBelow(rt.executions, |old(rt.executions)|, stage.rank, stages)
  {
    var aggregated := AggregateArgs(stage.stageFunc, Some(args));
    if aggregated.Err? {
      r, ed, prepared := Err(aggregated.error), NoExecutionData, rt.stageFiles;
      return;
    }
    r, ed, prepared := ExecuteAndNotify(rt, stage, args, aggregated.value, stages);
  }

  /**
   * `Stage.compute_or_load_result` once the arguments are aggregated: runs or
   * loads, then notifies the hooks.
   */
  method ExecuteAndNotify(rt: Runtime, stage: Stage, ghost args: Args, agg: AggregationResult, ghost stages: set<Stage>)
    returns (r: Result<(Digest, Invocation), Error>, ghost ed: ExecutionData, ghost prepared: map<Path, PersistedInvocation>)
    requires Closed(stages) && stage in stages && Aggregate(stage.stageFunc.params, Some(args)) == Ok(agg)
    modifies rt
    decreases stage.rank, 4
    ensures Extends(old(rt.stageFiles), rt.stageFiles)
    ensures r.Ok? ==> StoredAs(rt.stageFiles, stage.CacheDir(rt.globalCacheDir), r.value.0, r.value.1)
    ensures r.Ok? ==> Extends(old(rt.stageFiles), prepared) && Extends(prepared, rt.stageFiles)
    ensures r.Ok? ==>
      ComputedAs(rt.P, rt.run, rt.globalCacheDir, stage, args, stages, ed, prepared, rt.executions, r.value.0, r.value.1)
    ensures r.Ok? && LoadStageResult(old(rt.stageFiles), stage.CacheDir(rt.globalCacheDir), r.value.0).Some? ==>
      r.value.1.result == LoadStageResult(old(rt.stageFiles), stage.CacheDir(rt.globalCacheDir), r.value.0).value.result
    ensures r.Ok? ==> |rt.notifications| >= |stage.hookCallbacks|
    ensures r.Ok? ==>
      rt.notifications[|rt.notifications| - |stage.hookCallbacks|..] == Notifications(stage.hookCallbacks, r.value.0, r.value.1)
    ensures r.Err? ==> MayRaise(rt.P, stage, args, stages, r.error)
    ensures old(rt.executions) <= rt.executions && RanBelow(rt.executions, |old(rt.executions)|, stage.rank + 1, stages)
    ensures r.Ok? && LoadStageResult(prepared, stage.CacheDir(rt.globalCacheDir), r.value.0).Some? ==>
      RanBelow(rt.executions, |old(rt.executions)|, stage.rank, stages)
  {
    AggregationBounded(stage, Some(args), stages);
    var executed: Result<(Digest, Invocation), Error>;
    executed, ed, prepared := PrepareAndExecute(rt, stage, args, agg, stages);
    if executed.Err? {
      ExecutionFailureMayRaise(rt.P, stage, args, agg, stages, executed.error);
      r := Err(executed.error);
      return;
    }
    var (stageHash, result) := executed.value;
    ghost var executionsRan, filesRan := rt.executions, rt.stageFiles;
    r := NotifyHooks(rt, stage, args, stages, stageHash, result);
    assert rt.executions == executionsRan && rt.stageFiles == filesRan;
  }

  /**
   * The end of `Stage.compute_or_load_result`: runs the stage's hooks on the
   * result and returns it, unless a hook raised.
   */
  method NotifyHooks(rt: Runtime, stage: Stage, ghost args: Args, ghost stages: set<Stage>, hash: Digest, result: Invocation)
    returns (r: Result<(Digest, Invocation), Error>)
    requires Closed(stages) && stage in stages && Aggregate(stage.stageFunc.params, Some(args)).Ok?
    modifies rt`hookFiles, rt`hookCalls, rt`notifications
    ensures r.Ok? ==> r.value == (hash, result)
    ensures r.Ok? ==> |rt.notifications| >= |stage.hookCallbacks|
    ensures r.Ok? ==>
      rt.notifications[|rt.notifications| - |stage.hookCallbacks|..] == Notifications(stage.hookCallbacks, hash, result)
    ensures r.Err? ==> MayRaise(rt.P, stage, args, stages, r.error)
  {
    assert CallbacksWellFormed(stage.hookCallbacks);
    ghost var notified := rt.notifications;
    var failure, failed := RunHooks(rt, stage, hash, result);
    if failure.Some? {
      HookFailureMayRaise(rt.P, stage, args, stages, failed, failure.value);
      return Err(failure.value);
    }
    assert rt.notifications[|notified|..] == Notifications(stage.hookCallbacks, hash, result);
    return Ok((hash, result));
  }

  /**
   * The middle of `Stage.compute_or_load_result`: prepares the execution of
   * the aggregated arguments and runs or loads the stage function in the
   * stage's cache directory.  A result stored before the call under the
   * returned hash is the one returned.
   */
  method PrepareAndExecute(rt: Runtime, stage: Stage, ghost args: Args, agg: AggregationResult, ghost stages: set<Stage>)
    returns (r: Result<(Digest, Invocation), Error>, ghost ed: ExecutionData, ghost prepared: map<Path, PersistedInvocation>)
    requires Closed(stages) && stage in stages && Aggregate(stage.stageFunc.params, Some(args)) == Ok(agg)
    requires forall n :: n in agg.dataDependencies ==>
      agg.dataDependencies[n].stage in stages && agg.dataDependencies[n].stage.rank < stage.rank
    requires forall n :: n in agg.funcDependencies ==> CalleeBounded(agg.funcDependencies[n].callee, stage.rank, stages)
    modifies rt
    decreases stage.rank, 3
    ensures Extends(old(rt.stageFiles), rt.stageFiles)
    ensures r.Ok? ==> StoredAs(rt.stageFiles, stage.CacheDir(rt.globalCacheDir), r.value.0, r.value.1)
    ensures r.Ok? ==> Extends(old(rt.stageFiles), prepared) && Extends(prepared, rt.stageFiles)
    ensures r.Ok? ==>
      ComputedAs(rt.P, rt.run, rt.globalCacheDir, stage, args, stages, ed, prepared, rt.executions, r.value.0, r.value.1)
    ensures r.Ok? && LoadStageResult(old(rt.stageFiles), stage.CacheDir(rt.globalCacheDir), r.value.0).Some? ==>
      r.value.1.result == LoadStageResult(old(rt.stageFiles), stage.CacheDir(rt.globalCacheDir), r.value.0).value.result
    ensures r.Err? ==>
      DependenciesMayRaise(rt.P, agg, stages, stage.rank, r.error) || CodeHash(rt.P, stage.stageFunc) == Err(r.error)
    ensures old(rt.executions) <= rt.executions && RanBelow(rt.executions, |old(rt.executions)|, stage.rank + 1, stages)
    ensures r.Ok? && LoadStageResult(prepared, stage.CacheDir(rt.globalCacheDir), r.value.0).Some? ==>
      RanBelow(rt.executions, |old(rt.executions)|, stage.rank, stages)
  {
    ghost var filesBefore := rt.stageFiles;
    var preparedData := PrepareExecution(rt, agg, stages, stage.rank);
    if preparedData.Err? {
      r, ed, prepared := Err(preparedData.error), NoExecutionData, rt.stageFiles;
      return;
    }
    var dir := stage.CacheDir(rt.globalCacheDir);
    ghost var executionsPrepared := rt.executions;
    ed := preparedData.value;
    prepared := rt.stageFiles;
    var executed := ExecOrLoad(rt, stage.stageFunc, preparedData.value, dir);
    ExtendsTransitive(filesBefore, prepared, rt.stageFiles);
    RanStage(executionsPrepared, rt.executions, stage, preparedData.value.argValues, stages);
    RanBelowJoin(old(rt.executions), executionsPrepared, |old(rt.executions)|, stage.rank, stage.rank + 1, stages);
    RanBelowJoin(executionsPrepared, rt.executions, |old(rt.executions)|, stage.rank + 1, stage.rank + 1, stages);
    if executed.Err? {
      r := Err(executed.error);
      return;
    }
    if LoadStageResult(filesBefore, dir, executed.value.0).Some? {
      LoadExtends(filesBefore, prepared, dir, executed.value.0);
    }
    ComputedAsOf(rt.P, rt.run, rt.globalCacheDir, stage, args, agg, stages, ed, prepared, rt.executions, executed.value.0,
                 executed.value.1);
    r := executed;
  }

  /**
   * One registered callback, the hook's `_execute_hook` with the argument name
   * bound: logs the notification and executes the hook.  A hook error leaves
   * the hook state files as they were and is one `HookRaises` allows.
   */
  method CallCallback(rt: Runtime, callback: HookCallback, hash: Digest, result: Invocation) returns (r: Option<Error>)
    requires callback.argName in callback.hook.subscriptions
    modifies rt`hookFiles, rt`hookCalls, rt`notifications
    ensures rt.notifications == old(rt.notifications) + [Notification(callback, hash, result)]
    ensures |old(rt.hookCalls)| <= |rt.hookCalls| <= |old(rt.hookCalls)| + 1
    ensures r.Some? ==> rt.hookFiles == old(rt.hookFiles)
    ensures r.Some? ==>
      HookRaises(rt.P, rt.hookFiles, rt.stageFiles, rt.globalCacheDir, callback.hook, callback.argName, hash, r.value)
    ensures r.Some? ==> HookMayRaise(rt.P, callback, r.value)
    ensures r.Some? <==>
      HookFails(rt.P, old(rt.hookFiles), rt.stageFiles, rt.globalCacheDir, callback.hook, callback.argName, hash)
    ensures r.None? ==> HookCodeHash(rt.P, callback.hook.hookFunc, callback.hook.functionDependencyHashes).Ok?
    ensures r.None? ==> rt.hookFiles == FilesAfterTrigger(old(rt.hookFiles), callback.hook.CacheDir(rt.globalCacheDir),
      callback.hook.hookFunc, HookCodeHash(rt.P, callback.hook.hookFunc, callback.hook.functionDependencyHashes).value,
      callback.argName, hash)
    ensures !HookFires(rt.P, old(rt.hookFiles), rt.stageFiles, rt.globalCacheDir, callback.hook, callback.argName, hash) ==>
      rt.hookCalls == old(rt.hookCalls)
    ensures HookFires(rt.P, old(rt.hookFiles), rt.stageFiles, rt.globalCacheDir, callback.hook, callback.argName, hash) ==>
      r.None? &&
      exists callData: map<string, ArgValue> ::
        rt.hookCalls == old(rt.hookCalls) + [Call(callback.hook.hookFunc, callData)] &&
        HookCallData(rt.stageFiles, rt.globalCacheDir, callback.hook,
                     StartStates(rt.P, old(rt.hookFiles), rt.globalCacheDir, callback.hook), callback.argName, result,
                     callData)
  {
    rt.notifications := rt.notifications + [Notification(callback, hash, result)];
    var outcome := ExecuteHook(rt, callback.hook, callback.argName, hash, result);
    if outcome.Err? {
      HookRaisesMayRaise(rt.P, rt.hookFiles, rt.stageFiles, rt.globalCacheDir, callback.hook, callback.argName, hash,
                         outcome.error);
      return Some(outcome.error);
    }
    return None;
  }

  /**
   * `Stage._run_hooks`: calls every registered callback in registration order;
   * an error raised by a hook stops the loop, and `failed` is the position of
   * the callback that raised it.  Each callback calls its hook at most once.
   */
  method RunHooks(rt: Runtime, stage: Stage, hash: Digest, result: Invocation) returns (r: Option<Error>, ghost failed: nat)
    requires CallbacksWellFormed(stage.hookCallbacks)
    modifies rt`hookFiles, rt`hookCalls, rt`notifications
    ensures |old(rt.notifications)| <= |rt.notifications| <= |old(rt.notifications)| + |stage.hookCallbacks|
    ensures rt.notifications ==
      old(rt.notifications) + Notifications(stage.hookCallbacks[..|rt.notifications| - |old(rt.notifications)|], hash, result)
    ensures r.None? ==> rt.notifications == old(rt.notifications) + Notifications(stage.hookCallbacks, hash, result)
    ensures |old(rt.hookCalls)| <= |rt.hookCalls| <= |old(rt.hookCalls)| + |stage.hookCallbacks|
    ensures r.Some? ==> failed < |stage.hookCallbacks| && |rt.notifications| == |old(rt.notifications)| + failed + 1
    ensures r.Some? ==>
      HookRaises(rt.P, rt.hookFiles, rt.stageFiles, rt.globalCacheDir, stage.hookCallbacks[failed].hook,
                 stage.hookCallbacks[failed].argName, hash, r.value) &&
      HookMayRaise(rt.P, stage.hookCallbacks[failed], r.value)
  {
    var callbacks := stage.hookCallbacks;
    var i := 0;
    while i < |callbacks|
      invariant 0 <= i <= |callbacks|
      invariant rt.notifications == old(rt.notifications) + Notifications(callbacks[..i], hash, result)
      invariant |old(rt.hookCalls)| <= |rt.hookCalls| <= |old(rt.hookCalls)| + i
    {
      NotificationsSnoc(callbacks, i, hash, result);
      var failure := CallCallback(rt, callbacks[i], hash, result);
      assert rt.notifications == old(rt.notifications) + Notifications(callbacks[..i + 1], hash, result);
      if failure.Some? {
        assert |rt.notifications| - |old(rt.notifications)| == i + 1;
        return failure, i;
      }
      i := i + 1;
    }
    assert callbacks[..i] == callbacks;
    return None, 0;
  }

  /**
   * `Stage.__call__`: the result of computing or loading, without its
   * metadata.  `computed` is what `compute_or_load_result` returned, the stage
   * hash and the invocation, and `ed` the data it prepared.
   */
  method CallStage(rt: Runtime, stage: Stage, args: Args, ghost stages: set<Stage>)
    returns (r: Result<Datum, Error>, ghost computed: Result<(Digest, Invocation), Error>, ghost ed: ExecutionData,
             ghost prepared: map<Path, PersistedInvocation>)
    requires Closed(stages) && stage in stages
    modifies rt
    ensures Extends(old(rt.stageFiles), rt.stageFiles)
    ensures Aggregate(stage.stageFunc.params, Some(args)).Err? ==>
      r == Err(Aggregate(stage.stageFunc.params, Some(args)).error) && unchanged(rt)
    ensures r.Ok? <==> computed.Ok?
    ensures r.Ok? ==> r.value == computed.value.1.result
    ensures r.Ok? ==> LoadResultValue(rt.stageFiles, stage.CacheDir(rt.globalCacheDir), computed.value.0) == Ok(r.value)
    ensures r.Ok? ==> Extends(old(rt.stageFiles), prepared) && Extends(prepared, rt.stageFiles)
    ensures r.Ok? ==> ComputedAs(rt.P, rt.run, rt.globalCacheDir, stage, args, stages, ed, prepared, rt.executions,
                                 computed.value.0, computed.value.1)
    ensures r.Err? ==> MayRaise(rt.P, stage, args, stages, r.error)
    ensures old(rt.executions) <= rt.executions && RanBelow(rt.executions, |old(rt.executions)|, stage.rank + 1, stages)
  {
    var result: Result<(Digest, Invocation), Error>;
    result, ed, prepared := ComputeOrLoad(rt, stage, args, stages);
    computed := result;
    if result.Err? {
      r := Err(result.error);
      return;
    }
    r := Ok(result.value.1.result);
  }
}

=== FILE: storage.dfy ===
/**
 * The world the engine runs in: the cache directory on disk (stage result files
 * and hook state files, each a map from path to the stored object), the global
 * cache directory setting, the wall clock, and the bodies of the user's
 * functions.  Ghost logs record every function execution, every hook call and
 * every notification a stage sends to a hook, so that contracts can count them.
 */
module Storage {
  import opened Core
  import opened Hashing

  /** One call of a user function (stage function or hook function) with named arguments. */
  datatype Call = Call(func: Func, args: map<string, ArgValue>)

  /** A stage passing (stage hash, invocation) to one registered hook callback. */
  datatype Notification = Notification(callback: HookCallback, resultReference: Digest, result: Invocation)

  /** One map extends another: every path of the first is still there, holding the same object. */
  ghost predicate Extends<V>(before: map<Path, V>, after: map<Path, V>) {
    forall p {:trigger before[p]} :: p in before ==> p in after && after[p] == before[p]
  }

  lemma ExtendsTransitive<V>(a: map<Path, V>, b: map<Path, V>, c: map<Path, V>)
    requires Extends(a, b) && Extends(b, c)
    ensures Extends(a, c)
  {
  }

  class Runtime {
    /** Serialisation, SHA-256 and the Python parser (see `Hashing.Primitives`). */
    const P: Primitives
    /** `get_cache_dir()`: the global cache directory. */
    const globalCacheDir: Path
    /** What calling a user function with named arguments returns. */
    const run: (Func, map<string, ArgValue>) -> Datum
    /** How long a call of a user function takes on the wall clock. */
    const durationOf: (Func, map<string, ArgValue>) -> nat
    /** `datetime.now()`. */
    var clock: int
    /** The pickled stage results, by file path. */
    var stageFiles: map<Path, PersistedInvocation>
    /** The pickled hook states, by file path. */
    var hookFiles: map<Path, HookStateRecord>
    ghost var executions: seq<Call>
    ghost var hookCalls: seq<Call>
    ghost var notifications: seq<Notification>

    constructor (P: Primitives, globalCacheDir: Path, run: (Func, map<string, ArgValue>) -> Datum,
                 durationOf: (Func, map<string, ArgValue>) -> nat, clock: int)
      ensures this.P == P && this.globalCacheDir == globalCacheDir && this.run == run
      ensures this.durationOf == durationOf && this.clock == clock
      ensures stageFiles == map[] && hookFiles == map[]
      ensures executions == [] && hookCalls == [] && notifications == []
    {
      this.P := P;
      this.globalCacheDir := globalCacheDir;
      this.run := run;
      this.durationOf := durationOf;
      this.clock := clock;
      stageFiles := map[];
      hookFiles := map[];
      executions := [];
      hookCalls := [];
      notifications := [];
    }
  }
}

=== FILE: wrappers.dfy ===
/** Optional values and results that carry the exceptions a Python call would raise. */
module Wrappers {

  /** A Python `Optional[...]`: `None` or a present value. */
  datatype Option<+T> = None | Some(value: T)

  /** The outcome of a call that may raise: a value, or the error it raises. */
  datatype Result<+T, +E> = Ok(value: T) | Err(error: E) {

    predicate IsFailure() {
      Err?
    }

    function PropagateFailure<U>(): Result<U, E>
      requires Err?
    {
      Err(error)
    }

    function Extract(): T
      requires Ok?
    {
      value
    }
  }
}
